=== FILE: README.md ===
# kabum payments core, modelled in Dafny

This project models the server-side core of the kabum shop (a Next.js
store that takes payments through Mercado Pago):

- **Webhook reconciliation** (`app/api/webhook/route.ts`). The handler
  works in this order:
  - it classifies the gateway's notification;
  - it fetches the payment details, making up to three attempts with a
    back-off between them;
  - it creates the local payment record when the payment is unknown and
    updates its status otherwise;
  - it logs the webhook event;
  - it sends the confirmation mail at most once every five minutes per
    payment;
  - it marks the event processed and acknowledges the request.
- **The payment store** (`prisma/prisma.config.ts`): create, update,
  lookup, listing, counting, event logging and marking. The store is
  modelled as two sequences, payments and webhook events, addressed by
  position. The unique indexes on gateway id and external reference, and
  the event → payment foreign key, are an invariant (`PaymentStore.Valid`).
- **The gateway client** (`app/lib/mercadopago.ts`): the validated
  callback URL, and the PIX and card request bodies with their
  error rewrapping.
- **The API routes**: coupon validation, the two PIX routes, the card
  route, registration, and variation creation.
- **The small pure helpers** behind the pages:
  - the checkout page's quantity, totals and payment parameters;
  - the search page's filter and price range;
  - the header's CEP, search and greeting;
  - the initials and display names of the dashboards;
  - browser normalisation, device coercion and the access-log row;
  - the middleware's client hints, IP and browser/device detection.

Everything the core cannot decide by itself is a parameter of the model:
- the gateway's answers, indexed by attempt number;
- whether the mailer succeeds;
- which store calls fail (`faults`);
- the clock (`now`);
- generated references and stamps;
- JavaScript's number parsing, already applied to the inputs;
- `encodeURIComponent`, URL parsing and password hashing, as functions
  passed in.

JavaScript's `trim`, `\s`, `\d`, `includes`, `split`, `||`, `??` and the
ASCII case mapping are modelled in module `Text`.

## Model

| member | source | states |
|---|---|---|
| EmailRules.EmailShapedIffPattern | app/api/webhook/route.ts:16 | The hand-written matcher accepts exactly the strings `local@left.right` with three non-empty runs free of whitespace and `@`, as the regular expression describes |
| EmailRules.ShapedMatches | app/api/webhook/route.ts:16 | A string the matcher accepts splits as `local@left.right`, at its first `@` and a dot with a character on each side |
| EmailRules.SplitIsShaped | app/api/webhook/route.ts:16 | Any split `local@left.right` into three runs free of whitespace and `@` has its `@` first, so the matcher accepts the string |
| EmailRules.EmailShapedIsTrimmed | app/api/webhook/route.ts:15-16 | An address that matches the pattern is non-empty, has no whitespace and is unchanged by trimming |
| EmailRules.ValidEmailMeaning | app/api/webhook/route.ts:13-21 | `isValidEmail` holds exactly for a present value whose trimmed, lower-cased form matches the pattern, does not end in `@example.com` and is not one of the two placeholder addresses |
| WebhookInput.PickBuyerEmail | app/api/webhook/route.ts:23-29 | The chosen address is always valid and is one of the buyer-email sources |
| Text.FirstTruthy | app/api/webhook/route.ts:25-28 | `a \|\| b \|\| ...` over optional strings gives the first non-empty candidate, with every earlier one empty, and nothing exactly when all are empty |
| Text.FirstTruthyIsFirstPresent | app/api/webhook/route.ts:25-28 | The choice equals the head of the list of non-empty candidates, or nothing when that list is empty |
| WebhookInput.PickBuyerEmailNoFallThrough | app/api/webhook/route.ts:23-29 | Only the first non-empty source is checked: when it is invalid the result is nothing, even if a later source is valid |
| WebhookInput.JoinPresent | app/api/webhook/route.ts:33-36 | Joining first and last name keeps only the present parts, with one space between two parts; the result is empty exactly when both are missing |
| WebhookInput.PickName | app/api/webhook/route.ts:32-38 | The payer's joined, trimmed name when that is not blank, otherwise the non-empty metadata customer name; never an empty name |
| Webhook.NameChainsCompared | app/api/webhook/route.ts:32-38 | The mailed name and the name handed to `createPayment` agree when the payer names give a non-blank name, and when there are no payer names but a customer name. Payer names of only whitespace hand over an empty name, while the mail falls back to the customer name |
| Webhook.StoredNameComparedToMailed | prisma/prisma.config.ts:34-39 | The name the store keeps is the mailed name when the payer names give a non-blank name. With no payer names, the customer name is mailed as given but stored trimmed, or as the sentinel when blank. Payer names of only whitespace store the sentinel, while the mail falls back to the customer name |
| Webhook.StoredName | prisma/prisma.config.ts:34-39 | The payer name stored for a new record is the handed-over name trimmed, or the sentinel when it trims to nothing |
| WebhookInput.FirstNonZero | app/api/webhook/route.ts:46-47 | `a \|\| b \|\| fallback` over numbers: the first present, non-zero candidate, and the fallback when there is none |
| WebhookInput.FirstNonZeroIsFirstOfNonZero | app/api/webhook/route.ts:46-47 | The choice equals the head of the list of present, non-zero candidates, or the fallback when that list is empty |
| WebhookInput.ItemOf | app/api/webhook/route.ts:45-49 | One item keeps its title. Its quantity is its own when present and non-zero, else 1. Its price is `unit_price` when present and non-zero, else `unitPrice` when present and non-zero, else 0 |
| WebhookInput.PickItems | app/api/webhook/route.ts:41-50 | One item per entry of an item array, in order, none when there is no array. Each keeps its title; the quantity is its own when present and non-zero, else 1; the unit price is `unit_price`, then `unitPrice`, then 0, skipping absent and zero values |
| WebhookInput.MarkSent | app/api/webhook/route.ts:53-56 | Marking records `now` for that payment id and leaves every other entry alone |
| WebhookInput.MarkSentSuppresses | app/api/webhook/route.ts:53-60 | A mark at a non-zero time makes `wasRecentlySent` true for that id for the next five minutes, and changes the answer for no other id |
| WebhookInput.Param | app/api/webhook/route.ts:71-73 | A query parameter is present exactly when its key is, and then carries that key's value |
| WebhookInput.EventType | app/api/webhook/route.ts:68-74 | The event type is the first non-empty of body `type`, body `action` and the query's `type`, `topic` and `action`: every earlier source is empty. It is empty exactly when all five are |
| WebhookInput.EventTypeCascade | app/api/webhook/route.ts:68-74 | The event type equals the five-way `\|\|` chain ending in the empty string, one source at a time |
| WebhookInput.PaymentIdOf | app/api/webhook/route.ts:76-80 | The payment id is the first non-empty of body `data.id`, query `data.id` and query `id`: every earlier source is empty. It is absent exactly when all three are empty |
| WebhookInput.PaymentIdCascade | app/api/webhook/route.ts:76-80 | The payment id equals the three-way `\|\|` chain ending in `null`, one source at a time |
| WebhookInput.Classify | app/api/webhook/route.ts:84-91 | Three disjoint outcomes:<br>• a payment notice exactly when a payment id is present;<br>• "missing id" exactly when the type mentions `payment` and there is no id;<br>• ignored otherwise |
| WebhookInput.BodyIdDecides | app/api/webhook/route.ts:76-91 | A non-empty body `data.id` makes the request a notice for that id, whatever the query and the type say |
| WebhookInput.NoIdTypeDecides | app/api/webhook/route.ts:84-91 | With all three id sources empty, the type alone decides between "missing id" and "ignored" |
| WebhookInput.FetchFrom | app/api/webhook/route.ts:94-108 | From attempt `i` on:<br>• the loop stops at the first attempt that answers with details, or after attempt three;<br>• it sleeps after exactly the earlier attempts that threw, in increasing order |
| WebhookInput.FetchDetails | app/api/webhook/route.ts:94-108 | Details are obtained exactly when some attempt from 1 to 3 answers with them, and then the first such attempt is the one used |
| WebhookInput.FetchDelaysBounded | app/api/webhook/route.ts:94-108 | The loop sleeps at most twice: 300 ms after attempt 1 and 600 ms after attempt 2 |
| PaymentStore.FindFirst | prisma/prisma.config.ts:107-125 | The lookup finds the first matching record position, or reports that no record matches |
| PaymentStore.FindByGatewayId | prisma/prisma.config.ts:107-111 | The position found holds that gateway id; when none is found, no record has it |
| PaymentStore.FindByReference | prisma/prisma.config.ts:128-132 | The position found holds that external reference; when none is found, no record has it |
| PaymentStore.FindByGatewayIdUnique | prisma/prisma.config.ts:107-111 | In a store that keeps its unique index, looking up a record's own gateway id finds exactly that record |
| PaymentStore.Recent | prisma/prisma.config.ts:112-117 | At most `n` events, all of them this payment's; if fewer than `n` are returned, none of the payment's events is missing |
| PaymentStore.RecentIsNewest | prisma/prisma.config.ts:112-117 | The embedded events are exactly the `n` latest events of the payment in log order, latest first, or all of them when there are fewer |
| PaymentStore.RecentNewestFirst | prisma/prisma.config.ts:112-117 | Over a log in creation order, the embedded events come newest first |
| PaymentStore.ViewOf | prisma/prisma.config.ts:107-125 | A payment view carries the record at that position and its `n` latest events, latest first |
| PaymentStore.GetPaymentByMercadoPagoId | prisma/prisma.config.ts:107-125 | A view is returned exactly when some record has the gateway id. It carries that record, its position, and the record's ten latest events, latest first |
| PaymentStore.GetPaymentByReference | prisma/prisma.config.ts:128-138 | A view is returned exactly when some record has the external reference. It carries that record, its position, and the record's ten latest events, latest first |
| PaymentStore.Matching | prisma/prisma.config.ts:141-159 | The positions kept are exactly the records satisfying the filter, in increasing order |
| PaymentStore.ListPayments | prisma/prisma.config.ts:141-159 | The listing holds as many views as remain after skipping `skip` matches, capped at `take`. Entry `j` is the `(skip + j)`-th matching record, with its five latest events |
| PaymentStore.Page | prisma/prisma.config.ts:149-150 | The window after `skip` entries, at most `take` long, keeps the entries in order |
| PaymentStore.ListCountAgree | prisma/prisma.config.ts:141-164 | The unpaged listing has exactly as many entries as the count |
| PaymentStore.ListCoversMatches | prisma/prisma.config.ts:141-159 | The unpaged listing holds every matching record and only those, in store order |
| PaymentStore.CountPayments | prisma/prisma.config.ts:162-164 | The count is the number of records satisfying the filter, so never more than the number of records |
| PaymentStore.IncreasingCard | prisma/prisma.config.ts:162-164 | A strictly increasing list of positions has as many distinct entries as entries, which ties the count to the matching set |
| PaymentStore.DistinctBounded | prisma/prisma.config.ts:162-164 | A strictly increasing list of positions below `n` has at most `n` entries, which bounds the count |
| PaymentStore.CleanData | prisma/prisma.config.ts:34-45 | Each payer field is stored non-empty:<br>• name and e-mail are trimmed, or the sentinel if blank;<br>• the CPF is its digits, or the sentinel if it has none.<br>The status is the upper-cased gateway status, or the default. The description is trimmed. Every other field is kept |
| PaymentStore.CreatePayment | prisma/prisma.config.ts:21-68 | Creation fails with a unique violation exactly when the gateway id or the reference is already stored; otherwise it appends exactly the cleaned record |
| Text.KeepTruthy | prisma/prisma.config.ts:78-79 | `x \|\| null` keeps a value exactly when it is a non-empty string; the access log keeps its optional fields by the same rule |
| Text.DigitsOfAppend | app/api/pix-payment/route.ts:24 | Stripping non-digits works piecewise: the digits of a concatenation are the digits of each part, in order |
| Text.DigitsOfChar | app/api/pix-payment/route.ts:24 | A single character is kept exactly when it is a digit |
| Text.DigitsOfKeepsDigits | app/api/pix-payment/route.ts:24 | Every digit of the input appears in the result, at the position given by the number of digits before it |
| PaymentStore.UpdatePaymentStatus | prisma/prisma.config.ts:71-87 | The update fails with "not found" exactly when no record has the gateway id. Otherwise only that record's status fields change; the number of records and the event log stay the same |
| PaymentStore.UpdateKeepsIdentity | prisma/prisma.config.ts:71-87 | A status update keeps the record's gateway id, reference, amount and payer fields. It sets the status to the upper-cased value |
| PaymentStore.UpdateIdempotent | prisma/prisma.config.ts:71-87 | Applying the same status update again gives the same store as applying it once at the later time |
| PaymentStore.WithStatusTwice | prisma/prisma.config.ts:74-85 | On one record, two identical status updates equal the later one |
| PaymentStore.UpdatePaymentWithMercadoPagoId | prisma/prisma.config.ts:90-104 | Attaching a gateway id to an internal id that does not exist fails. Otherwise it fails exactly when another record holds that gateway id, and else exactly that record gets the gateway id, the upper-cased status and the new `updatedAt` |
| PaymentStore.LogWebhookEvent | prisma/prisma.config.ts:167-176 | Logging fails exactly when the payment does not exist. Otherwise it appends one unprocessed event holding the body, at the next position |
| PaymentStore.MarkWebhookProcessed | prisma/prisma.config.ts:179-188 | Marking fails exactly for a missing event. Otherwise it marks exactly that event processed, with the given error, and changes nothing else |
| PaymentStore.CreateKeepsValid | prisma/prisma.config.ts:21-68 | A successful creation keeps both unique indexes and the event foreign key |
| PaymentStore.UpdateKeepsValid | prisma/prisma.config.ts:71-87 | A status update keeps both unique indexes and the event foreign key |
| PaymentStore.UpdateWithIdKeepsValid | prisma/prisma.config.ts:90-104 | Attaching a gateway id that is accepted keeps the store's invariant |
| PaymentStore.LogKeepsValid | prisma/prisma.config.ts:167-176 | Logging an event keeps the event foreign key |
| PaymentStore.MarkKeepsValid | prisma/prisma.config.ts:179-188 | Marking an event keeps the store's invariant |
| Webhook.PayerNameOf | app/api/webhook/route.ts:130-144 | The payer name handed to `createPayment` comes from the first source that applies:<br>• the joined, trimmed first and last name, when either is present;<br>• else the metadata customer name;<br>• else the additional-info first name;<br>• else the sentinel |
| Webhook.PayerEmailOf | app/api/webhook/route.ts:131-153 | The new record's e-mail is the first non-empty of metadata, payer and additional payer, else the sentinel; never empty |
| Webhook.PayerCpfOf | app/api/webhook/route.ts:132-162 | The new record's document is the first non-empty of payer, metadata and additional payer, else the sentinel text; never empty |
| Webhook.NewPaymentOf | app/api/webhook/route.ts:174-190 | The creation arguments carry:<br>• the gateway id;<br>• the gateway's reference, else the generated one;<br>• the gateway amount, else 0;<br>• the gateway method, else the fallback;<br>• the payer name and e-mail of their chains;<br>• the digits of the chosen document;<br>• the description, else the fallback;<br>• the gateway's status as the initial status;<br>• the item list, only when it is non-empty |
| Webhook.NewPaymentItems | app/api/webhook/route.ts:174-190 | The creation arguments carry an item list exactly when the notification lists at least one item |
| Webhook.CreatedRecord | app/api/webhook/route.ts:177-190 | A record created from a notification carries:<br>• the gateway id;<br>• the upper-cased gateway status, or PENDING;<br>• the amount;<br>• the trimmed payer name and e-mail, each replaced by its sentinel when blank;<br>• the trimmed description |
| Webhook.CreatedRecordCpf | app/api/webhook/route.ts:156-162 | The stored CPF is the sentinel exactly when the chosen document has no digits; otherwise it is those digits |
| Webhook.LogStep | app/api/webhook/route.ts:214-219 | Logging appends exactly one event for the resolved payment unless the log call fails, and never changes the payments |
| Webhook.Reconcile | app/api/webhook/route.ts:117-226 | After reconciling:<br>• the payment is the record with the notified gateway id;<br>• at most one record is added, at the end;<br>• an event is appended only when a payment was resolved;<br>• a failure before resolution leaves the store unchanged |
| Webhook.OrderIdOf | app/api/webhook/route.ts:237-240 | The mail's order id is the external reference when present, otherwise the metadata order id or the gateway id |
| Webhook.Notify | app/api/webhook/route.ts:231-268 | Mail is sent when, and only when:<br>• the payment is approved;<br>• a valid buyer e-mail is picked;<br>• no mail for this id went out in the last five minutes.<br>It goes to the picked address. Only a successful send records `now`, for that id alone |
| Webhook.MarkStep | app/api/webhook/route.ts:282-290 | With a payment and an event resolved and the store up, exactly the logged event is marked processed. Nothing else changes |
| Webhook.Handle | app/api/webhook/route.ts:63-302 | The response is:<br>• "ignored" for a non-payment event;<br>• "missing id" when the id is absent;<br>• "no details" after three failed fetches;<br>• "processed" otherwise.<br>Only a processed request touches the store or mails, and each request adds at most one payment and one event |
| Webhook.ReconcileKeepsValid | app/api/webhook/route.ts:117-226 | Reconciling keeps the store's unique indexes and foreign key |
| Webhook.HandleKeepsValid | app/api/webhook/route.ts:63-302 | A whole webhook request keeps the store's unique indexes and foreign key |
| Webhook.MarkStepKeepsValid | app/api/webhook/route.ts:284-286 | Marking the logged event processed keeps the unique indexes and the foreign key, since it changes no record and no event's payment |
| Webhook.HandleUnfold | app/api/webhook/route.ts:110-302 | A payment notice whose details were fetched runs three phases in order: reconcile, then notify, then mark |
| Webhook.MailGate | app/api/webhook/route.ts:231-268 | For a fetched notice, a mail goes out exactly under the approval, valid-address and recency conditions |
| Webhook.MailIndependentOfFaults | app/api/webhook/route.ts:221-268 | Store failures never change whether or to whom the mail is sent, nor the recency map |
| Webhook.ReconcileCreates | app/api/webhook/route.ts:125-190 | An unknown gateway id with a free reference creates exactly one record and logs one event for it |
| Webhook.ApprovedUnknownPayment | app/api/webhook/route.ts:117-302 | An approved notice for an unknown payment, with a valid address and no recent mail, and with a working store and mailer:<br>• creates an APPROVED record;<br>• logs and marks its event;<br>• sends one mail |
| Webhook.MarkStepAfterLog | app/api/webhook/route.ts:282-290 | Marking the event just logged keeps every earlier event and marks only the new one |
| Webhook.RedeliveryNoSecondMail | app/api/webhook/route.ts:53-60 | A redelivery of a notice that was mailed, within five minutes, sends no second mail |
| Webhook.ReconcileUpdates | app/api/webhook/route.ts:199-209 | A known gateway id with a status updates that record in place and adds no record. The stored rejection reason is cleared, because the detail projection never carries one |
| Webhook.UpdateDataOf | app/lib/mercadopago.ts:271-287 | The update passes on the status detail and the last-update date; the rejection reason is always absent, because the detail projection does not include it |
| Webhook.ReconcileStatus | app/api/webhook/route.ts:178-209 | With the store up, the record a notice resolves to carries the gateway's status, upper-cased, whether it was created or updated |
| Webhook.RedeliveryUpdatesInPlace | app/api/webhook/route.ts:117-226 | Delivering the same notice twice adds no second payment record. The second delivery updates the first one's record, leaving its rejection reason empty |
| Webhook.HandleUpdatesKnown | app/api/webhook/route.ts:199-286 | A notice for a payment the store already holds rewrites that one record with the upper-cased gateway status and no rejection reason, and logs exactly one event |
| Gateway.NotificationUrl | app/lib/mercadopago.ts:14-43 | The callback URL comes from the explicit variable when that is set, and is kept only when it parses as https. Otherwise it is the base URL's origin plus the webhook path, kept only when it parses as https on a host other than `localhost`, `127.0.0.1` and `::1` |
| Gateway.NotificationUrlIsHttps | app/lib/mercadopago.ts:14-43 | Any URL handed to the gateway parsed as https. The loopback check applies only to the base URL; an explicit https URL on a loopback host is kept |
| Gateway.SplitName | app/lib/mercadopago.ts:80-81 | The first name has no space; with a space, first + " " + rest is the whole name; without one, the whole name is the first name |
| Gateway.SplitNameReconstructs | app/lib/mercadopago.ts:79-81 | Splitting a trimmed name and joining the parts with one space gives the trimmed name back |
| Gateway.Rewrap | app/lib/mercadopago.ts:180-183 | An error with a cause is re-thrown as is; any other error becomes a new one carrying the fallback message |
| Gateway.RewrapIdempotent | app/lib/mercadopago.ts:180-183 | Rewrapping an already rewrapped error changes nothing, and the message seen is the fallback unless the error passes through |
| Gateway.CreatePixPayment | app/lib/mercadopago.ts:62-184 | A payment is attempted only after the preference succeeds. Both requests carry the order reference. The result is the answer, or the rewrapped failure of the step that failed |
| Gateway.PixBodiesShape | app/lib/mercadopago.ts:84-170 | Both PIX bodies send the payer's digit-only CPF and carry the callback URL exactly when there is one |
| Gateway.PixNames | app/lib/mercadopago.ts:79-81 | The PIX body's first and last names are the split of the trimmed name, falling back to the whole name |
| Gateway.FullName | app/lib/mercadopago.ts:207-212 | The card payer name is present exactly when the given name is not blank, and is then trimmed |
| Gateway.CreateCardPayment | app/lib/mercadopago.ts:187-257 | One payment call with the built body; success passes through and failure is rewrapped |
| Gateway.CardBodyShape | app/lib/mercadopago.ts:215-249 | The card body carries the order reference and the order id. A truthy installment count is passed through, and an absent, zero or NaN one becomes 1. The document is digit-only, and the callback is present exactly when there is one |
| Gateway.CardBodyNames | app/lib/mercadopago.ts:207-247 | The card body's customer, first and last names come from the trimmed payer name; first + " " + last rebuilds it when it has a space |
| CouponRoute.Validate | app/api/validate-coupon/route.ts:6-84 | Each rejection reason holds exactly when its check is the first to fail:<br>• missing code;<br>• missing or non-positive amount;<br>• store failure;<br>• unknown coupon;<br>• inactive coupon;<br>• below the minimum, with the minimum echoed;<br>• another product;<br>• exhausted.<br>Acceptance holds exactly when all pass, and quotes the capped discount and the rest |
| CouponRoute.ChecksBeforeLookup | app/api/validate-coupon/route.ts:11-17 | A request without a code or a positive amount gets a 400 whatever the stored coupons |
| CouponRoute.PercentageWithinAmount | app/api/validate-coupon/route.ts:53-63 | A percentage of at most 100% on a positive amount is never capped, and the final amount is the rest |
| PixRoute.Post | app/api/pix-payment/route.ts:9-64 | The gateway is called exactly when:<br>• all fields are present;<br>• the CPF has eleven digits;<br>• the e-mail is valid;<br>• the amount is finite and positive.<br>Each rejection matches the first failing check. A success carries the order reference |
| PixRoute.SentEmailIsLowered | app/api/pix-payment/route.ts:41-46 | An accepted e-mail reaches the gateway lower-cased and otherwise as given |
| PixLegacyRoute.Post | app/api/pixpayment/route.ts:5-52 | The older PIX route checks fields, an eleven-digit CPF and the e-mail shape, but not the amount; every reply carries `success` |
| PixLegacyRoute.RoutesCompared | app/api/pixpayment/route.ts:5-52 | Whatever the newer route forwards, the older route forwards too, with the same CPF and amount. The newer route sends the trimmed name and the lower-cased e-mail, where the older one sends both as given. The older route also forwards non-positive or non-finite amounts. Both reject the same requests for fields, CPF and e-mail |
| CardRoute.PayerCpf | app/api/mercadopago/card/route.ts:32-33 | The payer document is its digits, or the sentinel when it has none |
| CardRoute.ArgsOf | app/api/mercadopago/card/route.ts:24-55 | Each missing card field gets its default:<br>• method `credit_card`;<br>• one installment;<br>• the default description;<br>• an `order_` reference;<br>• the sentinel e-mail;<br>• CPF as document type;<br>• the sentinel name.<br>Present fields pass through |
| CardRoute.Post | app/api/mercadopago/card/route.ts:22-65 | The route answers the gateway's payment on success and a rewrapped 500 on failure |
| CardRoute.CpfSentinelHasNoDigits | app/api/mercadopago/card/route.ts:32-33 | The document sentinel has no digits, so it is never mistaken for a CPF |
| CardRoute.CardRequestReachesGateway | app/api/mercadopago/card/route.ts:22-65 | The body sent for a card request carries the request's amount, its reference as reference and order id (a non-empty supplied one as is, an empty supplied one replaced by the generated reference, and `order_<time>` when none is supplied), the document type, and the supplied installment count when truthy, else 1. Its document number is the digits of the supplied number, or none |
| Register.Post | app/api/auth/register/route.ts:7-76 | The outcomes:<br>• missing fields are refused;<br>• an e-mail or CPF already in use is refused, the e-mail checked first;<br>• otherwise one user is appended with the hashed password.<br>The store only changes on success. The reply never shows the password |
| Register.PostKeepsValid | app/api/auth/register/route.ts:7-76 | Registration keeps e-mails and CPFs unique |
| Register.SecondRegistrationRefused | app/api/auth/register/route.ts:19-29 | After a registration, the same e-mail is refused |
| Variation.FindDefault | app/api/create-variation/route.ts:20-33 | The lookup finds the first variation of the product whose size, color and material are all the default, or reports there is none |
| Variation.NumberOr | app/api/create-variation/route.ts:42-43 | `parseFloat(x) \|\| fallback`: a missing or zero price gives way to the fallback |
| Variation.IntOr | app/api/create-variation/route.ts:44 | `parseInt(x) \|\| fallback`: a missing or zero stock gives way to the fallback |
| Variation.Post | app/api/create-variation/route.ts:6-57 | The outcomes:<br>• an unknown product is a 404;<br>• a product with a default variation gets that variation back, unchanged;<br>• otherwise exactly one variation is appended, with the requested or default fields;<br>• a store failure is a 500 with nothing changed |
| Variation.PostKeepsValid | app/api/create-variation/route.ts:6-57 | Variations stay stored by position |
| Variation.DefaultRequestIdempotent | app/api/create-variation/route.ts:20-49 | After a default variation is created, a second request for the same product returns it and creates nothing |
| Variation.FindDefaultAppend | app/api/create-variation/route.ts:20-47 | A default variation appended to a list without one is the one found |
| Variation.AtMostOneDefaultKept | app/api/create-variation/route.ts:20-49 | The route never gives a product a second default variation |
| Checkout.QuantityChange | app/checkout/page.tsx:120-124 | With a variation, the new quantity is clamped into `[1, max(1, stock)]`, keeping a request already in range; without one the quantity is unchanged |
| Checkout.QuantityChangeIdempotent | app/checkout/page.tsx:120-124 | Clamping an already clamped quantity changes nothing |
| Checkout.LoadQuantity | app/checkout/page.tsx:102-104 | On load, a variation in stock clamps the quantity into `[1, stock]`: below 1 becomes 1, above the stock becomes the stock, and a quantity in range is kept. Without a variation in stock the quantity is kept |
| Checkout.TotalsOf | app/checkout/page.tsx:51-54 | The subtotal is price × quantity. The total is the subtotal minus a present, non-zero discount, floored at 0. It is at most the subtotal when the discount and the subtotal are non-negative; a negative discount raises it above the subtotal |
| Checkout.TotalsMonotone | app/checkout/page.tsx:51-54 | With a non-negative price, a larger quantity never lowers the total and a larger discount never raises it |
| Checkout.FindVariation | app/checkout/page.tsx:83-84 | The variation found has that id and is one of the product's; none means no variation has it |
| Checkout.PickVariation | app/checkout/page.tsx:83-97 | A variation is picked exactly when the id is found or starts with `virtual-`. A virtual one is in stock with default attributes and the base price |
| Checkout.QuantityChangeEnablesButton | app/checkout/page.tsx:120-124 | After any quantity change, the checkout button is enabled exactly when the variation is in stock |
| Checkout.VirtualVariationOpens | app/checkout/page.tsx:173-180 | Checkout with a virtual variation always opens the payment options |
| Checkout.VirtualVariationRequest | app/checkout/page.tsx:191-204 | The variation request for a virtual variation asks for the default attributes, ten in stock and the given sku |
| Checkout.RepeatedCheckoutReusesVariation | app/checkout/page.tsx:191-209 | A second checkout of the same virtual product gets back the variation the first one created, and the catalog does not change |
| Checkout.PaymentParams | app/checkout/page.tsx:183-240 | No redirect happens when a virtual variation could not be created. Otherwise the parameters are the seven base keys, plus the three coupon keys exactly when a coupon is applied, with the created variation's id. The amount is the total rendered to two decimals; other numbers are rendered as `String(n)` |
| Checkout.CouponOnlyAddsKeys | app/checkout/page.tsx:220-235 | Applying a coupon redirects in the same cases and adds exactly the three coupon keys, leaving every base parameter's value unchanged |
| Checkout.StoredVariationIgnoresCreation | app/checkout/page.tsx:188-225 | For a variation that is not virtual, the id answered by the creation call never reaches the parameters |
| Search.Filter | app/search/page.tsx:39-51 | Every product kept matches the lower-cased query in name, description, brand or category |
| Search.FilterExact | app/search/page.tsx:39-51 | The filter keeps the matching products as a sublist in their original order, and a product is in the result exactly when it is in the input and matches |
| Search.FilterMultiplicity | app/search/page.tsx:39-51 | Each matching product occurs in the result as often as in the input, and a non-matching one not at all |
| Search.FilterProducts | app/search/page.tsx:39-51 | One pass over the products computes the filter |
| Search.Page | app/search/page.tsx:27-74 | An empty query shows "invalid search" and fetches nothing. Otherwise the page shows the filtered products, or none if the fetch failed |
| Search.FinitePrices | app/search/page.tsx:104-106 | The prices kept are exactly the finite ones |
| Search.MinOf | app/search/page.tsx:107 | The minimum is one of the prices and no price is below it |
| Search.MaxOf | app/search/page.tsx:108 | The maximum is one of the prices and no price is above it |
| Search.RangeOf | app/search/page.tsx:104-113 | The range runs from the least to the greatest finite price, or 0 to 0 without any |
| Search.SingleIffAllEqual | app/search/page.tsx:110-113 | A single price is shown exactly when all finite prices are equal |
| Browser.NormalizeBrowser | app/lib/normalize.ts:1-13 | A missing, empty or "unknown" name gives "Outros". Otherwise the rules are tried in order (samsung, edg, mobile safari, exactly safari, fxios or firefox, crios, chrome) and the first that matches gives its bucket; a name no rule matches is kept. The result is never empty |
| Browser.NormalizeBrowserNullable | app/lib/prisma.ts:60-73 | The copy typed as nullable never returns null and agrees with the other copy |
| Browser.NormalizeTwice | app/lib/normalize.ts:1-13 | Normalising a normalised name changes nothing, except "Chrome iOS", which becomes "Chrome" |
| Browser.ChromeIosToChrome | app/lib/normalize.ts:10-11 | "Chrome iOS" contains "chrome" but not "crios", so it normalises to "Chrome" |
| Browser.CoerceDeviceType | app/lib/prisma.ts:78-85 | The device type is the enum value named by the upper-cased input, and UNKNOWN exactly when it names none |
| Browser.NameIsUpper | app/lib/prisma.ts:78-85 | Every device type's name is already upper-case |
| Browser.CoerceIdempotent | app/lib/prisma.ts:78-85 | Coercing a coerced value's name gives the same value |
| Browser.BrowserFromAgent | app/lib/prisma.ts:104-130 | A guess from a raw user agent is always one of the nine labels |
| Browser.AccessLogRowOf | app/lib/prisma.ts:91-150 | The access-log row has:<br>• the coerced device type;<br>• the normalised browser, or the browser guessed from the agent when the name is missing;<br>• every other field only when it is non-empty;<br>• a user id passed through `Number` |
| Middleware.Detect | middleware.ts:24-63 | Without an agent the visit is "Unknown" on a desktop. With one, the browser follows the first matching branch, `mobile` forces MOBILE, and otherwise `tablet` or `ipad` forces TABLET |
| Middleware.IpadIsTablet | middleware.ts:24-63 | An iPad agent without `mobile` is Mobile Safari on a tablet |
| Middleware.AgreesWithAccessLog | middleware.ts:24-63 | The middleware and the access log guess the same browser from the same agent, except that the log may say "Internet Explorer" where the middleware says "Unknown" |
| Middleware.ClientIp | middleware.ts:17-19 | The client IP is the trimmed first entry of `x-forwarded-for` when it is non-empty, else a non-empty `x-real-ip`, else none |
| Middleware.ForwardedAddressIsClean | middleware.ts:17-19 | An address taken from `x-forwarded-for` has no comma and no surrounding whitespace |
| Middleware.Handle | middleware.ts:7-74 | Every response asks for client hints. A visit is tracked exactly when the URL parses, with the client IP, the platform city else the city header, the agent, and the detected browser and device |
| Middleware.ResponseIndependentOfTracking | middleware.ts:7-74 | The response headers depend on nothing the tracking part reads |
| Header.SanitizeCep | app/components/Header.tsx:26-29 | The CEP field keeps the first eight digits of the input, in input order, and all of them when there are at most eight |
| Header.SanitizeCepIdempotent | app/components/Header.tsx:26-29 | Sanitising a sanitised CEP changes nothing |
| Header.SearchTarget | app/components/Header.tsx:19-24 | A search navigates exactly when the trimmed query is non-empty, to the search path with the encoded trimmed query |
| Header.SearchIgnoresSurroundingBlanks | app/components/Header.tsx:19-24 | Surrounding blanks in the query do not change where the search leads |
| Header.Greeting | app/components/Header.tsx:79 | The greeting name is never empty. It is the session name, else the part of the e-mail before `@`, else "Usuário", with an empty value giving way |
| Header.GreetingHidesAddress | app/components/Header.tsx:79 | Without a session name the greeting contains no `@`, so the full e-mail address is never shown |
| Initials.SplitSpaces | app/dashboard/page.tsx:14 | Splitting on whitespace runs gives at least one piece, and no piece contains whitespace |
| Initials.SplitsIffSpace | app/dashboard/page.tsx:14-15 | A string splits into two or more pieces exactly when it contains whitespace |
| Initials.TrimmedPiecesNonEmpty | app/dashboard/page.tsx:13-15 | Every piece of a trimmed non-empty string is a non-empty word |
| Initials.InitialsOf | app/dashboard/page.tsx:13-17 | A trimmed name gives at most two letters. A single word gives the upper-cased first two characters of its part before `@` |
| Initials.GetInitials | app/dashboard/page.tsx:11-18 | A missing or empty name gives "U". Otherwise the result has at most two letters, and a single word gives the upper-cased first two characters before any `@` |
| Initials.WordInitials | app/dashboard/page.tsx:15 | A trimmed name with whitespace inside gives the upper-cased first letters of its first two words, both of which exist |
| Initials.TwoWordsGiveTwoInitials | app/eduardoTarefa/page.tsx:8-15 | A name whose trimmed form has whitespace inside gets exactly two letters, the first letters of its first two words |
| Initials.BlankNameGivesNothing | app/dashboard/page.tsx:11-18 | A name of only whitespace gives no initials at all, not the "U" of a missing name |
| Initials.DashboardDisplayName | app/dashboard/page.tsx:30 | The dashboard shows the name, else the e-mail up to its first `@` (the whole e-mail when it has none), else "Usuário"; only a missing value gives way |
| Initials.TaskDisplayName | app/eduardoTarefa/page.tsx:29 | The second dashboard shows the name, else the whole e-mail, else "usuário" |
| Initials.DisplayNamesCompared | app/eduardoTarefa/page.tsx:29 | When the session has no name, the two dashboards agree exactly when the e-mail has no `@`. They disagree when the e-mail is missing too, and agree whenever there is a name |

## Left out

- The older PIX route reads the body with `request.json()` inside its `try`, so a body that is not JSON answers 500 there, where the newer route answers "missing fields". The request type holds already-parsed fields and cannot express a malformed body, so `PixLegacyRoute.RoutesCompared` says nothing about that case.
- Logging, `console` output and response formatting beyond the status and the fields the routes return are not modelled. They have no effect on the results.
- The clock, `Date.now()`, the sleep of the retry loop and generated references (the `order_<timestamp>` references and the sku) are parameters. The sleep is recorded as the list of attempts it follows.
- The GET handler of the webhook route (lines 305-312) only reports that the endpoint is alive; it is not modelled.
- `getPaymentStatus` and `getPaymentDetails` of the gateway client are HTTP calls. They are the `gateway` parameter of the webhook handler, with one answer per attempt. The answer has the fields of the projection that `getPaymentDetails` returns, and no others. That projection has no rejection reason, so an update always stores none.
- The process-local `sentMap` is a map in the handler's state. Concurrent requests and lost updates on it are not modelled, and neither is a race between two concurrent creations. A duplicate creation fails with a unique violation and ends reconciliation for that request, as the code does; it is not converted into an update.
- A notice for a known payment without a status skips the update and the event log. The source calls `toUpperCase` on the missing status, which throws, and the handler swallows the error.
- `pickBuyerEmail` checks only the first non-empty source and does not fall through to a later valid address. The model follows the code.
- Numbers are reals, with `JsNumber` for values that may not be finite. The routes' `Number`, `parseInt` and `parseFloat` calls are applied before the model sees the input, and floating-point rounding is not modelled. `pickItems` is the exception: it converts after `||`, so it is listed on its own line below.
- `toFixed`, `toLocaleString`, `JSON.stringify`, `encodeURIComponent` and URL parsing are parameters or pre-computed strings.
- bcrypt is the `hash` parameter of registration.
- Case mapping is ASCII only. Full Unicode case mapping of names and addresses is not modelled.
- Strings are sequences of Unicode scalar values. JavaScript indexes UTF-16 code units, so `slice(0, 2)` and `[0]` in the initials helpers can split a character outside the Basic Multilingual Plane (an emoji, say); the model takes whole characters.
- React state, effects, toasts and navigation on the pages are not modelled. The pages' decisions are modelled as pure functions of their inputs.
- The mail service itself is not modelled. Only the request sent to it and whether it succeeded are.
- A `productId` that does not parse as an integer is a 500 of the variation route, as Prisma rejects it.
- The `products`, `track` and `test-db` API routes, the NextAuth configuration and the page layouts are not part of this model.
- Middleware.Detect: the model states the browser branch and the device overrides, not every branch's own device choice.
- Browser.BrowserFromAgent: the contract states only the set of labels; the branch order is shown through Middleware.AgreesWithAccessLog.
- The middleware's `config.matcher` is not modelled. Next.js uses it to skip `_next`, static files and `/api` before the middleware runs. The model describes a request that reached the middleware.
- PaymentStore.ListPayments: the caller's `orderBy` is not modelled. Records are listed in store order, which is creation order. The `where` filter is the `keep` predicate.
- WebhookInput.PickItems: quantities and prices are taken as numbers. The source applies `Number` after `||`, so a string field `"0"` is truthy and becomes quantity or price 0, and a non-numeric string becomes `NaN`. The model instead treats a field as present or absent, and zero as absent. So its "quantity is never zero" holds only for numeric fields.

=== FILE: browser.dfy ===
/**
 * Access-log helpers: bucketing browser names, coercing device types and
 * building the row `saveAccessLog` stores.
 */
module Browser {
  import opened Wrappers
  import opened Text

  const Others: string := "Outros"
  const SamsungInternet: string := "Samsung Internet"
  const Edge: string := "Edge"
  const SafariIos: string := "Safari iOS"
  const Safari: string := "Safari"
  const Firefox: string := "Firefox"
  const ChromeIos: string := "Chrome iOS"
  const Chrome: string := "Chrome"

  /** The bucket names `normalizeBrowser` can answer besides the name itself. */
  const Buckets: set<string> := {Others, SamsungInternet, Edge, SafariIos, Safari, Firefox, ChromeIos, Chrome}

  /** The first rule that matches the lower-cased name, in the order the function tries them. */
  function BucketRule(n: string): (r: Option<string>)
    ensures r.Some? ==> r.value in Buckets
  {
    if Contains(n, "samsung") then Some(SamsungInternet)
    else if Contains(n, "edg") then Some(Edge)
    else if Contains(n, "mobile safari") then Some(SafariIos)
    else if n == "safari" then Some(Safari)
    else if Contains(n, "fxios") || Contains(n, "firefox") then Some(Firefox)
    else if Contains(n, "crios") then Some(ChromeIos)
    else if Contains(n, "chrome") then Some(Chrome)
    else None
  }

  /**
   * `normalizeBrowser` (the copy in `app/lib/normalize.ts`): a missing,
   * empty or "unknown" name becomes "Outros", a recognised one its bucket,
   * anything else is kept as given.
   */
  function NormalizeBrowser(name: Option<string>): (r: string)
    ensures r != ""
    ensures !Truthy(name) ==> r == Others
    ensures Truthy(name) && Lower(name.value) == "unknown" ==> r == Others
    ensures r in Buckets || (Truthy(name) && r == name.value && BucketRule(Lower(name.value)).None?)
    ensures Truthy(name) && Lower(name.value) != "unknown" ==>
      var n := Lower(name.value);
      && (Contains(n, "samsung") ==> r == SamsungInternet)
      && (!Contains(n, "samsung") && Contains(n, "edg") ==> r == Edge)
      && (!Contains(n, "samsung") && !Contains(n, "edg") && Contains(n, "mobile safari") ==> r == SafariIos)
      && (!Contains(n, "samsung") && !Contains(n, "edg") && !Contains(n, "mobile safari") && n == "safari" ==> r == Safari)
      && (!Contains(n, "samsung") && !Contains(n, "edg") && !Contains(n, "mobile safari") && n != "safari"
          && (Contains(n, "fxios") || Contains(n, "firefox"))
          ==> r == Firefox)
      && (!Contains(n, "samsung") && !Contains(n, "edg") && !Contains(n, "mobile safari") && n != "safari"
          && !Contains(n, "fxios") && !Contains(n, "firefox") && Contains(n, "crios")
          ==> r == ChromeIos)
      && (!Contains(n, "samsung") && !Contains(n, "edg") && !Contains(n, "mobile safari") && n != "safari"
          && !Contains(n, "fxios") && !Contains(n, "firefox") && !Contains(n, "crios") && Contains(n, "chrome")
          ==> r == Chrome)
      && (!Contains(n, "samsung") && !Contains(n, "edg") && !Contains(n, "mobile safari") && n != "safari"
          && !Contains(n, "fxios") && !Contains(n, "firefox") && !Contains(n, "crios") && !Contains(n, "chrome")
          ==> r == name.value)
  {
    if !Truthy(name) then Others
    else
      var n := Lower(name.value);
      if n == "unknown" then Others
      else match BucketRule(n)
        case Some(b) => b
        case None => name.value
  }

  /** The copy in `app/lib/prisma.ts`, typed as possibly null: it never is, and it agrees with the other copy. */
  function NormalizeBrowserNullable(name: Option<string>): (r: Option<string>)
    ensures r.Some? && r.value != ""
    ensures r == Some(NormalizeBrowser(name))
  {
    if !Truthy(name) then Some(Others)
    else
      var n := Lower(name.value);
      if n == "unknown" then Some(Others)
      else match BucketRule(n)
        case Some(b) => Some(b)
        case None => Some(name.value)
  }

  /**
   * Normalising a normalised name changes nothing, except that "Chrome iOS"
   * contains "chrome" but not "crios" and so becomes "Chrome".
   */
  lemma NormalizeTwice(name: Option<string>)
    ensures var r := NormalizeBrowser(name);
      NormalizeBrowser(Some(r)) == if r == ChromeIos then Chrome else r
  {
    var r := NormalizeBrowser(name);
    if r == Others { OthersFixed(r); }
    else if r == SamsungInternet { SamsungInternetFixed(r); }
    else if r == Edge { EdgeFixed(r); }
    else if r == SafariIos { SafariIosFixed(r); }
    else if r == Safari { SafariFixed(r); }
    else if r == Firefox { FirefoxFixed(r); }
    else if r == ChromeIos { ChromeIosToChrome(r); }
    else if r == Chrome { ChromeFixed(r); }
  }

  lemma OthersFixed(s: string)
    requires s == Others
    ensures NormalizeBrowser(Some(s)) == s
  {
    var n := "outros";
    forall i | 0 <= i < |s|
      ensures Lower(s)[i] == n[i]
    {
    }
    OthersRule(Lower(s));
  }

  lemma OthersRule(n: string)
    requires n == "outros"
    ensures BucketRule(n) == None
  {
    MissingCharNotContained(n, "samsung", 'a');
    MissingCharNotContained(n, "edg", 'e');
    MissingCharNotContained(n, "mobile safari", 'm');
    MissingCharNotContained(n, "fxios", 'f');
    MissingCharNotContained(n, "firefox", 'f');
    MissingCharNotContained(n, "crios", 'c');
    MissingCharNotContained(n, "chrome", 'c');
  }

  lemma SamsungInternetFixed(s: string)
    requires s == SamsungInternet
    ensures NormalizeBrowser(Some(s)) == s
  {
    SamsungInternetLower(s);
    SamsungInternetRule(Lower(s));
  }

  lemma SamsungInternetLower(s: string)
    requires s == "Samsung Internet"
    ensures Lower(s) == "samsung internet"
  {
    var n := "samsung internet";
    forall i | 0 <= i < |s|
      ensures Lower(s)[i] == n[i]
    {
    }
  }

  lemma SamsungInternetRule(n: string)
    requires n == "samsung internet"
    ensures BucketRule(n) == Some(SamsungInternet)
  {
    ContainsAt(n, "samsung", 0);
  }

  lemma EdgeFixed(s: string)
    requires s == Edge
    ensures NormalizeBrowser(Some(s)) == s
  {
    var n := "edge";
    forall i | 0 <= i < |s|
      ensures Lower(s)[i] == n[i]
    {
    }
    EdgeRule(Lower(s));
  }

  lemma EdgeRule(n: string)
    requires n == "edge"
    ensures BucketRule(n) == Some(Edge)
  {
    MissingCharNotContained(n, "samsung", 's');
    ContainsAt(n, "edg", 0);
  }

  lemma SafariIosFixed(s: string)
    requires s == SafariIos
    ensures NormalizeBrowser(Some(s)) == s
  {
    SafariIosLower(s);
    SafariIosRule(Lower(s));
  }

  lemma SafariIosLower(s: string)
    requires s == "Safari iOS"
    ensures Lower(s) == "safari ios"
  {
    var n := "safari ios";
    assert
      && LowerChar(s[0]) == n[0]
      && LowerChar(s[1]) == n[1]
      && LowerChar(s[2]) == n[2]
      && LowerChar(s[3]) == n[3]
      && LowerChar(s[4]) == n[4]
      && LowerChar(s[5]) == n[5]
      && LowerChar(s[6]) == n[6]
      && LowerChar(s[7]) == n[7]
      && LowerChar(s[8]) == n[8]
      && LowerChar(s[9]) == n[9]
    ;
    LowerEach(s, n);
  }

  lemma SafariIosRule(n: string)
    requires n == "safari ios"
    ensures BucketRule(n) == None
  {
    SafariIosNoEarlyRule(n);
    SafariIosNoLateRule(n);
  }

  /** "safari ios" has no 'm' or 'e', so the first three rules miss it. */
  lemma SafariIosNoEarlyRule(n: string)
    requires n == "safari ios"
    ensures !Contains(n, "samsung") && !Contains(n, "edg") && !Contains(n, "mobile safari")
  {
    MissingCharNotContained(n, "samsung", 'm');
    MissingCharNotContained(n, "edg", 'e');
    MissingCharNotContained(n, "mobile safari", 'm');
  }

  /** "safari ios" has no 'x', 'e' or 'c', so the Firefox and Chrome rules miss it. */
  lemma SafariIosNoLateRule(n: string)
    requires n == "safari ios"
    ensures !Contains(n, "fxios") && !Contains(n, "firefox") && !Contains(n, "crios") && !Contains(n, "chrome")
  {
    MissingCharNotContained(n, "fxios", 'x');
    MissingCharNotContained(n, "firefox", 'e');
    MissingCharNotContained(n, "crios", 'c');
    MissingCharNotContained(n, "chrome", 'c');
  }

  lemma SafariFixed(s: string)
    requires s == Safari
    ensures NormalizeBrowser(Some(s)) == s
  {
    var n := "safari";
    forall i | 0 <= i < |s|
      ensures Lower(s)[i] == n[i]
    {
    }
    SafariRule(Lower(s));
  }

  lemma SafariRule(n: string)
    requires n == "safari"
    ensures BucketRule(n) == Some(Safari)
  {
    MissingCharNotContained(n, "samsung", 'm');
    MissingCharNotContained(n, "edg", 'e');
    MissingCharNotContained(n, "mobile safari", 'm');
  }

  lemma FirefoxFixed(s: string)
    requires s == Firefox
    ensures NormalizeBrowser(Some(s)) == s
  {
    var n := "firefox";
    forall i | 0 <= i < |s|
      ensures Lower(s)[i] == n[i]
    {
    }
    FirefoxRule(Lower(s));
  }

  lemma FirefoxRule(n: string)
    requires n == "firefox"
    ensures BucketRule(n) == Some(Firefox)
  {
    MissingCharNotContained(n, "samsung", 's');
    MissingCharNotContained(n, "edg", 'd');
    MissingCharNotContained(n, "mobile safari", 'm');
    ContainsAt(n, "firefox", 0);
  }

  lemma ChromeFixed(s: string)
    requires s == Chrome
    ensures NormalizeBrowser(Some(s)) == s
  {
    var n := "chrome";
    forall i | 0 <= i < |s|
      ensures Lower(s)[i] == n[i]
    {
    }
    ChromeRule(Lower(s));
  }

  lemma ChromeRule(n: string)
    requires n == "chrome"
    ensures BucketRule(n) == Some(Chrome)
  {
    NoEarlyRule(n);
    MissingCharNotContained(n, "fxios", 'f');
    MissingCharNotContained(n, "firefox", 'f');
    MissingCharNotContained(n, "crios", 'i');
    ContainsAt(n, "chrome", 0);
  }

  lemma ChromeIosToChrome(s: string)
    requires s == ChromeIos
    ensures NormalizeBrowser(Some(s)) == Chrome
  {
    ChromeIosLower(s);
    ChromeIosRule(Lower(s));
  }

  lemma ChromeIosLower(s: string)
    requires s == "Chrome iOS"
    ensures Lower(s) == "chrome ios"
  {
    var n := "chrome ios";
    assert
      && LowerChar(s[0]) == n[0]
      && LowerChar(s[1]) == n[1]
      && LowerChar(s[2]) == n[2]
      && LowerChar(s[3]) == n[3]
      && LowerChar(s[4]) == n[4]
      && LowerChar(s[5]) == n[5]
      && LowerChar(s[6]) == n[6]
      && LowerChar(s[7]) == n[7]
      && LowerChar(s[8]) == n[8]
      && LowerChar(s[9]) == n[9]
    ;
    LowerEach(s, n);
  }

  /** A name with no 'a' and no 'd' contains none of "samsung", "edg" and "mobile safari". */
  lemma NoEarlyRule(n: string)
    requires 'a' !in n && 'd' !in n
    ensures !Contains(n, "samsung") && !Contains(n, "edg") && !Contains(n, "mobile safari")
  {
    MissingCharNotContained(n, "samsung", 'a');
    MissingCharNotContained(n, "edg", 'd');
    MissingCharNotContained(n, "mobile safari", 'a');
  }

  /** "chrome ios" contains "chrome" but not "crios", so it lands in the Chrome bucket. */
  lemma ChromeIosRule(n: string)
    requires n == "chrome ios"
    ensures BucketRule(n) == Some(Chrome)
  {
    NoEarlyRule(n);
    MissingCharNotContained(n, "fxios", 'f');
    MissingCharNotContained(n, "firefox", 'f');
    ChromeIosNoCrios(n);
    ContainsAt(n, "chrome", 0);
  }

  /** The only 'c' of "chrome ios" is followed by 'h', so "crios" does not occur. */
  lemma ChromeIosNoCrios(n: string)
    requires n == "chrome ios"
    ensures !Contains(n, "crios")
  {
    ContainsIff(n, "crios");
    forall i
      ensures !OccursAt(n, "crios", i)
    {
      if 0 <= i <= |n| - 5 {
        if i == 0 {
          assert n[i..i + 5][1] == 'h';
        } else {
          assert n[i..i + 5][0] == n[i] != 'c';
        }
      }
    }
  }

  // ---------------------------------------------------------------------------
  // Device type

  datatype DeviceType = MOBILE | DESKTOP | TABLET | BOT | UNKNOWN {
    /** The enum value's name. */
    function Name(): string {
      match this
      case MOBILE => "MOBILE"
      case DESKTOP => "DESKTOP"
      case TABLET => "TABLET"
      case BOT => "BOT"
      case UNKNOWN => "UNKNOWN"
    }
  }

  /** `coerceDeviceType`: the enum value whose name is the upper-cased input, else UNKNOWN. */
  function CoerceDeviceType(t: Option<string>): (r: DeviceType)
    ensures r != UNKNOWN ==> r.Name() == Upper(t.GetOr(""))
    ensures r == UNKNOWN <==> Upper(t.GetOr("")) !in {"MOBILE", "DESKTOP", "TABLET", "BOT"}
  {
    var v := Upper(t.GetOr(""));
    if v == "MOBILE" then MOBILE
    else if v == "DESKTOP" then DESKTOP
    else if v == "TABLET" then TABLET
    else if v == "BOT" then BOT
    else UNKNOWN
  }

  /** Every enum value names itself in upper case. */
  lemma NameIsUpper(d: DeviceType)
    ensures Upper(d.Name()) == d.Name()
  {
    var s := d.Name();
    forall i | 0 <= i < |s|
      ensures UpperChar(s[i]) == s[i]
    {
    }
  }

  /** Coercing an already coerced value gives it back. */
  lemma CoerceIdempotent(t: Option<string>)
    ensures CoerceDeviceType(Some(CoerceDeviceType(t).Name())) == CoerceDeviceType(t)
  {
    NameIsUpper(CoerceDeviceType(t));
  }

  // ---------------------------------------------------------------------------
  // saveAccessLog

  datatype AccessLogInput = AccessLogInput(
    userId: Option<string>,
    ip: Option<string>,
    city: Option<string>,
    browser: Option<string>,
    deviceType: Option<string>,
    deviceBrand: Option<string>,
    deviceModel: Option<string>,
    userAgentRaw: Option<string>,
    chUa: Option<string>,
    chUaPlatform: Option<string>,
    chUaMobile: Option<string>,
    chUaModel: Option<string>)

  /** The row handed to the store; `None` is a key left out. */
  datatype AccessLogRow = AccessLogRow(
    deviceType: DeviceType,
    userId: Option<JsNumber>,
    ip: Option<string>,
    city: Option<string>,
    browser: Option<string>,
    deviceBrand: Option<string>,
    deviceModel: Option<string>,
    userAgentRaw: Option<string>,
    chUa: Option<string>,
    chUaPlatform: Option<string>,
    chUaMobile: Option<string>,
    chUaModel: Option<string>)

  /** The browser guessed from a raw user agent, first match wins. */
  function BrowserFromAgent(ua: string): (r: string)
    ensures r in {"Mobile Safari", SamsungInternet, Chrome, Firefox, Safari, Edge, "Opera", "Internet Explorer", "Unknown"}
  {
    var u := Lower(ua);
    if Contains(u, "mobile safari") || Contains(u, "iphone") || Contains(u, "ipad") then "Mobile Safari"
    else if Contains(u, "samsung") || Contains(u, "samsungbrowser") then SamsungInternet
    else if Contains(u, "chrome") && !Contains(u, "edg") then Chrome
    else if Contains(u, "firefox") || Contains(u, "fxios") then Firefox
    else if Contains(u, "safari") then Safari
    else if Contains(u, "edg") then Edge
    else if Contains(u, "opera") then "Opera"
    else if Contains(u, "ie") || Contains(u, "trident") then "Internet Explorer"
    else "Unknown"
  }

  /**
   * The row `saveAccessLog` builds. `toNumber` is `Number(...)`. Nothing is
   * returned and a failing write is swallowed, so the row is all there is.
   */
  function AccessLogRowOf(input: AccessLogInput, toNumber: string -> JsNumber): (row: AccessLogRow)
    ensures row.deviceType == CoerceDeviceType(input.deviceType)
    ensures row.userId.Some? <==> input.userId.Some?
    ensures row.userId.Some? ==> row.userId.value == toNumber(input.userId.value)
    ensures row.browser.Some? <==> Truthy(input.browser) || Truthy(input.userAgentRaw)
    ensures Truthy(input.browser) ==> row.browser == Some(NormalizeBrowser(input.browser))
    ensures !Truthy(input.browser) && Truthy(input.userAgentRaw) ==>
      row.browser == Some(BrowserFromAgent(input.userAgentRaw.value))
    ensures row.browser.Some? ==> row.browser.value != ""
    ensures row.ip == KeepTruthy(input.ip) && row.city == KeepTruthy(input.city)
    ensures row.userAgentRaw == KeepTruthy(input.userAgentRaw)
    ensures row.deviceBrand == KeepTruthy(input.deviceBrand) && row.deviceModel == KeepTruthy(input.deviceModel)
    ensures row.chUa == KeepTruthy(input.chUa) && row.chUaPlatform == KeepTruthy(input.chUaPlatform)
    ensures row.chUaMobile == KeepTruthy(input.chUaMobile) && row.chUaModel == KeepTruthy(input.chUaModel)
  {
    AccessLogRow(
      CoerceDeviceType(input.deviceType),
      if input.userId.Some? then Some(toNumber(input.userId.value)) else None,
      KeepTruthy(input.ip),
      KeepTruthy(input.city),
      if Truthy(input.browser) then Some(NormalizeBrowser(input.browser))
      else if Truthy(input.userAgentRaw) then Some(BrowserFromAgent(input.userAgentRaw.value))
      else None,
      KeepTruthy(input.deviceBrand),
      KeepTruthy(input.deviceModel),
      KeepTruthy(input.userAgentRaw),
      KeepTruthy(input.chUa),
      KeepTruthy(input.chUaPlatform),
      KeepTruthy(input.chUaMobile),
      KeepTruthy(input.chUaModel))
  }
}

=== FILE: card_route.dfy ===
/**
 * `POST /api/mercadopago/card`: fill in defaults for the optional card
 * fields with `??` and pass them to the gateway's card payment.
 */
module CardRoute {
  import opened Wrappers
  import opened Text
  import opened Gateway
  import PaymentStore

  /**
   * The request body. Absent fields are `None`; `amount` and `installments`
   * are `Number(...)` already applied, so `amount` is `NaN` when missing.
   */
  datatype CardRequest = CardRequest(
    token: Option<string>,
    issuerId: Option<string>,
    paymentMethodId: Option<string>,
    installments: Option<JsNumber>,
    amount: JsNumber,
    description: Option<string>,
    externalReference: Option<string>,
    payerName: Option<string>,
    payerEmail: Option<string>,
    docType: Option<string>,
    docNumber: Option<string>)

  datatype CardReply = Paid(data: string) | ServerError(error: Error) {
    function Status(): int {
      if Paid? then 200 else 500
    }
  }

  const DefaultMethod: string := "credit_card"
  const DefaultDocType: string := "CPF"
  const DefaultDescription: string := "Pagamento com cart\U{E3}o de cr\U{E9}dito"
  const ReferencePrefix: string := "order_"

  /** `x ?? fallback`: only an absent value is replaced; an empty string is kept. */
  function Coalesce(o: Option<string>, fallback: string): (r: string)
    ensures o.Some? ==> r == o.value
    ensures o.None? ==> r == fallback
  {
    o.GetOr(fallback)
  }

  /** `String(x)` of an optional string: JavaScript renders a missing value as "undefined". */
  function Stringify(o: Option<string>): string {
    o.GetOr("undefined")
  }

  /** The payer's document number: its digits, or the sentinel when it has none. */
  function PayerCpf(number: Option<string>): (r: string)
    ensures DigitsOf(number.GetOr("")) != "" ==> r == DigitsOf(number.GetOr(""))
    ensures DigitsOf(number.GetOr("")) == "" ==> r == PaymentStore.CpfSentinel
  {
    var digits := DigitsOf(number.GetOr(""));
    if digits != "" then digits else PaymentStore.CpfSentinel
  }

  /**
   * The arguments the route gives the gateway. `stamp` is the generated
   * `order_<time>` reference used when none is supplied.
   */
  function ArgsOf(req: CardRequest, stamp: string): (a: CardArgs)
    ensures a.token == Stringify(req.token)
    ensures a.issuerId == req.issuerId
    ensures a.paymentMethodId == Coalesce(req.paymentMethodId, DefaultMethod)
    ensures a.installments == Some(req.installments.GetOr(Finite(1.0)))
    ensures a.amount == req.amount
    ensures a.description == Some(Coalesce(req.description, DefaultDescription))
    ensures a.externalReference == Some(Coalesce(req.externalReference, ReferencePrefix + stamp))
    ensures a.payerEmail == Coalesce(req.payerEmail, PaymentStore.EmailSentinel)
    ensures a.identification.kind == Coalesce(req.docType, DefaultDocType)
    ensures a.payerName == Some(Coalesce(req.payerName, PaymentStore.NameSentinel))
  {
    CardArgs(
      Stringify(req.token),
      req.issuerId,
      Coalesce(req.paymentMethodId, DefaultMethod),
      Some(req.installments.GetOr(Finite(1.0))),
      req.amount,
      Some(Coalesce(req.description, DefaultDescription)),
      Some(Coalesce(req.externalReference, ReferencePrefix + stamp)),
      Coalesce(req.payerEmail, PaymentStore.EmailSentinel),
      Identification(Coalesce(req.docType, DefaultDocType), DigitsOf(PayerCpf(req.docNumber))),
      Some(Coalesce(req.payerName, PaymentStore.NameSentinel)))
  }

  /**
   * The route: build the arguments, call the gateway (`generated` is the
   * gateway's own reference, `answer` its outcome) and answer 200 with the
   * payment or 500 with the error.
   */
  function Post(req: CardRequest, stamp: string, generated: string, notify: Option<string>,
                answer: Outcome<string>): (r: (CardBody, CardReply))
    ensures r.0 == CardBodyOf(ArgsOf(req, stamp), generated, notify)
    ensures r.1.Paid? <==> answer.Done?
    ensures answer.Done? ==> r.1 == Paid(answer.value)
    ensures answer.Failed? ==> r.1 == ServerError(Rewrap(answer.error, CardFailure))
  {
    var (body, outcome) := CreateCardPayment(ArgsOf(req, stamp), generated, notify, answer);
    match outcome
    case Done(v) => (body, Paid(v))
    case Failed(e) => (body, ServerError(e))
  }

  /** The sentinel has no digits. */
  lemma CpfSentinelHasNoDigits()
    ensures DigitsOf(PaymentStore.CpfSentinel) == ""
  {
    var s := PaymentStore.CpfSentinel;
    forall i | 0 <= i < |s|
      ensures !IsDigit(s[i])
    {
    }
    DigitsOfCount(s);
  }

  /**
   * What the gateway finally sends: the route's own reference (supplied or
   * `order_<time>`), and as document number exactly the digits of the
   * supplied number — the sentinel for a number without digits is stripped
   * back to the empty string on the way.
   */
  lemma CardRequestReachesGateway(req: CardRequest, stamp: string, generated: string, notify: Option<string>,
                                  answer: Outcome<string>)
    ensures var body := Post(req, stamp, generated, notify, answer).0;
      && body.identification.number == DigitsOf(req.docNumber.GetOr(""))
      && body.identification.kind == Coalesce(req.docType, DefaultDocType)
      && body.externalReference == (if Truthy(req.externalReference) then req.externalReference.value
                                    else if req.externalReference.Some? then generated
                                    else ReferencePrefix + stamp)
      && body.metadata.orderId == body.externalReference
      && body.transactionAmount == req.amount
      && (req.installments.None? ==> body.installments == Finite(1.0))
      && (req.installments.Some? && req.installments.value.Truthy() ==> body.installments == req.installments.value)
      && (req.installments.Some? && !req.installments.value.Truthy() ==> body.installments == Finite(1.0))
  {
    var digits := DigitsOf(req.docNumber.GetOr(""));
    DigitsOfIdempotent(req.docNumber.GetOr(""));
    if digits == "" {
      CpfSentinelHasNoDigits();
    }
    CardBodyShape(ArgsOf(req, stamp), generated, notify);
  }
}

=== FILE: checkout.dfy ===
/**
 * The checkout page's logic: quantity clamping, the totals, the virtual
 * variation used for products without variations, the checkout gate and
 * the query parameters handed to the payment page.
 */
module Checkout {
  import opened Wrappers
  import opened Text
  import Variation

  datatype VariationInfo = VariationInfo(id: string, size: string, color: string, material: string,
                                         price: real, stock: int)

  const Default: string := Variation.Default
  const VirtualPrefix: string := "virtual-"
  const VirtualStock: int := 10

  function Max(a: int, b: int): int {
    if a >= b then a else b
  }

  function Min(a: int, b: int): int {
    if a <= b then a else b
  }

  // ---------------------------------------------------------------------------
  // Quantity

  /**
   * `handleQuantityChange`: without a variation nothing changes; otherwise
   * the requested quantity is clamped into `[1, max(1, stock)]`.
   */
  function QuantityChange(variation: Option<VariationInfo>, current: int, requested: int): (q: int)
    ensures variation.None? ==> q == current
    ensures variation.Some? ==> 1 <= q <= Max(1, variation.value.stock)
    ensures variation.Some? && 1 <= requested <= variation.value.stock ==> q == requested
    ensures variation.Some? && requested < 1 ==> q == 1
    ensures variation.Some? && requested > Max(1, variation.value.stock) ==> q == Max(1, variation.value.stock)
  {
    if variation.None? then current
    else Min(Max(1, requested), Max(1, variation.value.stock))
  }

  /** Clamping twice is clamping once. */
  lemma QuantityChangeIdempotent(v: VariationInfo, current: int, requested: int)
    ensures var q := QuantityChange(Some(v), current, requested);
      QuantityChange(Some(v), q, q) == q
  {
  }

  /** On load, a variation in stock clamps the quantity into `[1, stock]`; one out of stock leaves it. */
  function LoadQuantity(picked: Option<VariationInfo>, q: int): (r: int)
    ensures picked.Some? && picked.value.stock > 0 ==> 1 <= r <= picked.value.stock
    ensures picked.Some? && 1 <= q <= picked.value.stock ==> r == q
    ensures picked.Some? && picked.value.stock > 0 && q < 1 ==> r == 1
    ensures picked.Some? && picked.value.stock > 0 && q > picked.value.stock ==> r == picked.value.stock
    ensures picked.None? || picked.value.stock <= 0 ==> r == q
  {
    if picked.Some? && picked.value.stock > 0 then Min(Max(1, q), picked.value.stock) else q
  }

  // ---------------------------------------------------------------------------
  // Totals

  datatype Totals = Totals(unitPrice: real, subtotal: real, discount: real, total: real)

  /**
   * The memoised totals: `unitPrice` is the variation's price or 0,
   * `discount` the applied coupon's discount (`|| 0`), and the total never
   * goes below zero.
   */
  function TotalsOf(variation: Option<VariationInfo>, quantity: int, couponDiscount: Option<real>): (t: Totals)
    ensures t.unitPrice == (if variation.Some? then variation.value.price else 0.0)
    ensures t.subtotal == t.unitPrice * quantity as real
    ensures t.discount == (if couponDiscount.Some? && couponDiscount.value != 0.0 then couponDiscount.value else 0.0)
    ensures t.total >= 0.0
    ensures t.discount <= t.subtotal ==> t.total == t.subtotal - t.discount
    ensures t.discount > t.subtotal ==> t.total == 0.0
    ensures t.discount >= 0.0 && t.subtotal >= 0.0 ==> t.total <= t.subtotal
  {
    var unit := if variation.Some? then variation.value.price else 0.0;
    var subtotal := unit * quantity as real;
    var discount := if couponDiscount.Some? && couponDiscount.value != 0.0 then couponDiscount.value else 0.0;
    Totals(unit, subtotal, discount, if subtotal - discount > 0.0 then subtotal - discount else 0.0)
  }

  /** With a non-negative price, buying more never lowers the total, and a larger discount never raises it. */
  lemma TotalsMonotone(variation: Option<VariationInfo>, q1: int, q2: int, d1: Option<real>, d2: Option<real>)
    requires variation.Some? ==> variation.value.price >= 0.0
    requires q1 <= q2
    requires TotalsOf(variation, q1, d1).discount >= TotalsOf(variation, q1, d2).discount
    ensures TotalsOf(variation, q1, d1).total <= TotalsOf(variation, q2, d1).total
    ensures TotalsOf(variation, q1, d1).total <= TotalsOf(variation, q1, d2).total
  {
    var p := if variation.Some? then variation.value.price else 0.0;
    assert p * q1 as real <= p * q2 as real by {
      assert p * (q2 as real - q1 as real) >= 0.0;
    }
  }

  // ---------------------------------------------------------------------------
  // Picking the variation

  /** The first variation whose id is `id`. */
  function FindVariation(vs: seq<VariationInfo>, id: string): (r: Option<VariationInfo>)
    ensures r.Some? ==> r.value in vs && r.value.id == id
    ensures r.None? ==> forall i :: 0 <= i < |vs| ==> vs[i].id != id
  {
    if |vs| == 0 then None
    else if vs[0].id == id then Some(vs[0])
    else FindVariation(vs[1..], id)
  }

  /** The stand-in for a product without variations: default attributes, its base price, ten in stock. */
  function VirtualVariation(id: string, basePrice: Option<real>): VariationInfo {
    VariationInfo(id, Default, Default, Default,
                  if basePrice.Some? && basePrice.value != 0.0 then basePrice.value else 0.0,
                  VirtualStock)
  }

  /**
   * The variation the page shows for `variationId`: the product's own, or
   * for an unknown `virtual-` id the synthesised stand-in, or none.
   */
  function PickVariation(vs: seq<VariationInfo>, variationId: string, basePrice: Option<real>): (r: Option<VariationInfo>)
    ensures r.Some? <==> FindVariation(vs, variationId).Some? || StartsWith(variationId, VirtualPrefix)
    ensures r.Some? ==> r.value.id == variationId
    ensures FindVariation(vs, variationId).None? && r.Some? ==>
      && r.value.size == Default && r.value.color == Default && r.value.material == Default
      && r.value.stock == VirtualStock
      && (basePrice.Some? && basePrice.value != 0.0 ==> r.value.price == basePrice.value)
      && (basePrice.None? || basePrice.value == 0.0 ==> r.value.price == 0.0)
  {
    match FindVariation(vs, variationId)
    case Some(v) => Some(v)
    case None => if StartsWith(variationId, VirtualPrefix) then Some(VirtualVariation(variationId, basePrice)) else None
  }

  // ---------------------------------------------------------------------------
  // The checkout gate

  /** `handleCheckout` opens the payment options only with a product and a variation in stock. */
  predicate OpensPaymentOptions(hasProduct: bool, variation: Option<VariationInfo>) {
    hasProduct && variation.Some? && variation.value.stock > 0
  }

  /** The "finish purchase" button is disabled out of stock or above the stock. */
  predicate ButtonDisabled(v: VariationInfo, quantity: int) {
    v.stock <= 0 || quantity > v.stock
  }

  /** After any quantity change, the button is enabled exactly when the variation is in stock. */
  lemma QuantityChangeEnablesButton(v: VariationInfo, current: int, requested: int)
    ensures !ButtonDisabled(v, QuantityChange(Some(v), current, requested)) <==> v.stock > 0
  {
  }

  /** A virtual variation is always in stock, so checkout with one is never refused. */
  lemma VirtualVariationOpens(vs: seq<VariationInfo>, variationId: string, basePrice: Option<real>)
    requires FindVariation(vs, variationId).None? && StartsWith(variationId, VirtualPrefix)
    ensures OpensPaymentOptions(true, PickVariation(vs, variationId, basePrice))
  {
  }

  // ---------------------------------------------------------------------------
  // Turning a virtual variation into a stored one

  /**
   * The `/api/create-variation` request `goToPayment` sends for a virtual
   * variation: default size, color and material, the shown price (`|| 0`),
   * ten in stock and a generated SKU. `productId` is the route's parse of
   * the product id.
   */
  function VirtualVariationRequest(productId: Option<int>, price: Option<real>, sku: string): (r: Variation.VariationRequest)
    ensures Variation.AsksForDefault(r)
    ensures r.productId == productId && r.stock == Some(VirtualStock) && r.sku == Some(sku)
  {
    Variation.VariationRequest(productId, Some(Default), Some(Default), Some(Default),
                               Some(if price.Some? then price.value else 0.0), Some(VirtualStock), Some(sku), sku)
  }

  /**
   * Two checkouts of the same virtual product end at the same stored
   * variation: the second request gets back what the first one created.
   */
  lemma RepeatedCheckoutReusesVariation(c: Variation.Catalog, productId: Option<int>,
                                        price1: Option<real>, sku1: string, price2: Option<real>, sku2: string)
    requires Variation.Post(c, VirtualVariationRequest(productId, price1, sku1), {}).1.Created?
    ensures var (c1, first) := Variation.Post(c, VirtualVariationRequest(productId, price1, sku1), {});
            var (c2, second) := Variation.Post(c1, VirtualVariationRequest(productId, price2, sku2), {});
      second == Variation.Existing(first.variation) && c2 == c1
  {
    Variation.DefaultRequestIdempotent(c, VirtualVariationRequest(productId, price1, sku1),
                                       VirtualVariationRequest(productId, price2, sku2));
  }

  // ---------------------------------------------------------------------------
  // Navigation to the payment page

  datatype Session = Session(name: Option<string>, email: Option<string>)

  datatype CouponApplied = CouponApplied(code: string, originalAmount: real, discountAmount: real)

  const BaseKeys: set<string> := {"amount", "name", "email", "productId", "variationId", "qty", "productName"}
  const CouponKeys: set<string> := {"couponCode", "originalAmount", "discountAmount"}

  /**
   * `goToPayment`'s query parameters. `showAmount` renders the total as
   * `String(Number(total.toFixed(2)))` and `show` renders any other number
   * as `String(n)`; `created` is the id answered by `/api/create-variation` for a virtual
   * variation (`None` when that call fails, which aborts the navigation).
   */
  function PaymentParams(session: Session, total: real, productId: Option<string>, variationId: Option<string>,
                         quantity: int, productName: Option<string>, coupon: Option<CouponApplied>,
                         created: Option<string>, showAmount: real -> string, show: real -> string)
    : (r: Option<map<string, string>>)
    ensures r.None? <==> StartsWith(variationId.GetOr(""), VirtualPrefix) && created.None?
    ensures r.Some? ==> r.value.Keys == if coupon.Some? then BaseKeys + CouponKeys else BaseKeys
    ensures r.Some? ==>
      && r.value["amount"] == showAmount(total)
      && r.value["name"] == session.name.GetOr("Cliente")
      && r.value["email"] == session.email.GetOr("")
      && r.value["productId"] == productId.GetOr("")
      && r.value["variationId"] == (if StartsWith(variationId.GetOr(""), VirtualPrefix) then created.value
                                    else variationId.GetOr(""))
      && r.value["qty"] == show(quantity as real)
      && r.value["productName"] == OrElse(productName, "Produto selecionado")
    ensures r.Some? && coupon.Some? ==>
      && r.value["couponCode"] == coupon.value.code
      && r.value["originalAmount"] == show(coupon.value.originalAmount)
      && r.value["discountAmount"] == show(coupon.value.discountAmount)
  {
    var virtual := StartsWith(variationId.GetOr(""), VirtualPrefix);
    if virtual && created.None? then None
    else
      var finalId := if virtual then created.value else variationId.GetOr("");
      var base := map[
        "amount" := showAmount(total),
        "name" := session.name.GetOr("Cliente"),
        "email" := session.email.GetOr(""),
        "productId" := productId.GetOr(""),
        "variationId" := finalId,
        "qty" := show(quantity as real),
        "productName" := OrElse(productName, "Produto selecionado")];
      if coupon.None? then Some(base)
      else
        Some(base["couponCode" := coupon.value.code]
                 ["originalAmount" := show(coupon.value.originalAmount)]
                 ["discountAmount" := show(coupon.value.discountAmount)])
  }

  /**
   * Applying a coupon changes nothing in the redirect but the three coupon
   * keys it adds: the navigation happens in the same cases and every base
   * parameter keeps its value.
   */
  lemma CouponOnlyAddsKeys(session: Session, total: real, productId: Option<string>, variationId: Option<string>,
                           quantity: int, productName: Option<string>, c: CouponApplied,
                           created: Option<string>, showAmount: real -> string, show: real -> string)
    ensures var with := PaymentParams(session, total, productId, variationId, quantity, productName, Some(c),
                                      created, showAmount, show);
            var without := PaymentParams(session, total, productId, variationId, quantity, productName, None,
                                         created, showAmount, show);
      && (with.Some? <==> without.Some?)
      && (with.Some? ==> with.value.Keys == without.value.Keys + CouponKeys
                         && forall k :: k in without.value ==> with.value[k] == without.value[k])
  {
  }

  /** For a stored (not virtual) variation the id answered by the creation call is never used. */
  lemma StoredVariationIgnoresCreation(session: Session, total: real, productId: Option<string>,
                                       variationId: Option<string>, quantity: int, productName: Option<string>,
                                       coupon: Option<CouponApplied>, created1: Option<string>,
                                       created2: Option<string>, showAmount: real -> string, show: real -> string)
    requires !StartsWith(variationId.GetOr(""), VirtualPrefix)
    ensures PaymentParams(session, total, productId, variationId, quantity, productName, coupon, created1, showAmount, show)
         == PaymentParams(session, total, productId, variationId, quantity, productName, coupon, created2, showAmount, show)
  {
  }

}

=== FILE: coupon.dfy ===
/**
 * `POST /api/validate-coupon`: an ordered chain of checks on the request
 * and the stored coupon, then the discount, capped at the purchase amount.
 */
module CouponRoute {
  import opened Wrappers
  import opened Text

  datatype Coupon = Coupon(
    id: nat,
    code: string,
    discount: real,
    discountType: string,
    isActive: bool,
    startAmount: real,
    productId: Option<int>,
    maxUses: int,
    availableAmount: int)

  /**
   * The request body. `productId` is the raw value; `parseInt` is passed
   * to the route as a function, with `None` standing for NaN.
   */
  datatype CouponRequest = CouponRequest(code: Option<string>, amount: Option<real>, productId: Option<string>)

  datatype Rejection =
    | MissingCode
    | MissingAmount
    | UnknownCoupon
    | Inactive
    | BelowMinimum(minimum: real)
    | WrongProduct
    | Exhausted
    | ServerError

  datatype Quote = Quote(
    couponId: nat,
    code: string,
    discount: real,
    discountType: string,
    originalAmount: real,
    discountAmount: real,
    finalAmount: real)

  datatype Reply = Rejected(reason: Rejection) | Accepted(quote: Quote) {
    /** The HTTP status the route answers with. */
    function Status(): int {
      match this
      case Accepted(_) => 200
      case Rejected(UnknownCoupon) => 404
      case Rejected(ServerError) => 500
      case Rejected(_) => 400
    }
  }

  const Percentage: string := "PERCENTAGE"
  const Fixed: string := "FIXED"

  function Min(a: real, b: real): real {
    if a <= b then a else b
  }

  /**
   * The discount: a percentage of the amount, a fixed value, or nothing for
   * any other type; never more than the amount.
   */
  function DiscountFor(c: Coupon, amount: real): (r: real)
    ensures r <= amount
    ensures c.discountType == Percentage ==> r == Min(amount * c.discount / 100.0, amount)
    ensures c.discountType == Fixed ==> r == Min(c.discount, amount)
    ensures c.discountType != Percentage && c.discountType != Fixed ==> r == Min(0.0, amount)
    ensures 0.0 <= amount && 0.0 <= c.discount ==> 0.0 <= r
  {
    var raw := if c.discountType == Percentage then amount * c.discount / 100.0
               else if c.discountType == Fixed then c.discount
               else 0.0;
    assert 0.0 <= amount && 0.0 <= c.discount ==> 0.0 <= amount * c.discount;
    Min(raw, amount)
  }

  /** The request has a code. */
  predicate HasCode(req: CouponRequest) {
    Truthy(req.code)
  }

  /** The request has a positive amount (`!amount || amount <= 0` fails otherwise). */
  predicate HasAmount(req: CouponRequest) {
    req.amount.Some? && req.amount.value > 0.0
  }

  /** The minimum purchase rule, which applies only when the minimum is positive. */
  predicate MeetsMinimum(c: Coupon, amount: real) {
    !(c.startAmount > 0.0 && amount < c.startAmount)
  }

  /** The product rule: rejects only when both ids are given and differ. */
  predicate MatchesProduct(c: Coupon, req: CouponRequest, parseInt: string -> Option<int>) {
    !(c.productId.Some? && c.productId.value != 0 && Truthy(req.productId)
      && parseInt(req.productId.value) != Some(c.productId.value))
  }

  /** The usage rule: exhausted only when uses are limited and none are left. */
  predicate HasUsesLeft(c: Coupon) {
    !(c.maxUses > 0 && c.availableAmount <= 0)
  }

  /** The request passed the input checks and its upper-cased code names a stored coupon. */
  predicate Found(req: CouponRequest, coupons: map<string, Coupon>, storeUp: bool) {
    HasCode(req) && HasAmount(req) && storeUp && Upper(req.code.value) in coupons
  }

  /** The coupon a found request names. */
  function CouponOf(req: CouponRequest, coupons: map<string, Coupon>): Coupon
    requires HasCode(req) && Upper(req.code.value) in coupons
  {
    coupons[Upper(req.code.value)]
  }

  /**
   * The route. `coupons` maps stored codes to coupons, `parseInt` is
   * JavaScript's `parseInt`, and `storeUp` says whether the lookup
   * succeeds. Each check runs only when the ones before it passed.
   */
  function Validate(req: CouponRequest, coupons: map<string, Coupon>, parseInt: string -> Option<int>,
                    storeUp: bool): (r: Reply)
    ensures r.Rejected? && r.reason == MissingCode <==> !HasCode(req)
    ensures r.Rejected? && r.reason == MissingAmount <==> HasCode(req) && !HasAmount(req)
    ensures r.Rejected? && r.reason == ServerError <==> HasCode(req) && HasAmount(req) && !storeUp
    ensures r.Rejected? && r.reason == UnknownCoupon <==>
      HasCode(req) && HasAmount(req) && storeUp && Upper(req.code.value) !in coupons
    ensures r.Rejected? && r.reason == Inactive <==>
      Found(req, coupons, storeUp) && !CouponOf(req, coupons).isActive
    ensures r.Rejected? && r.reason.BelowMinimum? <==>
      && Found(req, coupons, storeUp) && CouponOf(req, coupons).isActive
      && !MeetsMinimum(CouponOf(req, coupons), req.amount.value)
    ensures r.Rejected? && r.reason.BelowMinimum? ==> r.reason.minimum == CouponOf(req, coupons).startAmount
    ensures r.Rejected? && r.reason == WrongProduct <==>
      && Found(req, coupons, storeUp) && CouponOf(req, coupons).isActive
      && MeetsMinimum(CouponOf(req, coupons), req.amount.value)
      && !MatchesProduct(CouponOf(req, coupons), req, parseInt)
    ensures r.Rejected? && r.reason == Exhausted <==>
      && Found(req, coupons, storeUp) && CouponOf(req, coupons).isActive
      && MeetsMinimum(CouponOf(req, coupons), req.amount.value)
      && MatchesProduct(CouponOf(req, coupons), req, parseInt)
      && !HasUsesLeft(CouponOf(req, coupons))
    ensures r.Accepted? <==>
      && HasCode(req) && HasAmount(req) && storeUp && Upper(req.code.value) in coupons
      && var c := coupons[Upper(req.code.value)];
      && c.isActive && MeetsMinimum(c, req.amount.value) && MatchesProduct(c, req, parseInt) && HasUsesLeft(c)
    ensures r.Accepted? ==>
      && var q := r.quote;
      && var c := coupons[Upper(req.code.value)];
      && q.couponId == c.id && q.code == c.code
      && q.originalAmount == req.amount.value
      && q.discountAmount == DiscountFor(c, req.amount.value)
      && q.discountAmount + q.finalAmount == q.originalAmount
      && 0.0 <= q.finalAmount
  {
    if !HasCode(req) then Rejected(MissingCode)
    else if !HasAmount(req) then Rejected(MissingAmount)
    else if !storeUp then Rejected(ServerError)
    else
      var key := Upper(req.code.value);
      if key !in coupons then Rejected(UnknownCoupon)
      else
        var c := coupons[key];
        var amount := req.amount.value;
        if !c.isActive then Rejected(Inactive)
        else if !MeetsMinimum(c, amount) then Rejected(BelowMinimum(c.startAmount))
        else if !MatchesProduct(c, req, parseInt) then Rejected(WrongProduct)
        else if !HasUsesLeft(c) then Rejected(Exhausted)
        else
          var discount := DiscountFor(c, amount);
          Accepted(Quote(c.id, c.code, c.discount, c.discountType, amount, discount, amount - discount))
  }

  /** No coupon is ever looked up, and no quote given, for a request without a code or a positive amount. */
  lemma ChecksBeforeLookup(req: CouponRequest, coupons1: map<string, Coupon>, coupons2: map<string, Coupon>,
                           parseInt: string -> Option<int>, up1: bool, up2: bool)
    requires !HasCode(req) || !HasAmount(req)
    ensures Validate(req, coupons1, parseInt, up1) == Validate(req, coupons2, parseInt, up2)
    ensures Validate(req, coupons1, parseInt, up1).Status() == 400
  {
  }

  /** A percentage coupon of at most 100% on a positive amount never caps, and charges the rest. */
  lemma PercentageWithinAmount(c: Coupon, amount: real)
    requires c.discountType == Percentage && 0.0 <= c.discount <= 100.0 && 0.0 < amount
    ensures DiscountFor(c, amount) == amount * c.discount / 100.0
    ensures amount - DiscountFor(c, amount) == amount * (100.0 - c.discount) / 100.0
  {
    assert amount * c.discount <= amount * 100.0;
  }
}

=== FILE: email.dfy ===
/**
 * E-mail address checks used by the payment routes and the webhook: the
 * regular expression `^[^\s@]+@[^\s@]+\.[^\s@]+$`, written out as a string
 * predicate, and the webhook's `isValidEmail`, which also rejects placeholder
 * addresses.
 */
module EmailRules {
  import opened Wrappers
  import opened Text

  /** A non-empty run of the class `[^\s@]`. */
  predicate Segment(s: string) {
    |s| > 0 && forall i :: 0 <= i < |s| ==> !IsSpace(s[i]) && s[i] != '@'
  }

  /** The regular expression read literally: `local@left.right`, each part a `[^\s@]+` run. */
  ghost predicate MatchesPattern(s: string) {
    exists at, dot :: SplitsAt(s, at, dot)
  }

  /** `s` is `s[..at] + "@" + s[at+1..dot] + "." + s[dot+1..]` with three `[^\s@]+` runs. */
  predicate SplitsAt(s: string, at: int, dot: int) {
    && 0 < at && at + 1 < dot && dot + 1 < |s|
    && s[at] == '@' && s[dot] == '.'
    && Segment(s[..at]) && Segment(s[at + 1..dot]) && Segment(s[dot + 1..])
  }

  /** There is a `.` in `d` with at least one character on each side. */
  predicate HasInnerDot(d: string) {
    exists k :: 1 <= k < |d| - 1 && d[k] == '.'
  }

  /**
   * The matcher: split at the first `@`; the part before it must be a
   * `[^\s@]+` run, and the part after it a `[^\s@]+` run with an inner dot.
   */
  predicate IsEmailShaped(s: string) {
    match IndexOf(s, '@')
    case None => false
    case Some(at) => Segment(s[..at]) && Segment(s[at + 1..]) && HasInnerDot(s[at + 1..])
  }

  /** The matcher accepts exactly the strings the regular expression describes. */
  lemma EmailShapedIffPattern(s: string)
    ensures IsEmailShaped(s) <==> MatchesPattern(s)
  {
    if IsEmailShaped(s) {
      ShapedMatches(s);
    }
    if MatchesPattern(s) {
      var at, dot :| SplitsAt(s, at, dot);
      SplitIsShaped(s, at, dot);
    }
  }

  /** The matcher's split, at the first `@` and an inner dot after it, is a split of the pattern. */
  lemma ShapedMatches(s: string)
    requires IsEmailShaped(s)
    ensures MatchesPattern(s)
  {
    var at := IndexOf(s, '@').value;
    var d := s[at + 1..];
    var k :| 1 <= k < |d| - 1 && d[k] == '.';
    var dot := at + 1 + k;
    assert s[at + 1..dot] == d[..k];
    assert s[dot + 1..] == d[k + 1..];
    assert SplitsAt(s, at, dot);
  }

  /** A split of the pattern puts its `@` first, so the matcher finds it and the dot after it. */
  lemma SplitIsShaped(s: string, at: int, dot: int)
    requires SplitsAt(s, at, dot)
    ensures IsEmailShaped(s)
  {
    assert forall i :: 0 <= i < at ==> s[i] == s[..at][i];
    assert IndexOf(s, '@') == Some(at);
    var d := s[at + 1..];
    assert d == s[at + 1..dot] + "." + s[dot + 1..];
    assert d[dot - at - 1] == '.';
    assert Segment(d);
  }

  /** An e-mail shaped string is non-empty and has no whitespace, so trimming leaves it alone. */
  lemma EmailShapedIsTrimmed(s: string)
    requires IsEmailShaped(s)
    ensures |s| > 0 && NoSpace(s)
    ensures Trim(s) == s
  {
    var at := IndexOf(s, '@').value;
    forall i | 0 <= i < |s|
      ensures !IsSpace(s[i])
    {
      if i < at {
        assert s[i] == s[..at][i];
      } else if at < i {
        assert s[i] == s[at + 1..][i - at - 1];
      }
    }
    TrimOfTrimmed(s);
  }

  /** Placeholder addresses the shop never sends mail to, compared after lower-casing. */
  predicate IsPlaceholder(e: string) {
    EndsWith(e, "@example.com") || e == "cliente@example.com" || e == "cliente@exemplo.com"
  }

  /** `isValidEmail`: non-empty, and after trimming and lower-casing, e-mail shaped and not a placeholder. */
  predicate IsValidEmail(email: Option<string>) {
    && Truthy(email)
    && var e := Lower(Trim(email.value));
    && IsEmailShaped(e)
    && !IsPlaceholder(e)
  }

  /** What `isValidEmail` accepts, stated through the regular expression's own shape. */
  lemma ValidEmailMeaning(email: Option<string>)
    ensures IsValidEmail(email) <==>
      && email.Some?
      && MatchesPattern(Lower(Trim(email.value)))
      && !EndsWith(Lower(Trim(email.value)), "@example.com")
      && Lower(Trim(email.value)) != "cliente@exemplo.com"
  {
    if email.Some? {
      var e := Lower(Trim(email.value));
      EmailShapedIffPattern(e);
      if e == "cliente@example.com" {
        assert EndsWith(e, "@example.com");
      }
    }
  }
}

=== FILE: gateway.dfy ===
/**
 * The payment-gateway client (`MercadoPagoService`): the webhook callback URL,
 * the request bodies it builds for PIX and card payments, and the way it
 * rewraps gateway errors. The gateway's answers are parameters.
 */
module Gateway {
  import opened Wrappers
  import opened Text

  // ---------------------------------------------------------------------------
  // Callback URL

  /** The fields of a parsed URL that the client reads. */
  datatype Url = Url(protocol: string, hostname: string, origin: string, href: string)

  /** The two environment variables; `None` when unset. */
  datatype Env = Env(notificationUrl: Option<string>, baseUrl: Option<string>)

  const WebhookPath: string := "/api/webhook"
  const Https: string := "https:"

  /** Host names the callback URL may not point at. */
  predicate IsLoopback(host: string) {
    host == "localhost" || host == "127.0.0.1" || host == "::1"
  }

  /**
   * `getNotificationUrl`: an explicit notification URL, when set and not
   * blank, decides alone; otherwise the base URL's origin plus the webhook
   * path, when the base URL is https and not a loopback host. `parse` is URL
   * parsing (`None` when it throws).
   */
  function NotificationUrl(env: Env, parse: string -> Option<Url>): (r: Option<string>)
    ensures Trim(env.notificationUrl.GetOr("")) != "" ==>
      var raw := Trim(env.notificationUrl.GetOr(""));
      (r.Some? <==> parse(raw).Some? && parse(raw).value.protocol == Https)
      && (r.Some? ==> r.value == parse(raw).value.href)
    ensures Trim(env.notificationUrl.GetOr("")) == "" ==>
      var base := Trim(env.baseUrl.GetOr(""));
      (r.Some? <==> base != "" && parse(base).Some? && parse(base).value.protocol == Https
                    && !IsLoopback(parse(base).value.hostname))
      && (r.Some? ==> r.value == parse(base).value.origin + WebhookPath)
  {
    var raw := Trim(env.notificationUrl.GetOr(""));
    if raw != "" then
      match parse(raw)
      case None => None
      case Some(u) => if u.protocol != Https then None else Some(u.href)
    else
      var base := Trim(env.baseUrl.GetOr(""));
      if base == "" then None
      else match parse(base)
        case None => None
        case Some(u) =>
          if u.protocol == Https && !IsLoopback(u.hostname) then Some(u.origin + WebhookPath) else None
  }

  /** Every URL handed to the gateway came from an https URL record. */
  lemma NotificationUrlIsHttps(env: Env, parse: string -> Option<Url>)
    ensures var r := NotificationUrl(env, parse);
      r.Some? ==> exists s :: parse(s).Some? && parse(s).value.protocol == Https
                              && (r.value == parse(s).value.href || r.value == parse(s).value.origin + WebhookPath)
  {
    var raw := Trim(env.notificationUrl.GetOr(""));
    var base := Trim(env.baseUrl.GetOr(""));
    var r := NotificationUrl(env, parse);
    if r.Some? {
      if raw != "" {
        assert parse(raw).Some? && parse(raw).value.protocol == Https;
      } else {
        assert parse(base).Some? && parse(base).value.protocol == Https;
      }
    }
  }

  // ---------------------------------------------------------------------------
  // Names and documents

  datatype NameParts = NameParts(first: string, last: string)

  /** `const [first, ...rest] = s.split(' '); last = rest.join(' ')`. */
  function SplitName(s: string): (r: NameParts)
    ensures ' ' !in r.first
    ensures ' ' in s ==> s == r.first + " " + r.last
    ensures ' ' !in s ==> r.first == s && r.last == ""
  {
    match IndexOf(s, ' ')
    case None => NameParts(s, "")
    case Some(i) => NameParts(s[..i], s[i + 1..])
  }

  /**
   * Splitting a trimmed name loses nothing: the first name, then a space and
   * the last name when there is one, gives the trimmed name back; and the
   * first name is empty only for a blank name.
   */
  lemma SplitNameReconstructs(name: string)
    ensures var t := Trim(name);
      var p := SplitName(t);
      && (if p.last != "" then p.first + " " + p.last else p.first) == t
      && (p.first == "" <==> t == "")
  {
    var t := Trim(name);
    var p := SplitName(t);
    if ' ' in t {
      var i := IndexOf(t, ' ').value;
      assert p.first == t[..i];
      assert IsSpace(t[i]);
      assert 0 < i < |t| - 1;
    }
  }

  // ---------------------------------------------------------------------------
  // Errors

  /** A thrown error; `hasCause` is whether it carries a `cause` property. */
  datatype Error = Error(message: string, hasCause: bool)

  datatype Outcome<T> = Done(value: T) | Failed(error: Error)

  const PixFailure: string := "Falha ao processar pagamento PIX"
  const CardFailure: string := "Falha ao processar pagamento com cart\U{E3}o"

  /** `error?.cause ? error : new Error(fallback)`. */
  function Rewrap(e: Error, fallback: string): (r: Error)
    ensures e.hasCause ==> r == e
    ensures !e.hasCause ==> r == Error(fallback, false)
  {
    if e.hasCause then e else Error(fallback, false)
  }

  /** Rewrapping a rewrapped error changes nothing: the fallback has no cause and is rewrapped into itself. */
  lemma RewrapIdempotent(e: Error, fallback: string)
    ensures Rewrap(Rewrap(e, fallback), fallback) == Rewrap(e, fallback)
    ensures Rewrap(e, fallback).message == fallback || Rewrap(e, fallback) == e
  {
  }

  // ---------------------------------------------------------------------------
  // PIX

  datatype PaymentData = PaymentData(name: string, email: string, cpf: string, amount: JsNumber)

  /** The metadata block both PIX bodies carry. */
  datatype Metadata = Metadata(buyerEmail: string, orderId: string, customerName: Option<string>)

  datatype Identification = Identification(kind: string, number: string)

  /** The checkout preference registered before the PIX payment. */
  datatype Preference = Preference(
    unitPrice: JsNumber,
    payerName: string,
    payerEmail: string,
    identification: Identification,
    metadata: Metadata,
    firstName: string,
    lastName: string,
    notificationUrl: Option<string>,
    externalReference: string)

  /** The body of the PIX payment creation. */
  datatype PixBody = PixBody(
    transactionAmount: JsNumber,
    paymentMethodId: string,
    payerEmail: string,
    firstName: string,
    lastName: string,
    identification: Identification,
    externalReference: string,
    notificationUrl: Option<string>,
    metadata: Metadata)

  /** What the gateway answered for the PIX payment. */
  datatype PixAnswer = PixAnswer(id: string, status: string, qrCode: Option<string>, qrCodeBase64: Option<string>)

  datatype PixResponse = PixResponse(id: string, status: string, qrCode: string, qrCodeBase64: string, externalReference: string)

  /** One run of `createPixPayment`: the bodies sent and the result. */
  datatype PixRun = PixRun(preference: Preference, payment: Option<PixBody>, result: Outcome<PixResponse>)

  function PixPreference(d: PaymentData, reference: string, notify: Option<string>): Preference {
    var n := SplitName(Trim(d.name));
    Preference(
      d.amount, d.name, d.email,
      Identification("CPF", DigitsOf(d.cpf)),
      Metadata(d.email, reference, Some(d.name)),
      if n.first != "" then n.first else d.name,
      n.last,
      notify,
      reference)
  }

  function PixPaymentBody(d: PaymentData, reference: string, notify: Option<string>): PixBody {
    var n := SplitName(Trim(d.name));
    PixBody(
      d.amount, "pix", d.email,
      if n.first != "" then n.first else d.name,
      n.last,
      Identification("CPF", DigitsOf(d.cpf)),
      reference,
      notify,
      Metadata(d.email, reference, Some(d.name)))
  }

  /**
   * `createPixPayment`: register the preference, then create the payment.
   * `reference` is the freshly generated order reference, `notify` the
   * callback URL, `preferenceError` the preference call's failure (if any)
   * and `answer` the payment call's outcome.
   */
  function CreatePixPayment(d: PaymentData, reference: string, notify: Option<string>,
                            preferenceError: Option<Error>, answer: Outcome<PixAnswer>): (r: PixRun)
    ensures r.preference.externalReference == reference && r.preference.metadata.orderId == reference
    ensures r.payment.Some? <==> preferenceError.None?
    ensures r.payment.Some? ==> r.payment.value.externalReference == reference
                                && r.payment.value.metadata.orderId == reference
                                && r.payment.value.paymentMethodId == "pix"
                                && r.payment.value.transactionAmount == d.amount
    ensures r.result.Done? ==> r.result.value.externalReference == reference
    ensures r.result.Done? <==> preferenceError.None? && answer.Done?
    ensures preferenceError.Some? ==> r.result == Failed(Rewrap(preferenceError.value, PixFailure))
    ensures preferenceError.None? && answer.Failed? ==> r.result == Failed(Rewrap(answer.error, PixFailure))
  {
    var pref := PixPreference(d, reference, notify);
    if preferenceError.Some? then
      PixRun(pref, None, Failed(Rewrap(preferenceError.value, PixFailure)))
    else
      var body := PixPaymentBody(d, reference, notify);
      match answer
      case Failed(e) => PixRun(pref, Some(body), Failed(Rewrap(e, PixFailure)))
      case Done(a) =>
        PixRun(pref, Some(body), Done(PixResponse(a.id, a.status, a.qrCode.GetOr(""), a.qrCodeBase64.GetOr(""), reference)))
  }

  /** Both PIX bodies send a digit-only CPF and carry the callback URL exactly when there is one. */
  lemma PixBodiesShape(d: PaymentData, reference: string, notify: Option<string>,
                       preferenceError: Option<Error>, answer: Outcome<PixAnswer>)
    ensures var r := CreatePixPayment(d, reference, notify, preferenceError, answer);
      && AllDigits(r.preference.identification.number)
      && (r.preference.notificationUrl.Some? <==> notify.Some?)
      && (r.payment.Some? ==> AllDigits(r.payment.value.identification.number)
                              && (r.payment.value.notificationUrl.Some? <==> notify.Some?))
  {
  }

  /** The names sent for PIX are the split of the trimmed name, falling back to the whole name. */
  lemma PixNames(d: PaymentData, reference: string, notify: Option<string>)
    ensures var b := PixPaymentBody(d, reference, notify);
      && (Trim(d.name) != "" ==>
            (if b.lastName != "" then b.firstName + " " + b.lastName else b.firstName) == Trim(d.name))
      && (Trim(d.name) == "" ==> b.firstName == d.name && b.lastName == "")
  {
    SplitNameReconstructs(d.name);
  }

  // ---------------------------------------------------------------------------
  // Card

  datatype CardArgs = CardArgs(
    token: string,
    issuerId: Option<string>,
    paymentMethodId: string,
    installments: Option<JsNumber>,
    amount: JsNumber,
    description: Option<string>,
    externalReference: Option<string>,
    payerEmail: string,
    identification: Identification,
    payerName: Option<string>)

  datatype CardBody = CardBody(
    token: string,
    issuerId: Option<string>,
    paymentMethodId: string,
    transactionAmount: JsNumber,
    installments: JsNumber,
    description: string,
    externalReference: string,
    capture: bool,
    payerEmail: string,
    identification: Identification,
    notificationUrl: Option<string>,
    metadata: Metadata,
    additionalEmail: string,
    firstName: Option<string>,
    lastName: Option<string>)

  const CardDescription: string := "Pagamento com cart\U{E3}o"

  /** The trimmed payer name, when it is not blank. */
  function FullName(name: Option<string>): (r: Option<string>)
    ensures r.Some? <==> name.Some? && Trim(name.value) != ""
    ensures r.Some? ==> r.value == Trim(name.value)
  {
    if Truthy(name) && Trim(name.value) != "" then Some(Trim(name.value)) else None
  }

  /** The body `createCardPayment` sends; `generated` is the generated order reference. */
  function CardBodyOf(a: CardArgs, generated: string, notify: Option<string>): CardBody {
    var full := FullName(a.payerName);
    var n := SplitName(full.GetOr(""));
    var reference := OrElse(a.externalReference, generated);
    CardBody(
      a.token, a.issuerId, a.paymentMethodId, a.amount,
      if a.installments.Some? && a.installments.value.Truthy() then a.installments.value else Finite(1.0),
      OrElse(a.description, CardDescription),
      reference,
      true,
      a.payerEmail,
      Identification(a.identification.kind, DigitsOf(a.identification.number)),
      notify,
      Metadata(a.payerEmail, reference, full),
      a.payerEmail,
      if full.Some? then Some(if n.first != "" then n.first else full.value) else None,
      if full.Some? then Some(n.last) else None)
  }

  /** `createCardPayment`: one payment call; failures are rewrapped. */
  function CreateCardPayment(a: CardArgs, generated: string, notify: Option<string>, answer: Outcome<string>): (r: (CardBody, Outcome<string>))
    ensures r.0 == CardBodyOf(a, generated, notify)
    ensures answer.Done? ==> r.1 == answer
    ensures answer.Failed? ==> r.1 == Failed(Rewrap(answer.error, CardFailure))
  {
    (CardBodyOf(a, generated, notify),
     match answer
     case Done(v) => Done(v)
     case Failed(e) => Failed(Rewrap(e, CardFailure)))
  }

  /**
   * The card body: the supplied reference or the generated one, everywhere;
   * one installment unless a non-zero count is given; a digit-only document;
   * the callback URL exactly when there is one.
   */
  lemma CardBodyShape(a: CardArgs, generated: string, notify: Option<string>)
    ensures var b := CardBodyOf(a, generated, notify);
      && b.externalReference == (if Truthy(a.externalReference) then a.externalReference.value else generated)
      && b.metadata.orderId == b.externalReference
      && (a.installments.None? ==> b.installments == Finite(1.0))
      && (a.installments.Some? && a.installments.value.Truthy() ==> b.installments == a.installments.value)
      && (a.installments.Some? && !a.installments.value.Truthy() ==> b.installments == Finite(1.0))
      && AllDigits(b.identification.number)
      && (b.notificationUrl.Some? <==> notify.Some?)
  {
  }

  /**
   * The card body's names: the customer name and the first/last names are
   * sent only when the trimmed payer name is not blank, and then the first
   * and last names put back together give that trimmed name.
   */
  lemma CardBodyNames(a: CardArgs, generated: string, notify: Option<string>)
    ensures var b := CardBodyOf(a, generated, notify);
      && (b.metadata.customerName.Some? <==> a.payerName.Some? && Trim(a.payerName.value) != "")
      && (b.firstName.Some? <==> b.metadata.customerName.Some?)
      && (b.lastName.Some? <==> b.metadata.customerName.Some?)
      && (b.firstName.Some? ==>
            (if b.lastName.value != "" then b.firstName.value + " " + b.lastName.value else b.firstName.value)
              == Trim(a.payerName.value))
  {
    var full := FullName(a.payerName);
    if full.Some? {
      var t := Trim(a.payerName.value);
      assert full.value == t;
      assert Trim(t) == t by {
        TrimIdempotent(a.payerName.value);
      }
      SplitNameReconstructs(t);
    }
  }
}

=== FILE: header.dfy ===
/**
 * The site header: the CEP (postal code) field, the search box and the
 * greeting.
 */
module Header {
  import opened Wrappers
  import opened Text

  const CepLength: nat := 8
  const SearchPath: string := "/search?q="
  const Anonymous: string := "Usu\U{E1}rio"

  /** `s.slice(0, n)`. */
  function Take(s: string, n: nat): (r: string)
    ensures |r| == if |s| <= n then |s| else n
    ensures r == s[..|r|]
  {
    if |s| <= n then s else s[..n]
  }

  /** `handleCepChange`: the digits of the input, at most eight of them. */
  function SanitizeCep(value: string): (r: string)
    ensures AllDigits(r)
    ensures |r| <= CepLength && |r| <= |DigitsOf(value)|
    ensures r == DigitsOf(value)[..|r|]
    ensures |DigitsOf(value)| <= CepLength ==> r == DigitsOf(value)
    ensures |DigitsOf(value)| > CepLength ==> |r| == CepLength
  {
    Take(DigitsOf(value), CepLength)
  }

  /** A sanitised CEP is left alone by sanitising it again. */
  lemma SanitizeCepIdempotent(value: string)
    ensures SanitizeCep(SanitizeCep(value)) == SanitizeCep(value)
  {
    var r := SanitizeCep(value);
    assert DigitsOf(r) == r;
  }

  /**
   * `handleSearch`: navigate to the search page with the trimmed query,
   * URL-encoded by `encode`, unless the trimmed query is empty.
   */
  function SearchTarget(query: string, encode: string -> string): (r: Option<string>)
    ensures r.Some? <==> Trim(query) != ""
    ensures r.Some? ==> r.value == SearchPath + encode(Trim(query))
  {
    var q := Trim(query);
    if q != "" then Some(SearchPath + encode(q)) else None
  }

  /** A query with surrounding blanks leads to the same page as the bare query. */
  lemma SearchIgnoresSurroundingBlanks(query: string, encode: string -> string)
    ensures SearchTarget(Trim(query), encode) == SearchTarget(query, encode)
  {
    TrimIdempotent(query);
  }

  /** The greeting name: the session's name, else the e-mail's local part, else "Usuário" (`||` throughout). */
  function Greeting(name: Option<string>, email: Option<string>): (r: string)
    ensures r != ""
    ensures Truthy(name) ==> r == name.value
    ensures !Truthy(name) && email.Some? && BeforeFirst(email.value, '@') != "" ==> r == BeforeFirst(email.value, '@')
    ensures !Truthy(name) && (email.None? || BeforeFirst(email.value, '@') == "") ==> r == Anonymous
  {
    var local := if email.Some? then Some(BeforeFirst(email.value, '@')) else None;
    FirstOfTwo(name, local);
    FirstTruthy([name, local]).GetOr(Anonymous)
  }

  /** Without a session name the greeting never shows an e-mail address: it holds no `@`. */
  lemma GreetingHidesAddress(name: Option<string>, email: Option<string>)
    requires !Truthy(name)
    ensures '@' !in Greeting(name, email)
  {
    var r := Greeting(name, email);
    if r == Anonymous {
      assert forall i :: 0 <= i < |Anonymous| ==> Anonymous[i] != '@';
    } else {
      assert forall i :: 0 <= i < |r| ==> r[i] != '@';
    }
  }
}

=== FILE: initials.dfy ===
/**
 * The avatar initials and the display name of the dashboard pages. Both
 * pages carry the same `getInitials`; their display names differ.
 */
module Initials {
  import opened Wrappers
  import opened Text

  const NoName: string := "U"
  const DashboardAnonymous: string := "Usu\U{E1}rio"
  const TaskAnonymous: string := "usu\U{E1}rio"

  /** The length of the whitespace run at the start of `s`. */
  function SpaceRun(s: string): (n: nat)
    ensures n <= |s|
    ensures forall i :: 0 <= i < n ==> IsSpace(s[i])
    ensures n < |s| ==> !IsSpace(s[n])
  {
    |s| - |TrimStart(s)|
  }

  /**
   * `s.split(/\s+/)`: the pieces between maximal whitespace runs. A leading
   * run gives an empty first piece and a trailing run an empty last one.
   */
  function SplitSpaces(s: string): (parts: seq<string>)
    ensures |parts| >= 1
    ensures forall k :: 0 <= k < |parts| ==> NoSpace(parts[k])
    decreases |s|
  {
    var i := FirstSpace(s);
    if i == |s| then [s]
    else
      var rest := s[i..];
      var n := SpaceRun(rest);
      [s[..i]] + SplitSpaces(rest[n..])
  }

  /** The position of the first whitespace character, or `|s|`. */
  function FirstSpace(s: string): (i: nat)
    ensures i <= |s|
    ensures forall k :: 0 <= k < i ==> !IsSpace(s[k])
    ensures i < |s| ==> IsSpace(s[i])
  {
    if s == [] || IsSpace(s[0]) then 0 else 1 + FirstSpace(s[1..])
  }

  /** A string splits into more than one piece exactly when it holds whitespace. */
  lemma SplitsIffSpace(s: string)
    ensures |SplitSpaces(s)| >= 2 <==> !NoSpace(s)
  {
  }

  /** No whitespace at either end, as `trim` leaves a string. */
  predicate Trimmed(s: string) {
    s != [] ==> !IsSpace(s[0]) && !IsSpace(s[|s| - 1])
  }

  /** The pieces of a string without surrounding whitespace are all non-empty words. */
  lemma {:induction false} TrimmedPiecesNonEmpty(s: string)
    requires s != [] && Trimmed(s)
    ensures forall k :: 0 <= k < |SplitSpaces(s)| ==> SplitSpaces(s)[k] != ""
    decreases |s|
  {
    var i := FirstSpace(s);
    if i < |s| {
      var rest := s[i..];
      var n := SpaceRun(rest);
      var tail := rest[n..];
      // The trailing character is not whitespace, so the run stops before the end.
      assert rest[|rest| - 1] == s[|s| - 1];
      assert tail[|tail| - 1] == s[|s| - 1];
      TrimmedPiecesNonEmpty(tail);
      assert SplitSpaces(s) == [s[..i]] + SplitSpaces(tail);
    }
  }

  /** `p[0]` glued into a string: a missing character reads as "undefined". */
  function FirstChar(p: string): string {
    if p == "" then "undefined" else [p[0]]
  }

  /**
   * `getInitials` on the trimmed name: the first letters of the first two
   * words when there are two; otherwise the first two characters of the
   * part before any `@`. Letters are upper-cased (ASCII).
   */
  function InitialsOf(safe: string): (r: string)
    ensures Trimmed(safe) ==> |r| <= 2
    ensures NoSpace(safe) ==>
      var local := BeforeFirst(safe, '@');
      r == Upper(local[..if |local| < 2 then |local| else 2])
  {
    var parts := SplitSpaces(safe);
    if |parts| >= 2 then
      assert Trimmed(safe) ==> parts[0] != "" && parts[1] != "" by {
        if Trimmed(safe) { TrimmedWords(safe); }
      }
      Upper(FirstChar(parts[0]) + FirstChar(parts[1]))
    else
      SplitsIffSpace(safe);
      var base := if '@' in safe then BeforeFirst(safe, '@') else safe;
      Upper(base[..if |base| < 2 then |base| else 2])
  }

  /** `getInitials`: "U" without a name, else the initials of the trimmed name. */
  function GetInitials(name: Option<string>): (r: string)
    ensures !Truthy(name) ==> r == NoName
    ensures Truthy(name) ==> |r| <= 2
    ensures Truthy(name) && NoSpace(Trim(name.value)) ==>
      var local := BeforeFirst(Trim(name.value), '@');
      r == Upper(local[..if |local| < 2 then |local| else 2])
  {
    if !Truthy(name) then NoName else InitialsOf(Trim(name.value))
  }

  /** For a trimmed string with whitespace, the first two pieces are words. */
  lemma TrimmedWords(safe: string)
    requires Trimmed(safe)
    requires |SplitSpaces(safe)| >= 2
    ensures SplitSpaces(safe)[0] != "" && SplitSpaces(safe)[1] != ""
  {
    assert safe != [];
    TrimmedPiecesNonEmpty(safe);
  }

  /** The first two pieces of a trimmed string with whitespace, by their first letters. */
  lemma FirstTwoPieces(safe: string)
    requires Trimmed(safe) && !NoSpace(safe)
    ensures var i := FirstSpace(safe);
      var rest := safe[i..];
      && SpaceRun(rest) < |rest|
      && |SplitSpaces(safe)| >= 2
      && SplitSpaces(safe)[0] != "" && SplitSpaces(safe)[0][0] == safe[0]
      && SplitSpaces(safe)[1] != "" && SplitSpaces(safe)[1][0] == rest[SpaceRun(rest)]
  {
    SplitsIffSpace(safe);
    TrimmedWords(safe);
    var i := FirstSpace(safe);
    var rest := safe[i..];
    var n := SpaceRun(rest);
    var tail := rest[n..];
    assert rest[|rest| - 1] == safe[|safe| - 1];
    assert SplitSpaces(safe) == [safe[..i]] + SplitSpaces(tail);
    SplitHead(tail);
  }

  /** A trimmed string with whitespace inside: the first letters of its first two words. */
  lemma WordInitials(safe: string)
    requires Trimmed(safe) && !NoSpace(safe)
    ensures var parts := SplitSpaces(safe);
      && |parts| >= 2 && parts[0] != "" && parts[1] != ""
      && InitialsOf(safe) == [UpperChar(parts[0][0]), UpperChar(parts[1][0])]
  {
    var parts := SplitSpaces(safe);
    SplitsIffSpace(safe);
    TrimmedWords(safe);
    var pair := FirstChar(parts[0]) + FirstChar(parts[1]);
    assert InitialsOf(safe) == Upper(pair);
    assert pair == [parts[0][0], parts[1][0]];
    UpperPair(parts[0][0], parts[1][0]);
  }

  /**
   * A name with whitespace inside gives two letters: the first letters of
   * its first two words, both of which are non-empty.
   */
  lemma TwoWordsGiveTwoInitials(name: string)
    requires !NoSpace(Trim(name))
    ensures var parts := SplitSpaces(Trim(name));
      && |parts| >= 2 && parts[0] != "" && parts[1] != ""
      && GetInitials(Some(name)) == [UpperChar(parts[0][0]), UpperChar(parts[1][0])]
  {
    WordInitials(Trim(name));
  }

  /** The first piece is the text before the first whitespace character. */
  lemma SplitHead(s: string)
    ensures SplitSpaces(s)[0] == s[..FirstSpace(s)]
  {
  }

  /** Upper-casing two letters one by one. */
  lemma UpperPair(x: char, y: char)
    ensures Upper([x, y]) == [UpperChar(x), UpperChar(y)]
  {
  }

  /** A name that is only whitespace gives no initials at all, not the "U" of a missing name. */
  lemma BlankNameGivesNothing(name: string)
    requires name != "" && Trim(name) == ""
    ensures GetInitials(Some(name)) == ""
  {
  }

  // ---------------------------------------------------------------------------
  // Display names

  /** The dashboard's name: `name ?? email?.split('@')[0] ?? 'Usuário'`. */
  function DashboardDisplayName(name: Option<string>, email: Option<string>): (r: string)
    ensures name.Some? ==> r == name.value
    ensures name.None? && email.Some? ==> StartsWith(email.value, r) && '@' !in r
    ensures name.None? && email.Some? && '@' in email.value ==> |r| < |email.value| && email.value[|r|] == '@'
    ensures name.None? && email.Some? && '@' !in email.value ==> r == email.value
    ensures name.None? && email.None? ==> r == DashboardAnonymous
  {
    match name
    case Some(n) => n
    case None => match email
      case Some(e) => BeforeFirst(e, '@')
      case None => DashboardAnonymous
  }

  /** The second dashboard's name: `name ?? email ?? 'usuário'`. */
  function TaskDisplayName(name: Option<string>, email: Option<string>): (r: string)
    ensures name.Some? ==> r == name.value
    ensures name.None? && email.Some? ==> r == email.value
    ensures name.None? && email.None? ==> r == TaskAnonymous
  {
    match name
    case Some(n) => n
    case None => email.GetOr(TaskAnonymous)
  }

  /**
   * The two pages agree when the session has a name; without one they
   * agree on an e-mail exactly when it has no `@`, and never when the
   * e-mail is missing too.
   */
  lemma DisplayNamesCompared(name: Option<string>, email: Option<string>)
    ensures name.Some? ==> DashboardDisplayName(name, email) == TaskDisplayName(name, email)
    ensures name.None? && email.Some? ==>
      (DashboardDisplayName(name, email) == TaskDisplayName(name, email) <==> '@' !in email.value)
    ensures name.None? && email.None? ==> DashboardDisplayName(name, email) != TaskDisplayName(name, email)
  {
    if name.None? && email.None? {
      assert DashboardAnonymous[0] != TaskAnonymous[0];
    }
  }
}

=== FILE: middleware.dfy ===
/**
 * The request middleware: it always asks for client hints, and on the side
 * reports the visit (client IP, city, user agent, guessed browser and
 * device type) to the tracking endpoint without waiting for it.
 */
module Middleware {
  import opened Wrappers
  import opened Text
  import Browser

  const Unknown: string := "Unknown"
  const MobileSafari: string := "Mobile Safari"
  const Opera: string := "Opera"

  /** The eight browser labels the middleware can report. */
  const Labels: set<string> := {MobileSafari, Browser.SamsungInternet, Browser.Chrome, Browser.Firefox,
                                Browser.Safari, Browser.Edge, Opera, Unknown}

  datatype Device = MOBILE | DESKTOP | TABLET

  datatype Detected = Detected(browser: string, device: Device)

  /** `mobile` decides the device of every browser branch but the first. */
  function DeviceByMobile(u: string): Device {
    if Contains(u, "mobile") then MOBILE else DESKTOP
  }

  /** The browser branches, first match wins, each with the device it sets. */
  function BrowserBranch(u: string): (d: Detected)
    ensures d.browser in Labels
  {
    if Contains(u, "mobile safari") || Contains(u, "iphone") || Contains(u, "ipad") then Detected(MobileSafari, MOBILE)
    else if Contains(u, "samsung") || Contains(u, "samsungbrowser") then Detected(Browser.SamsungInternet, DeviceByMobile(u))
    else if Contains(u, "chrome") && !Contains(u, "edg") then Detected(Browser.Chrome, DeviceByMobile(u))
    else if Contains(u, "firefox") || Contains(u, "fxios") then Detected(Browser.Firefox, DeviceByMobile(u))
    else if Contains(u, "safari") then Detected(Browser.Safari, DeviceByMobile(u))
    else if Contains(u, "edg") then Detected(Browser.Edge, DeviceByMobile(u))
    else if Contains(u, "opera") then Detected(Opera, DeviceByMobile(u))
    else Detected(Unknown, DESKTOP)
  }

  /**
   * The detection: without a user agent, "Unknown" on a desktop; otherwise
   * the browser branch, after which `mobile` forces MOBILE and, failing
   * that, `tablet` or `ipad` forces TABLET.
   */
  function Detect(ua: Option<string>): (d: Detected)
    ensures d.browser in Labels
    ensures !Truthy(ua) ==> d == Detected(Unknown, DESKTOP)
    ensures Truthy(ua) ==> d.browser == BrowserBranch(Lower(ua.value)).browser
    ensures Truthy(ua) && Contains(Lower(ua.value), "mobile") ==> d.device == MOBILE
    ensures (Truthy(ua) && !Contains(Lower(ua.value), "mobile")
             && (Contains(Lower(ua.value), "tablet") || Contains(Lower(ua.value), "ipad"))) ==> d.device == TABLET
  {
    if !Truthy(ua) then Detected(Unknown, DESKTOP)
    else
      var u := Lower(ua.value);
      var b := BrowserBranch(u);
      var device := if Contains(u, "mobile") then MOBILE
                    else if Contains(u, "tablet") || Contains(u, "ipad") then TABLET
                    else b.device;
      Detected(b.browser, device)
  }

  /**
   * An iPad without `mobile` in its agent is reported as a tablet, although
   * the browser branch first marks it MOBILE.
   */
  lemma IpadIsTablet(ua: string)
    requires ua != "" && Contains(Lower(ua), "ipad") && !Contains(Lower(ua), "mobile")
    ensures Detect(Some(ua)) == Detected(MobileSafari, TABLET)
  {
  }

  /**
   * Apart from the "Internet Explorer" bucket, the middleware and
   * `saveAccessLog` guess the same browser from the same agent.
   */
  lemma AgreesWithAccessLog(ua: string)
    requires ua != ""
    ensures var m := Detect(Some(ua)).browser;
            var s := Browser.BrowserFromAgent(ua);
      (m != Unknown ==> m == s) && (m == Unknown ==> s in {Unknown, "Internet Explorer"})
  {
  }

  // ---------------------------------------------------------------------------
  // Client IP

  /**
   * The first comma-separated entry of `x-forwarded-for`, trimmed, or else
   * `x-real-ip`; `None` when neither gives a non-empty value.
   */
  function ClientIp(forwardedFor: Option<string>, realIp: Option<string>): (r: Option<string>)
    ensures var first := Trim(BeforeFirst(forwardedFor.GetOr(""), ','));
      && (first != "" ==> r == Some(first))
      && (first == "" ==> r == (if Truthy(realIp) then realIp else None))
    ensures r.Some? ==> r.value != ""
  {
    var first := Trim(BeforeFirst(forwardedFor.GetOr(""), ','));
    if first != "" then Some(first)
    else if Truthy(realIp) then realIp
    else None
  }

  /** The address taken from `x-forwarded-for` has no comma and no surrounding whitespace. */
  lemma ForwardedAddressIsClean(forwardedFor: string, realIp: Option<string>)
    requires Trim(BeforeFirst(forwardedFor, ',')) != ""
    ensures var r := ClientIp(Some(forwardedFor), realIp);
      && r.Some? && ',' !in r.value && Trim(r.value) == r.value
  {
    var head := BeforeFirst(forwardedFor, ',');
    TrimChars(head);
    TrimIdempotent(head);
  }

  // ---------------------------------------------------------------------------
  // The middleware

  datatype Track = Track(ip: Option<string>, city: Option<string>, ua: Option<string>, browser: string, device: Device)

  datatype Run = Run(headers: map<string, string>, tracked: Option<Track>)

  const ClientHintHeaders: map<string, string> := map[
    "Accept-CH" := "Sec-CH-UA, Sec-CH-UA-Platform, Sec-CH-UA-Mobile, Sec-CH-UA-Model",
    "Critical-CH" := "Sec-CH-UA, Sec-CH-UA-Platform",
    "Permissions-Policy" := "ch-ua=*; ch-ua-platform=*; ch-ua-mobile=*; ch-ua-model=*"]

  /**
   * One request. `urlOk` says whether the request URL parses (when it does
   * not, the tracking block is skipped); `geoCity` and `cityHeader` are the
   * platform's city and the `x-vercel-ip-city` header. The tracking call is
   * fired and forgotten, so its outcome is not an input.
   */
  function Handle(forwardedFor: Option<string>, realIp: Option<string>, geoCity: Option<string>,
                  cityHeader: Option<string>, ua: Option<string>, urlOk: bool): (r: Run)
    ensures r.headers == ClientHintHeaders
    ensures r.tracked.Some? <==> urlOk
    ensures r.tracked.Some? ==>
      && r.tracked.value.ip == ClientIp(forwardedFor, realIp)
      && r.tracked.value.ua == KeepTruthy(ua)
      && r.tracked.value.city == (if Truthy(geoCity) then geoCity else KeepTruthy(cityHeader))
      && r.tracked.value.browser == Detect(ua).browser
      && r.tracked.value.device == Detect(ua).device
  {
    if !urlOk then Run(ClientHintHeaders, None)
    else
      var city := FirstTruthy([geoCity, cityHeader]);
      FirstOfTwo(geoCity, cityHeader);
      var d := Detect(ua);
      Run(ClientHintHeaders, Some(Track(ClientIp(forwardedFor, realIp), city, KeepTruthy(ua), d.browser, d.device)))
  }

  /** The response does not depend on anything the tracking part looks at. */
  lemma ResponseIndependentOfTracking(f1: Option<string>, r1: Option<string>, g1: Option<string>, c1: Option<string>,
                                      u1: Option<string>, ok1: bool,
                                      f2: Option<string>, r2: Option<string>, g2: Option<string>, c2: Option<string>,
                                      u2: Option<string>, ok2: bool)
    ensures Handle(f1, r1, g1, c1, u1, ok1).headers == Handle(f2, r2, g2, c2, u2, ok2).headers
  {
  }
}

=== FILE: payment_store.dfy ===
/**
 * The payment store (`paymentService`): payment records with a unique
 * gateway id and a unique external reference, and an append-only log of
 * webhook events. A record's internal id is its position in `payments`;
 * an event's id is its position in `events`. Operations that the database
 * would reject return `Err`.
 */
module PaymentStore {
  import opened Wrappers
  import opened Text

  datatype Item = Item(title: Option<string>, quantity: real, unitPrice: real)

  datatype Payment = Payment(
    mercadopagoId: string,
    externalReference: string,
    amount: real,
    paymentMethod: string,
    payerName: string,
    payerEmail: string,
    payerCpf: string,
    description: Option<string>,
    items: Option<seq<Item>>,
    status: string,
    mpStatusDetail: Option<string>,
    mpRejectionReason: Option<string>,
    mpUpdatedAt: Option<string>,
    createdAt: int,
    updatedAt: int)

  datatype WebhookEvent = WebhookEvent(
    paymentId: nat,
    eventType: string,
    eventData: string,
    processed: bool,
    processedAt: Option<int>,
    error: Option<string>,
    createdAt: int)

  datatype Store = Store(payments: seq<Payment>, events: seq<WebhookEvent>)

  datatype StoreError = NotFound | UniqueViolation | InvalidArgument | Unavailable

  datatype Result<T> = Ok(value: T) | Err(error: StoreError)

  const NameSentinel: string := "Nome n\U{E3}o informado"
  const EmailSentinel: string := "email@nao.informado"
  const CpfSentinel: string := "CPF n\U{E3}o informado"
  const DefaultStatus: string := "PENDING"

  /** Events embedded in a single-payment lookup, and in each listed payment. */
  const LookupEvents: nat := 10
  const ListEvents: nat := 5

  /** The unique indexes on gateway id and external reference, and the event foreign key. */
  predicate Valid(s: Store) {
    && (forall i, j :: 0 <= i < j < |s.payments| ==> s.payments[i].mercadopagoId != s.payments[j].mercadopagoId)
    && (forall i, j :: 0 <= i < j < |s.payments| ==> s.payments[i].externalReference != s.payments[j].externalReference)
    && (forall e :: 0 <= e < |s.events| ==> s.events[e].paymentId < |s.payments|)
  }

  // ---------------------------------------------------------------------------
  // Lookups

  /** The first position whose record satisfies `matches`. */
  function FindFirst(ps: seq<Payment>, matches: Payment -> bool): (r: Option<nat>)
    ensures r.Some? ==> r.value < |ps| && matches(ps[r.value])
    ensures r.Some? ==> forall j :: 0 <= j < r.value ==> !matches(ps[j])
    ensures r.None? ==> forall j :: 0 <= j < |ps| ==> !matches(ps[j])
  {
    if |ps| == 0 then None
    else if matches(ps[0]) then Some(0)
    else match FindFirst(ps[1..], matches)
      case None => None
      case Some(i) => Some(i + 1)
  }

  function FindByGatewayId(s: Store, id: string): (r: Option<nat>)
    ensures r.Some? ==> r.value < |s.payments| && s.payments[r.value].mercadopagoId == id
    ensures r.None? ==> forall j :: 0 <= j < |s.payments| ==> s.payments[j].mercadopagoId != id
  {
    FindFirst(s.payments, (p: Payment) => p.mercadopagoId == id)
  }

  function FindByReference(s: Store, reference: string): (r: Option<nat>)
    ensures r.Some? ==> r.value < |s.payments| && s.payments[r.value].externalReference == reference
    ensures r.None? ==> forall j :: 0 <= j < |s.payments| ==> s.payments[j].externalReference != reference
  {
    FindFirst(s.payments, (p: Payment) => p.externalReference == reference)
  }

  /** In a valid store a gateway id names at most one record, so the lookup finds exactly it. */
  lemma FindByGatewayIdUnique(s: Store, i: nat)
    requires Valid(s) && i < |s.payments|
    ensures FindByGatewayId(s, s.payments[i].mercadopagoId) == Some(i)
  {
  }

  /** The events of payment `pid`, newest first (latest appended first), at most `n` of them. */
  function Recent(evs: seq<WebhookEvent>, pid: nat, n: nat): (r: seq<WebhookEvent>)
    ensures |r| <= n
    ensures forall j :: 0 <= j < |r| ==> r[j].paymentId == pid && r[j] in evs
    ensures |r| < n ==> forall e :: e in evs && e.paymentId == pid ==> e in r
    decreases |evs|
  {
    if |evs| == 0 || n == 0 then []
    else
      var last := evs[|evs| - 1];
      var earlier := evs[..|evs| - 1];
      assert evs == earlier + [last];
      if last.paymentId == pid then [last] + Recent(earlier, pid, n - 1)
      else Recent(earlier, pid, n)
  }

  /** The events of payment `pid`, in log order (oldest first). */
  function EventsOf(evs: seq<WebhookEvent>, pid: nat): (r: seq<WebhookEvent>)
    ensures |r| <= |evs|
    ensures forall j :: 0 <= j < |r| ==> r[j].paymentId == pid
    decreases |evs|
  {
    if |evs| == 0 then []
    else EventsOf(evs[..|evs| - 1], pid) + (if evs[|evs| - 1].paymentId == pid then [evs[|evs| - 1]] else [])
  }

  function Reversed(xs: seq<WebhookEvent>): (r: seq<WebhookEvent>)
    ensures |r| == |xs|
    ensures forall j :: 0 <= j < |xs| ==> r[j] == xs[|xs| - 1 - j]
  {
    seq(|xs|, j requires 0 <= j < |xs| => xs[|xs| - 1 - j])
  }

  /** The `n` latest events of payment `pid`, latest first: `orderBy createdAt desc, take n` over a log in creation order. */
  function Newest(evs: seq<WebhookEvent>, pid: nat, n: nat): seq<WebhookEvent> {
    var mine := Reversed(EventsOf(evs, pid));
    if n < |mine| then mine[..n] else mine
  }

  lemma ReversedSnoc(xs: seq<WebhookEvent>, x: WebhookEvent)
    ensures Reversed(xs + [x]) == [x] + Reversed(xs)
  {
  }

  /** Taking `n` from a list with a new head takes `n - 1` from the rest. */
  lemma NewestCons(evs: seq<WebhookEvent>, pid: nat, n: nat)
    requires |evs| > 0 && n > 0 && evs[|evs| - 1].paymentId == pid
    ensures Newest(evs, pid, n) == [evs[|evs| - 1]] + Newest(evs[..|evs| - 1], pid, n - 1)
  {
    var last := evs[|evs| - 1];
    var prev := EventsOf(evs[..|evs| - 1], pid);
    assert EventsOf(evs, pid) == prev + [last];
    ReversedSnoc(prev, last);
    var m := Reversed(prev);
    if n - 1 < |m| {
      assert ([last] + m)[..n] == [last] + m[..n - 1];
    }
  }

  /** `Recent` keeps exactly the latest `n` events of the payment, latest first. */
  lemma {:induction false} RecentIsNewest(evs: seq<WebhookEvent>, pid: nat, n: nat)
    ensures Recent(evs, pid, n) == Newest(evs, pid, n)
    decreases |evs|
  {
    if |evs| > 0 && n > 0 {
      var earlier := evs[..|evs| - 1];
      if evs[|evs| - 1].paymentId == pid {
        RecentIsNewest(earlier, pid, n - 1);
        NewestCons(evs, pid, n);
      } else {
        RecentIsNewest(earlier, pid, n);
        assert EventsOf(evs, pid) == EventsOf(earlier, pid);
      }
    }
  }

  /** The event log is in creation-time order. */
  predicate TimeOrdered(evs: seq<WebhookEvent>) {
    forall i, j :: 0 <= i < j < |evs| ==> evs[i].createdAt <= evs[j].createdAt
  }

  /** Each event is at least as recent as every event after it. */
  predicate NewestFirst(r: seq<WebhookEvent>) {
    forall j, k :: 0 <= j < k < |r| ==> r[j].createdAt >= r[k].createdAt
  }

  /** Over a time-ordered log, `Recent` lists events newest first. */
  lemma {:induction false} RecentNewestFirst(evs: seq<WebhookEvent>, pid: nat, n: nat)
    requires TimeOrdered(evs)
    ensures NewestFirst(Recent(evs, pid, n))
    decreases |evs|
  {
    if |evs| > 0 && n > 0 {
      var last := evs[|evs| - 1];
      var earlier := evs[..|evs| - 1];
      TimeOrderedPrefix(evs);
      if last.paymentId == pid {
        RecentNewestFirst(earlier, pid, n - 1);
        var rest := Recent(earlier, pid, n - 1);
        forall k | 0 <= k < |rest|
          ensures rest[k].createdAt <= last.createdAt
        {
          var m :| 0 <= m < |earlier| && earlier[m] == rest[k];
          assert evs[m] == earlier[m];
        }
        ConsNewestFirst(last, rest);
      } else {
        RecentNewestFirst(earlier, pid, n);
      }
    }
  }

  lemma TimeOrderedPrefix(evs: seq<WebhookEvent>)
    requires TimeOrdered(evs) && |evs| > 0
    ensures TimeOrdered(evs[..|evs| - 1])
  {
  }

  lemma ConsNewestFirst(e: WebhookEvent, rest: seq<WebhookEvent>)
    requires NewestFirst(rest)
    requires forall k :: 0 <= k < |rest| ==> rest[k].createdAt <= e.createdAt
    ensures NewestFirst([e] + rest)
  {
    var r := [e] + rest;
    forall j, k | 0 <= j < k < |r|
      ensures r[j].createdAt >= r[k].createdAt
    {
      assert r[k] == rest[k - 1];
      if j > 0 {
        assert r[j] == rest[j - 1];
      }
    }
  }

  /** A payment with its most recent events, as the lookups return it. */
  datatype PaymentView = PaymentView(id: nat, payment: Payment, events: seq<WebhookEvent>)

  /** The record at position `i` with its `n` latest events. */
  function ViewOf(s: Store, i: nat, n: nat): (r: PaymentView)
    requires i < |s.payments|
    ensures r.id == i && r.payment == s.payments[i] && |r.events| <= n
    ensures forall j :: 0 <= j < |r.events| ==> r.events[j].paymentId == i
    ensures r.events == Newest(s.events, i, n)
  {
    RecentIsNewest(s.events, i, n);
    PaymentView(i, s.payments[i], Recent(s.events, i, n))
  }

  /** `getPaymentByMercadoPagoId`: the record with that gateway id and its ten latest events. */
  function GetPaymentByMercadoPagoId(s: Store, id: string): (r: Option<PaymentView>)
    ensures r.Some? <==> exists i :: 0 <= i < |s.payments| && s.payments[i].mercadopagoId == id
    ensures r.Some? ==> r.value.payment.mercadopagoId == id && |r.value.events| <= LookupEvents
    ensures r.Some? ==> r.value.id < |s.payments| && s.payments[r.value.id] == r.value.payment
    ensures r.Some? ==> forall j :: 0 <= j < |r.value.events| ==> r.value.events[j].paymentId == r.value.id
    ensures r.Some? ==> r.value.events == Newest(s.events, r.value.id, LookupEvents)
  {
    match FindByGatewayId(s, id)
    case None => None
    case Some(i) => Some(ViewOf(s, i, LookupEvents))
  }

  /** `getPaymentByReference`: the record with that external reference and its ten latest events. */
  function GetPaymentByReference(s: Store, reference: string): (r: Option<PaymentView>)
    ensures r.Some? <==> exists i :: 0 <= i < |s.payments| && s.payments[i].externalReference == reference
    ensures r.Some? ==> r.value.payment.externalReference == reference && |r.value.events| <= LookupEvents
    ensures r.Some? ==> r.value.id < |s.payments| && s.payments[r.value.id] == r.value.payment
    ensures r.Some? ==> forall j :: 0 <= j < |r.value.events| ==> r.value.events[j].paymentId == r.value.id
    ensures r.Some? ==> r.value.events == Newest(s.events, r.value.id, LookupEvents)
  {
    match FindByReference(s, reference)
    case None => None
    case Some(i) => Some(ViewOf(s, i, LookupEvents))
  }

  /** Positions of the records satisfying `keep`, in store order. */
  function Matching(ps: seq<Payment>, keep: Payment -> bool, from: nat): (r: seq<nat>)
    requires from <= |ps|
    ensures forall j :: 0 <= j < |r| ==> from <= r[j] < |ps| && keep(ps[r[j]])
    ensures forall i :: from <= i < |ps| && keep(ps[i]) ==> i in r
    ensures forall j, k :: 0 <= j < k < |r| ==> r[j] < r[k]
    decreases |ps| - from
  {
    if from == |ps| then []
    else (if keep(ps[from]) then [from] else []) + Matching(ps, keep, from + 1)
  }

  /** How many of `total` matches remain after skipping `skip`, capped at `take` when given. */
  function PageSize(total: nat, skip: nat, take: Option<nat>): nat {
    var rest := if skip <= total then total - skip else 0;
    if take.Some? && take.value < rest then take.value else rest
  }

  /** The window of `ids` after skipping `skip` and taking at most `take`. */
  function Page(ids: seq<nat>, skip: nat, take: Option<nat>): (r: seq<nat>)
    ensures |r| == PageSize(|ids|, skip, take)
    ensures forall j :: 0 <= j < |r| ==> skip + j < |ids| && r[j] == ids[skip + j]
  {
    var afterSkip := if skip <= |ids| then ids[skip..] else [];
    if take.Some? && take.value < |afterSkip| then afterSkip[..take.value] else afterSkip
  }

  /** The record positions a listing shows, in order. */
  function Ids(l: seq<PaymentView>): (r: seq<nat>)
    ensures |r| == |l|
    ensures forall j :: 0 <= j < |l| ==> r[j] == l[j].id
  {
    seq(|l|, j requires 0 <= j < |l| => l[j].id)
  }

  /**
   * `listPayments`: the records satisfying `keep`, skipping `skip` and taking
   * `take` (all when absent), each with its five latest events. The `j`-th
   * entry is the `(skip + j)`-th matching record.
   */
  function ListPayments(s: Store, keep: Payment -> bool, skip: nat, take: Option<nat>): (r: seq<PaymentView>)
    ensures Ids(r) == Page(Matching(s.payments, keep, 0), skip, take)
    ensures |r| == PageSize(|Matching(s.payments, keep, 0)|, skip, take)
    ensures take.Some? ==> |r| <= take.value
    ensures forall j :: 0 <= j < |r| ==>
      && r[j].id < |s.payments| && keep(s.payments[r[j].id])
      && r[j] == ViewOf(s, r[j].id, ListEvents)
  {
    var page := Page(Matching(s.payments, keep, 0), skip, take);
    var r := seq(|page|, j requires 0 <= j < |page| => ViewOf(s, page[j], ListEvents));
    assert Ids(r) == page;
    r
  }

  /** The positions of the records satisfying `keep`. */
  function MatchSet(s: Store, keep: Payment -> bool): set<nat> {
    set i: nat | i < |s.payments| && keep(s.payments[i])
  }

  /** `countPayments`: how many records satisfy `keep`. */
  function CountPayments(s: Store, keep: Payment -> bool): (r: nat)
    ensures r <= |s.payments|
    ensures r == |MatchSet(s, keep)|
  {
    var ids := Matching(s.payments, keep, 0);
    DistinctBounded(ids, |s.payments|);
    IncreasingCard(ids);
    assert Elems(ids) == MatchSet(s, keep);
    |ids|
  }

  /** A strictly increasing sequence of positions below `n` has at most `n` entries. */
  lemma {:induction false} DistinctBounded(ids: seq<nat>, n: nat)
    requires forall j :: 0 <= j < |ids| ==> ids[j] < n
    requires forall j, k :: 0 <= j < k < |ids| ==> ids[j] < ids[k]
    ensures |ids| <= n
    decreases n
  {
    if |ids| > 0 {
      var last := ids[|ids| - 1];
      var init := ids[..|ids| - 1];
      DistinctBounded(init, last);
    }
  }

  /** The distinct entries of a list of positions. */
  function Elems(ids: seq<nat>): set<nat> {
    set x | x in ids
  }

  /** A strictly increasing sequence has as many distinct entries as entries. */
  lemma {:induction false} IncreasingCard(ids: seq<nat>)
    requires forall j, k :: 0 <= j < k < |ids| ==> ids[j] < ids[k]
    ensures |Elems(ids)| == |ids|
  {
    if |ids| > 0 {
      var init := ids[..|ids| - 1];
      var last := ids[|ids| - 1];
      IncreasingCard(init);
      assert ids == init + [last];
      var a := Elems(init);
      assert Elems(ids) == a + {last};
      assert last !in a by {
        forall x | x in init
          ensures x < last
        {
          var j :| 0 <= j < |init| && init[j] == x;
        }
      }
    }
  }

  /** The unpaged listing has as many entries as the count. */
  lemma ListCountAgree(s: Store, keep: Payment -> bool)
    ensures |ListPayments(s, keep, 0, None)| == CountPayments(s, keep)
  {
    var ids := Matching(s.payments, keep, 0);
    assert PageSize(|ids|, 0, None) == |ids|;
  }

  /** The unpaged listing holds each matching record, and only those, in store order. */
  lemma ListCoversMatches(s: Store, keep: Payment -> bool)
    ensures var l := ListPayments(s, keep, 0, None);
      && (forall i :: 0 <= i < |s.payments| ==> (keep(s.payments[i]) <==> i in Ids(l)))
      && (forall j, k :: 0 <= j < k < |l| ==> l[j].id < l[k].id)
  {
    var ids := Matching(s.payments, keep, 0);
    var l := ListPayments(s, keep, 0, None);
    assert Ids(l) == ids by {
      var p := Page(ids, 0, None);
      assert |p| == |ids|;
      assert forall j :: 0 <= j < |p| ==> p[j] == ids[j];
    }
  }

  // ---------------------------------------------------------------------------
  // Writes

  /** The fields `createPayment` receives. */
  datatype NewPayment = NewPayment(
    mercadopagoId: string,
    externalReference: string,
    amount: real,
    paymentMethod: string,
    payerName: string,
    payerEmail: string,
    payerCpf: string,
    description: Option<string>,
    items: Option<seq<Item>>,
    initialStatus: Option<string>)

  /** A trimmed text, or the sentinel when it trims to nothing. */
  function TrimmedOr(s: string, sentinel: string): (r: string)
    requires sentinel != ""
    ensures r != ""
    ensures Trim(s) != "" ==> r == Trim(s)
    ensures Trim(s) == "" ==> r == sentinel
  {
    var t := Trim(s);
    if t != "" then t else sentinel
  }

  /** The digits of a document, or the sentinel when it has none. */
  function DigitsOr(s: string): (r: string)
    ensures r != ""
    ensures r == CpfSentinel || AllDigits(r)
    ensures DigitsOf(s) != "" ==> r == DigitsOf(s)
    ensures DigitsOf(s) == "" ==> r == CpfSentinel
  {
    var d := DigitsOf(s);
    if d != "" then d else CpfSentinel
  }

  /** `(status || 'PENDING').toUpperCase()`. */
  function StatusOf(initial: Option<string>): (r: string)
    ensures Truthy(initial) ==> r == Upper(initial.value)
    ensures !Truthy(initial) ==> r == DefaultStatus
  {
    DefaultStatusIsUpper();
    Upper(OrElse(initial, DefaultStatus))
  }

  /**
   * `cleanData`: payer name and e-mail trimmed, CPF reduced to its digits,
   * each replaced by its sentinel when nothing is left; status upper-cased,
   * PENDING when none was given; description trimmed.
   */
  function CleanData(p: NewPayment, now: int): (r: Payment)
    ensures r.payerName != "" && r.payerEmail != "" && r.payerCpf != ""
    ensures r.payerName == (if Trim(p.payerName) != "" then Trim(p.payerName) else NameSentinel)
    ensures r.payerEmail == (if Trim(p.payerEmail) != "" then Trim(p.payerEmail) else EmailSentinel)
    ensures r.payerCpf == (if DigitsOf(p.payerCpf) != "" then DigitsOf(p.payerCpf) else CpfSentinel)
    ensures r.payerCpf == CpfSentinel || AllDigits(r.payerCpf)
    ensures Truthy(p.initialStatus) ==> r.status == Upper(p.initialStatus.value)
    ensures !Truthy(p.initialStatus) ==> r.status == DefaultStatus
    ensures r.description.Some? <==> p.description.Some?
    ensures r.description.Some? ==> r.description.value == Trim(p.description.value)
    ensures r.mercadopagoId == p.mercadopagoId && r.externalReference == p.externalReference
    ensures r.amount == p.amount && r.items == p.items
  {
    Payment(
      p.mercadopagoId, p.externalReference, p.amount, p.paymentMethod,
      TrimmedOr(p.payerName, NameSentinel),
      TrimmedOr(p.payerEmail, EmailSentinel),
      DigitsOr(p.payerCpf),
      match p.description case None => None case Some(d) => Some(Trim(d)),
      p.items,
      StatusOf(p.initialStatus),
      None, None, None, now, now)
  }

  lemma DefaultStatusIsUpper()
    ensures Upper(DefaultStatus) == DefaultStatus
  {
    assert Upper("PENDING") == "PENDING";
  }

  /** `createPayment`: appends the cleaned record, unless its gateway id or reference is taken. */
  function CreatePayment(s: Store, p: NewPayment, now: int): (r: Result<(Store, nat)>)
    ensures r.Err? <==> FindByGatewayId(s, p.mercadopagoId).Some? || FindByReference(s, p.externalReference).Some?
    ensures r.Err? ==> r.error == UniqueViolation
    ensures r.Ok? ==> r.value.0.payments == s.payments + [CleanData(p, now)]
                      && r.value.0.events == s.events && r.value.1 == |s.payments|
  {
    var byId := FindByGatewayId(s, p.mercadopagoId);
    var byRef := FindByReference(s, p.externalReference);
    if byId.Some? || byRef.Some? then Err(UniqueViolation)
    else Ok((s.(payments := s.payments + [CleanData(p, now)]), |s.payments|))
  }

  /** A record whose gateway id and reference are both free is appended at the next index. */
  lemma CreateFresh(s: Store, p: NewPayment, now: int)
    requires FindByGatewayId(s, p.mercadopagoId).None? && FindByReference(s, p.externalReference).None?
    ensures CreatePayment(s, p, now) == Ok((s.(payments := s.payments + [CleanData(p, now)]), |s.payments|))
  {
  }

  /** Gateway fields copied on a status update. */
  datatype MpData = MpData(statusDetail: Option<string>, rejectionReason: Option<string>, dateLastUpdated: Option<string>)

  function WithStatus(p: Payment, status: string, mp: MpData, now: int): Payment {
    p.(status := Upper(status),
       mpStatusDetail := KeepTruthy(mp.statusDetail),
       mpRejectionReason := KeepTruthy(mp.rejectionReason),
       mpUpdatedAt := KeepTruthy(mp.dateLastUpdated),
       updatedAt := now)
  }

  /**
   * `updatePaymentStatus`: the record with gateway id `id` gets the
   * upper-cased status and the gateway fields (or none); nothing else
   * in the store changes. Fails when no record has that id.
   */
  function UpdatePaymentStatus(s: Store, id: string, status: string, mp: MpData, now: int): (r: Result<Store>)
    ensures r.Err? <==> forall j :: 0 <= j < |s.payments| ==> s.payments[j].mercadopagoId != id
    ensures r.Err? ==> r.error == NotFound
    ensures r.Ok? ==> |r.value.payments| == |s.payments| && r.value.events == s.events
    ensures r.Ok? ==>
      exists i :: 0 <= i < |s.payments| && s.payments[i].mercadopagoId == id
        && r.value.payments == s.payments[i := WithStatus(s.payments[i], status, mp, now)]
  {
    match FindByGatewayId(s, id)
    case None => Err(NotFound)
    case Some(i) => Ok(s.(payments := s.payments[i := WithStatus(s.payments[i], status, mp, now)]))
  }

  /** A status update leaves amount, payer fields, identity and reference alone, and sets exactly the status fields. */
  lemma UpdateKeepsIdentity(s: Store, id: string, status: string, mp: MpData, now: int, i: nat)
    requires i < |s.payments| && s.payments[i].mercadopagoId == id
    requires FindByGatewayId(s, id) == Some(i)
    ensures var r := UpdatePaymentStatus(s, id, status, mp, now);
      && r.Ok?
      && var q := r.value.payments[i];
      && var p := s.payments[i];
      && q.mercadopagoId == p.mercadopagoId && q.externalReference == p.externalReference
      && q.amount == p.amount && q.payerName == p.payerName && q.payerEmail == p.payerEmail
      && q.payerCpf == p.payerCpf && q.createdAt == p.createdAt
      && q.status == Upper(status) && q.updatedAt == now
      && (q.mpStatusDetail.Some? <==> Truthy(mp.statusDetail))
      && (forall j :: 0 <= j < |s.payments| && j != i ==> r.value.payments[j] == s.payments[j])
  {
  }

  /** Re-applying an update with the same arguments is the same as applying it once, at the later time. */
  lemma UpdateIdempotent(s: Store, id: string, status: string, mp: MpData, now1: int, now2: int)
    requires UpdatePaymentStatus(s, id, status, mp, now1).Ok?
    ensures var once := UpdatePaymentStatus(s, id, status, mp, now1).value;
      UpdatePaymentStatus(once, id, status, mp, now2) == UpdatePaymentStatus(s, id, status, mp, now2)
  {
    var i := FindByGatewayId(s, id).value;
    var once := UpdatePaymentStatus(s, id, status, mp, now1).value;
    assert once.payments == s.payments[i := WithStatus(s.payments[i], status, mp, now1)];
    assert once.payments[i].mercadopagoId == id;
    assert FindByGatewayId(once, id) == Some(i);
    WithStatusTwice(s.payments[i], status, mp, now1, now2);
    assert once.payments[i := WithStatus(once.payments[i], status, mp, now2)]
        == s.payments[i := WithStatus(s.payments[i], status, mp, now2)];
  }

  /** Applying the same status update twice is applying it once, at the later time. */
  lemma WithStatusTwice(p: Payment, status: string, mp: MpData, now1: int, now2: int)
    ensures WithStatus(WithStatus(p, status, mp, now1), status, mp, now2) == WithStatus(p, status, mp, now2)
  {
    UpperIdempotent(status);
  }

  lemma UpperIdempotent(s: string)
    ensures Upper(Upper(s)) == Upper(s)
  {
  }

  /**
   * `updatePaymentWithMercadoPagoId`: the record at internal id `dbId` gets
   * the gateway id and the upper-cased status; fails when there is no such
   * record or another record already has that gateway id.
   */
  function UpdatePaymentWithMercadoPagoId(s: Store, dbId: nat, id: string, status: string, now: int): (r: Result<Store>)
    ensures dbId >= |s.payments| ==> r == Err(NotFound)
    ensures r.Ok? ==>
      dbId < |s.payments| && r.value.events == s.events
      && r.value.payments == s.payments[dbId := s.payments[dbId].(mercadopagoId := id, status := Upper(status), updatedAt := now)]
    ensures dbId < |s.payments| ==>
      (r.Err? <==> exists j :: 0 <= j < |s.payments| && j != dbId && s.payments[j].mercadopagoId == id)
  {
    if dbId >= |s.payments| then Err(NotFound)
    else if exists j :: 0 <= j < |s.payments| && j != dbId && s.payments[j].mercadopagoId == id then Err(UniqueViolation)
    else Ok(s.(payments := s.payments[dbId := s.payments[dbId].(mercadopagoId := id, status := Upper(status), updatedAt := now)]))
  }

  /** `logWebhookEvent`: appends one unprocessed event holding the serialised body. */
  function LogWebhookEvent(s: Store, pid: nat, eventType: string, serialized: string, now: int): (r: Result<(Store, nat)>)
    ensures r.Err? <==> pid >= |s.payments|
    ensures r.Ok? ==> var (s', e) := r.value;
      && s'.payments == s.payments
      && |s'.events| == |s.events| + 1 && s'.events[..|s.events|] == s.events
      && e == |s.events|
      && s'.events[e] == WebhookEvent(pid, eventType, serialized, false, None, None, now)
  {
    if pid >= |s.payments| then Err(NotFound)
    else Ok((s.(events := s.events + [WebhookEvent(pid, eventType, serialized, false, None, None, now)]), |s.events|))
  }

  /** `markWebhookProcessed`: marks exactly event `eid` processed, with the error (or none). */
  function MarkWebhookProcessed(s: Store, eid: nat, error: Option<string>, now: int): (r: Result<Store>)
    ensures r.Err? <==> eid >= |s.events|
    ensures r.Ok? ==>
      && r.value.payments == s.payments && |r.value.events| == |s.events|
      && r.value.events[eid].processed && r.value.events[eid].processedAt == Some(now)
      && r.value.events[eid].error == KeepTruthy(error)
      && r.value.events[eid].paymentId == s.events[eid].paymentId
      && r.value.events[eid].eventData == s.events[eid].eventData
      && forall j :: 0 <= j < |s.events| && j != eid ==> r.value.events[j] == s.events[j]
  {
    if eid >= |s.events| then Err(NotFound)
    else Ok(s.(events := s.events[eid := s.events[eid].(processed := true, processedAt := Some(now), error := KeepTruthy(error))]))
  }

  // ---------------------------------------------------------------------------
  // The store's invariant is kept by every write

  lemma CreateKeepsValid(s: Store, p: NewPayment, now: int)
    requires Valid(s) && CreatePayment(s, p, now).Ok?
    ensures Valid(CreatePayment(s, p, now).value.0)
  {
    var s' := CreatePayment(s, p, now).value.0;
    var c := CleanData(p, now);
    assert s'.payments == s.payments + [c] && s'.events == s.events;
    assert c.mercadopagoId == p.mercadopagoId && c.externalReference == p.externalReference;
    assert forall j :: 0 <= j < |s.payments| ==> s.payments[j].mercadopagoId != c.mercadopagoId;
    assert forall j :: 0 <= j < |s.payments| ==> s.payments[j].externalReference != c.externalReference;
    forall i, j | 0 <= i < j < |s'.payments|
      ensures s'.payments[i].mercadopagoId != s'.payments[j].mercadopagoId
      ensures s'.payments[i].externalReference != s'.payments[j].externalReference
    {
      assert s'.payments[i] == s.payments[i];
      if j == |s.payments| {
        assert s'.payments[j] == c;
      } else {
        assert s'.payments[j] == s.payments[j];
      }
    }
  }

  lemma UpdateKeepsValid(s: Store, id: string, status: string, mp: MpData, now: int)
    requires Valid(s) && UpdatePaymentStatus(s, id, status, mp, now).Ok?
    ensures Valid(UpdatePaymentStatus(s, id, status, mp, now).value)
  {
  }

  lemma UpdateWithIdKeepsValid(s: Store, dbId: nat, id: string, status: string, now: int)
    requires Valid(s) && UpdatePaymentWithMercadoPagoId(s, dbId, id, status, now).Ok?
    ensures Valid(UpdatePaymentWithMercadoPagoId(s, dbId, id, status, now).value)
  {
  }

  lemma LogKeepsValid(s: Store, pid: nat, eventType: string, serialized: string, now: int)
    requires Valid(s) && LogWebhookEvent(s, pid, eventType, serialized, now).Ok?
    ensures Valid(LogWebhookEvent(s, pid, eventType, serialized, now).value.0)
  {
  }

  lemma MarkKeepsValid(s: Store, eid: nat, error: Option<string>, now: int)
    requires Valid(s) && MarkWebhookProcessed(s, eid, error, now).Ok?
    ensures Valid(MarkWebhookProcessed(s, eid, error, now).value)
  {
  }
}

=== FILE: pix_payment_route.dfy ===
/**
 * `POST /api/pix-payment`: validate the buyer's fields, normalise them and
 * hand them to the gateway's PIX creation.
 */
module PixRoute {
  import opened Wrappers
  import opened Text
  import opened EmailRules
  import opened Gateway

  /**
   * The request body. `amount` is `Number(amount)` already applied, with
   * `None` for a missing or null amount.
   */
  datatype PixRequest = PixRequest(name: Option<string>, email: Option<string>, cpf: Option<string>, amount: Option<JsNumber>)

  datatype PixRejection = MissingFields | BadCpf | BadEmail | BadAmount

  datatype PixReply =
    | Rejected(reason: PixRejection)
    | Created(data: PixResponse)
    | ServerError(error: Error)
  {
    function Status(): int {
      match this
      case Rejected(_) => 400
      case Created(_) => 200
      case ServerError(_) => 500
    }
  }

  /** What the gateway is called with, if it is called, and the reply. */
  datatype PixExchange = PixExchange(sent: Option<PaymentData>, run: Option<PixRun>, reply: PixReply)

  const CpfLength: nat := 11

  /** Every field is present (name, e-mail and CPF non-empty, amount not null). */
  predicate HasFields(req: PixRequest) {
    Truthy(req.name) && Truthy(req.email) && Truthy(req.cpf) && req.amount.Some?
  }

  /** The CPF has exactly eleven digits once every non-digit is dropped. */
  predicate CpfOk(cpf: string) {
    |DigitsOf(cpf)| == CpfLength
  }

  /** A finite, positive amount. */
  predicate AmountOk(n: JsNumber) {
    n.Finite? && n.value > 0.0
  }

  /** The request passes every check of this route. */
  predicate Acceptable(req: PixRequest) {
    HasFields(req) && CpfOk(req.cpf.value) && IsEmailShaped(req.email.value) && AmountOk(req.amount.value)
  }

  /** The data handed to the gateway: trimmed name, trimmed lower-case e-mail, digit-only CPF. */
  function Normalised(req: PixRequest): (d: PaymentData)
    requires HasFields(req)
    ensures d.name == Trim(req.name.value)
    ensures d.email == Lower(Trim(req.email.value))
    ensures AllDigits(d.cpf) && d.cpf == DigitsOf(req.cpf.value)
    ensures d.amount == req.amount.value
  {
    PaymentData(Trim(req.name.value), Lower(Trim(req.email.value)), DigitsOf(req.cpf.value), req.amount.value)
  }

  /**
   * The route. `reference`, `notify`, `preferenceError` and `answer` are
   * passed on to the gateway's PIX creation.
   */
  function Post(req: PixRequest, reference: string, notify: Option<string>,
                preferenceError: Option<Error>, answer: Outcome<PixAnswer>): (r: PixExchange)
    ensures r.sent.Some? <==> Acceptable(req)
    ensures r.run.Some? <==> r.sent.Some?
    ensures r.reply == Rejected(MissingFields) <==> !HasFields(req)
    ensures r.reply == Rejected(BadCpf) <==> HasFields(req) && !CpfOk(req.cpf.value)
    ensures r.reply == Rejected(BadEmail) <==>
      HasFields(req) && CpfOk(req.cpf.value) && !IsEmailShaped(req.email.value)
    ensures r.reply == Rejected(BadAmount) <==>
      HasFields(req) && CpfOk(req.cpf.value) && IsEmailShaped(req.email.value) && !AmountOk(req.amount.value)
    ensures r.sent.Some? ==>
      && r.sent.value == Normalised(req)
      && |r.sent.value.cpf| == CpfLength
    ensures r.reply.Created? <==> Acceptable(req) && preferenceError.None? && answer.Done?
    ensures r.reply.Created? ==> r.reply.data.externalReference == reference
    ensures r.reply.ServerError? <==> Acceptable(req) && (preferenceError.Some? || answer.Failed?)
  {
    if !HasFields(req) then PixExchange(None, None, Rejected(MissingFields))
    else if !CpfOk(req.cpf.value) then PixExchange(None, None, Rejected(BadCpf))
    else if !IsEmailShaped(req.email.value) then PixExchange(None, None, Rejected(BadEmail))
    else if !AmountOk(req.amount.value) then PixExchange(None, None, Rejected(BadAmount))
    else
      var d := Normalised(req);
      var run := CreatePixPayment(d, reference, notify, preferenceError, answer);
      match run.result
      case Done(v) => PixExchange(Some(d), Some(run), Created(v))
      case Failed(e) => PixExchange(Some(d), Some(run), ServerError(e))
  }

  /** Trimming never changes an accepted e-mail: the gateway receives it lower-cased and otherwise as given. */
  lemma SentEmailIsLowered(req: PixRequest, reference: string, notify: Option<string>,
                           preferenceError: Option<Error>, answer: Outcome<PixAnswer>)
    requires Acceptable(req)
    ensures var r := Post(req, reference, notify, preferenceError, answer);
      r.sent.Some? && r.sent.value.email == Lower(req.email.value)
  {
    EmailShapedIsTrimmed(req.email.value);
  }
}

=== FILE: pixpayment_route.dfy ===
/**
 * `POST /api/pixpayment`, the older PIX route: the same field, CPF and
 * e-mail checks as `/api/pix-payment`, but no amount check and no
 * trimming or lower-casing of what it passes on.
 */
module PixLegacyRoute {
  import opened Wrappers
  import opened Text
  import opened EmailRules
  import opened Gateway
  import PixRoute

  datatype LegacyRejection = MissingFields | BadCpf | BadEmail

  /** Every reply carries `success`: true only for the 200 answer. */
  datatype LegacyReply =
    | Rejected(reason: LegacyRejection)
    | Created(data: PixResponse)
    | ServerError(error: Error)
  {
    function Status(): int {
      match this
      case Rejected(_) => 400
      case Created(_) => 200
      case ServerError(_) => 500
    }

    predicate Success() {
      Created?
    }
  }

  datatype LegacyExchange = LegacyExchange(sent: Option<PaymentData>, reply: LegacyReply)

  /** The checks of this route: fields present, an eleven-digit CPF, an e-mail shaped address. */
  predicate Acceptable(req: PixRoute.PixRequest) {
    PixRoute.HasFields(req) && PixRoute.CpfOk(req.cpf.value) && IsEmailShaped(req.email.value)
  }

  function Post(req: PixRoute.PixRequest, reference: string, notify: Option<string>,
                preferenceError: Option<Error>, answer: Outcome<PixAnswer>): (r: LegacyExchange)
    ensures r.sent.Some? <==> Acceptable(req)
    ensures r.reply == Rejected(MissingFields) <==> !PixRoute.HasFields(req)
    ensures r.reply == Rejected(BadCpf) <==> PixRoute.HasFields(req) && !PixRoute.CpfOk(req.cpf.value)
    ensures r.reply == Rejected(BadEmail) <==>
      PixRoute.HasFields(req) && PixRoute.CpfOk(req.cpf.value) && !IsEmailShaped(req.email.value)
    ensures r.sent.Some? ==>
      r.sent.value == PaymentData(req.name.value, req.email.value, DigitsOf(req.cpf.value), req.amount.value)
    ensures r.reply.Success() <==> Acceptable(req) && preferenceError.None? && answer.Done?
    ensures r.reply.ServerError? <==> Acceptable(req) && (preferenceError.Some? || answer.Failed?)
  {
    if !PixRoute.HasFields(req) then LegacyExchange(None, Rejected(MissingFields))
    else if !PixRoute.CpfOk(req.cpf.value) then LegacyExchange(None, Rejected(BadCpf))
    else if !IsEmailShaped(req.email.value) then LegacyExchange(None, Rejected(BadEmail))
    else
      var d := PaymentData(req.name.value, req.email.value, DigitsOf(req.cpf.value), req.amount.value);
      match CreatePixPayment(d, reference, notify, preferenceError, answer).result
      case Done(v) => LegacyExchange(Some(d), Created(v))
      case Failed(e) => LegacyExchange(Some(d), ServerError(e))
  }

  /**
   * The two routes agree on what they reject for missing fields, CPF and
   * e-mail; the older one forwards every request the newer one forwards,
   * and also the ones whose amount is not a positive finite number. The
   * older one passes the name and e-mail on as given, where the newer one
   * trims the name and lower-cases the e-mail.
   */
  lemma RoutesCompared(req: PixRoute.PixRequest, reference: string, notify: Option<string>,
                       preferenceError: Option<Error>, answer: Outcome<PixAnswer>)
    ensures var older := Post(req, reference, notify, preferenceError, answer);
            var newer := PixRoute.Post(req, reference, notify, preferenceError, answer);
      && (newer.sent.Some? ==> older.sent.Some?)
      && (older.sent.Some? && newer.sent.None? <==> Acceptable(req) && !PixRoute.AmountOk(req.amount.value))
      && (older.reply.Rejected? <==> newer.reply.Rejected? && newer.reply.reason != PixRoute.BadAmount)
      && (newer.sent.Some? ==> newer.sent.value.cpf == older.sent.value.cpf
                               && newer.sent.value.amount == older.sent.value.amount
                               && newer.sent.value.email == Lower(older.sent.value.email)
                               && newer.sent.value.name == Trim(older.sent.value.name))
      && (older.sent.Some? ==> older.sent.value.name == req.name.value && older.sent.value.email == req.email.value)
  {
    if PixRoute.Acceptable(req) {
      EmailShapedIsTrimmed(req.email.value);
    }
  }
}

=== FILE: register.dfy ===
/**
 * `POST /api/auth/register`: create a customer account when every field is
 * given and neither the e-mail nor the CPF is already registered.
 */
module Register {
  import opened Wrappers
  import opened Text

  datatype User = User(
    id: nat,
    email: string,
    password: string,
    firstName: string,
    lastName: string,
    cpf: string,
    phone: string,
    role: string)

  /** The account as the reply shows it: every field except the password. */
  datatype UserView = UserView(id: nat, email: string, firstName: string, lastName: string, cpf: string,
                               phone: string, role: string)

  datatype RegisterRequest = RegisterRequest(
    email: Option<string>,
    password: Option<string>,
    firstName: Option<string>,
    lastName: Option<string>,
    cpf: Option<string>,
    phone: Option<string>)

  /** The three store calls the route makes; a fault in any of them ends the request with 500. */
  datatype UserOp = FindByEmail | FindByCpf | CreateUser

  datatype RegisterReply =
    | MissingFields
    | EmailTaken
    | CpfTaken
    | Registered(user: UserView)
    | ServerError
  {
    function Status(): int {
      match this
      case Registered(_) => 201
      case ServerError => 500
      case _ => 400
    }
  }

  const CustomerRole: string := "CUSTOMER"

  /** Users are stored by position, and no two share an e-mail or a CPF. */
  predicate Valid(users: seq<User>) {
    && (forall i :: 0 <= i < |users| ==> users[i].id == i)
    && (forall i, j :: 0 <= i < j < |users| ==> users[i].email != users[j].email && users[i].cpf != users[j].cpf)
  }

  predicate EmailInUse(users: seq<User>, email: string) {
    exists i :: 0 <= i < |users| && users[i].email == email
  }

  predicate CpfInUse(users: seq<User>, cpf: string) {
    exists i :: 0 <= i < |users| && users[i].cpf == cpf
  }

  predicate HasFields(req: RegisterRequest) {
    Truthy(req.email) && Truthy(req.password) && Truthy(req.firstName) && Truthy(req.lastName)
    && Truthy(req.cpf) && Truthy(req.phone)
  }

  function ViewOf(u: User): (v: UserView)
    ensures v.id == u.id && v.email == u.email && v.cpf == u.cpf && v.role == u.role
    ensures v.firstName == u.firstName && v.lastName == u.lastName && v.phone == u.phone
  {
    UserView(u.id, u.email, u.firstName, u.lastName, u.cpf, u.phone, u.role)
  }

  /**
   * The route. `hash` is bcrypt with cost 10, `faults` the store calls that
   * fail. The e-mail is checked before the CPF.
   */
  function Post(users: seq<User>, req: RegisterRequest, hash: string -> string, faults: set<UserOp>)
    : (r: (seq<User>, RegisterReply))
    ensures r.1 == MissingFields <==> !HasFields(req)
    ensures r.1 == EmailTaken <==>
      HasFields(req) && FindByEmail !in faults && EmailInUse(users, req.email.value)
    ensures r.1 == CpfTaken <==>
      && HasFields(req) && FindByEmail !in faults && !EmailInUse(users, req.email.value)
      && FindByCpf !in faults && CpfInUse(users, req.cpf.value)
    ensures r.1.Registered? <==>
      && HasFields(req) && FindByEmail !in faults && FindByCpf !in faults && CreateUser !in faults
      && !EmailInUse(users, req.email.value) && !CpfInUse(users, req.cpf.value)
    ensures !r.1.Registered? ==> r.0 == users
    ensures r.1.Registered? ==>
      && |r.0| == |users| + 1 && r.0[..|users|] == users
      && var u := r.0[|users|];
      && u.id == |users|
      && u.email == req.email.value && u.cpf == req.cpf.value
      && u.firstName == req.firstName.value && u.lastName == req.lastName.value && u.phone == req.phone.value
      && u.password == hash(req.password.value)
      && u.role == CustomerRole
      && r.1.user == ViewOf(u)
  {
    if !HasFields(req) then (users, MissingFields)
    else if FindByEmail in faults then (users, ServerError)
    else if EmailInUse(users, req.email.value) then (users, EmailTaken)
    else if FindByCpf in faults then (users, ServerError)
    else if CpfInUse(users, req.cpf.value) then (users, CpfTaken)
    else if CreateUser in faults then (users, ServerError)
    else
      var u := User(|users|, req.email.value, hash(req.password.value), req.firstName.value,
                    req.lastName.value, req.cpf.value, req.phone.value, CustomerRole);
      (users + [u], Registered(ViewOf(u)))
  }

  /** Registration keeps e-mails and CPFs unique. */
  lemma PostKeepsValid(users: seq<User>, req: RegisterRequest, hash: string -> string, faults: set<UserOp>)
    requires Valid(users)
    ensures Valid(Post(users, req, hash, faults).0)
  {
    var r := Post(users, req, hash, faults);
    if r.1.Registered? {
      var s := r.0;
      forall i, j | 0 <= i < j < |s|
        ensures s[i].email != s[j].email && s[i].cpf != s[j].cpf
      {
        if j == |users| {
          assert s[i] == users[i];
        }
      }
    }
  }

  /** Once an account is created, the same e-mail cannot register again. */
  lemma SecondRegistrationRefused(users: seq<User>, req: RegisterRequest, again: RegisterRequest,
                                  hash: string -> string)
    requires Post(users, req, hash, {}).1.Registered?
    requires HasFields(again) && again.email == req.email
    ensures Post(Post(users, req, hash, {}).0, again, hash, {}).1 == EmailTaken
  {
    var s := Post(users, req, hash, {}).0;
    assert s[|users|].email == again.email.value;
  }
}

=== FILE: search.dfy ===
/**
 * The search page: the query filter over the fetched products and the
 * price range shown on each result card.
 */
module Search {
  import opened Wrappers
  import opened Text

  datatype SearchProduct = SearchProduct(
    name: Option<string>,
    description: Option<string>,
    brand: Option<string>,
    category: Option<string>,
    prices: seq<JsNumber>)

  /** The lower-cased field, or the empty string when it is missing. */
  function Field(o: Option<string>): string {
    Lower(o.GetOr(""))
  }

  /** A product matches when the lower-cased query occurs in one of its four text fields. */
  predicate Matches(p: SearchProduct, query: string) {
    var q := Lower(query);
    Contains(Field(p.name), q) || Contains(Field(p.description), q)
    || Contains(Field(p.brand), q) || Contains(Field(p.category), q)
  }

  /** `a` is `b` with some elements removed, order kept. */
  predicate Sublist<T(==)>(a: seq<T>, b: seq<T>)
    decreases |b|
  {
    if a == [] then true
    else if b == [] then false
    else if a[0] == b[0] then Sublist(a[1..], b[1..])
    else Sublist(a, b[1..])
  }

  /** `products.filter(...)`. */
  function Filter(ps: seq<SearchProduct>, query: string): (r: seq<SearchProduct>)
    ensures |r| <= |ps|
    ensures forall i :: 0 <= i < |r| ==> Matches(r[i], query)
  {
    if ps == [] then []
    else if Matches(ps[0], query) then [ps[0]] + Filter(ps[1..], query)
    else Filter(ps[1..], query)
  }

  /** A product occurs in the filtered list as often as in the input when it matches, and never otherwise. */
  lemma {:induction false} FilterMultiplicity(ps: seq<SearchProduct>, query: string, p: SearchProduct)
    ensures multiset(Filter(ps, query))[p] == if Matches(p, query) then multiset(ps)[p] else 0
  {
    if ps != [] {
      FilterMultiplicity(ps[1..], query, p);
      assert ps == [ps[0]] + ps[1..];
      assert multiset(ps) == multiset{ps[0]} + multiset(ps[1..]);
      if Matches(ps[0], query) {
        assert multiset(Filter(ps, query)) == multiset{ps[0]} + multiset(Filter(ps[1..], query));
      }
    }
  }

  /** The filter keeps exactly the matching products, in their original order. */
  lemma {:induction false} FilterExact(ps: seq<SearchProduct>, query: string)
    ensures Sublist(Filter(ps, query), ps)
    ensures forall p :: p in Filter(ps, query) <==> p in ps && Matches(p, query)
  {
    if ps != [] {
      FilterExact(ps[1..], query);
      var rest := Filter(ps[1..], query);
      if Matches(ps[0], query) {
        assert ([ps[0]] + rest)[1..] == rest;
      } else {
        SublistDropHead(rest, ps);
      }
      assert ps == [ps[0]] + ps[1..];
    }
  }

  /** A sublist of `b[1..]` is a sublist of `b`. */
  lemma {:induction false} SublistDropHead<T>(a: seq<T>, b: seq<T>)
    requires b != [] && Sublist(a, b[1..])
    ensures Sublist(a, b)
    decreases |b|, 0
  {
    if a != [] && a[0] == b[0] {
      // Matching a[0] against b[0] needs the rest of a inside b[1..], which the tail lemma gives.
      SublistTail(a, b[1..]);
    }
  }

  /** Dropping the head of a non-empty sublist keeps it a sublist. */
  lemma {:induction false} SublistTail<T>(a: seq<T>, b: seq<T>)
    requires a != [] && Sublist(a, b)
    ensures Sublist(a[1..], b)
    decreases |b|, 1
  {
    if a[1..] != [] {
      if a[0] == b[0] {
        SublistDropHead(a[1..], b);
      } else {
        SublistTail(a, b[1..]);
        SublistDropHead(a[1..], b);
      }
    }
  }

  /** The filter, as the page runs it: one pass over the fetched products. */
  method FilterProducts(ps: seq<SearchProduct>, query: string) returns (r: seq<SearchProduct>)
    ensures r == Filter(ps, query)
  {
    r := [];
    var i := |ps|;
    while i > 0
      invariant 0 <= i <= |ps|
      invariant r == Filter(ps[i..], query)
    {
      i := i - 1;
      assert ps[i..][1..] == ps[i + 1..];
      if Matches(ps[i], query) {
        r := [ps[i]] + r;
      }
    }
    assert ps[0..] == ps;
  }

  /** What the server answered: the product list, or nothing usable. */
  datatype Fetch = Fetched(products: seq<SearchProduct>) | NotOk | Threw

  datatype SearchView = InvalidSearch | Results(products: seq<SearchProduct>)

  /**
   * The page for the query `q` (the `q` parameter, or the empty string).
   * With an empty query nothing is fetched; when the fetch fails the list
   * stays at its empty initial value.
   */
  function Page(q: string, fetch: Fetch): (r: (bool, SearchView))
    ensures r.0 <==> q != ""
    ensures r.1 == InvalidSearch <==> q == ""
    ensures q != "" && fetch.Fetched? ==> r.1 == Results(Filter(fetch.products, q))
    ensures q != "" && !fetch.Fetched? ==> r.1 == Results([])
  {
    if q == "" then (false, InvalidSearch)
    else match fetch
      case Fetched(ps) => (true, Results(Filter(ps, q)))
      case _ => (true, Results([]))
  }

  // ---------------------------------------------------------------------------
  // Price range

  /** The finite prices, in order. */
  function FinitePrices(ns: seq<JsNumber>): (r: seq<real>)
    ensures forall x :: x in r <==> Finite(x) in ns
  {
    if ns == [] then []
    else if ns[0].Finite? then [ns[0].value] + FinitePrices(ns[1..])
    else FinitePrices(ns[1..])
  }

  function MinOf(xs: seq<real>): (m: real)
    requires xs != []
    ensures m in xs && forall x :: x in xs ==> m <= x
  {
    if |xs| == 1 then xs[0]
    else
      assert xs == [xs[0]] + xs[1..];
      var m := MinOf(xs[1..]); if xs[0] <= m then xs[0] else m
  }

  function MaxOf(xs: seq<real>): (m: real)
    requires xs != []
    ensures m in xs && forall x :: x in xs ==> x <= m
  {
    if |xs| == 1 then xs[0]
    else
      assert xs == [xs[0]] + xs[1..];
      var m := MaxOf(xs[1..]); if xs[0] >= m then xs[0] else m
  }

  datatype PriceRange = PriceRange(min: real, max: real) {
    /** One price is shown when both ends agree, a range otherwise. */
    predicate Single() {
      min == max
    }
  }

  /** The range over the finite prices, or 0 to 0 when there is none. */
  function RangeOf(ns: seq<JsNumber>): (r: PriceRange)
    ensures r.min <= r.max
    ensures FinitePrices(ns) == [] ==> r == PriceRange(0.0, 0.0)
    ensures FinitePrices(ns) != [] ==>
      && Finite(r.min) in ns && Finite(r.max) in ns
      && forall i :: 0 <= i < |ns| && ns[i].Finite? ==> r.min <= ns[i].value <= r.max
  {
    var xs := FinitePrices(ns);
    if xs == [] then PriceRange(0.0, 0.0)
    else
      assert forall i :: 0 <= i < |ns| && ns[i].Finite? ==> ns[i].value in xs by {
        forall i | 0 <= i < |ns| && ns[i].Finite?
          ensures ns[i].value in xs
        {
          assert Finite(ns[i].value) == ns[i];
        }
      }
      PriceRange(MinOf(xs), MaxOf(xs))
  }

  /** A single price is shown exactly when all finite prices are equal. */
  lemma SingleIffAllEqual(ns: seq<JsNumber>)
    ensures RangeOf(ns).Single() <==>
      forall i, j :: 0 <= i < |ns| && 0 <= j < |ns| && ns[i].Finite? && ns[j].Finite? ==> ns[i].value == ns[j].value
  {
    var r := RangeOf(ns);
    var xs := FinitePrices(ns);
    if xs != [] && !r.Single() {
      var i :| 0 <= i < |ns| && ns[i] == Finite(r.min);
      var j :| 0 <= j < |ns| && ns[j] == Finite(r.max);
      assert ns[i].value != ns[j].value;
    }
  }
}

=== FILE: text.dfy ===
/**
 * String helpers with the JavaScript meaning the application relies on:
 * `trim`, ASCII `toLowerCase`/`toUpperCase`, `includes`, `startsWith`,
 * `endsWith`, `replace(/\D/g, '')`, `indexOf`, and `||` over strings.
 */
module Text {
  import opened Wrappers

  /** The characters JavaScript's `trim` removes and its regex class `\s` matches. */
  predicate IsSpace(c: char) {
    var n := c as int;
    n == 0x09 || n == 0x0A || n == 0x0B || n == 0x0C || n == 0x0D || n == 0x20
    || n == 0xA0 || n == 0x1680 || (0x2000 <= n <= 0x200A) || n == 0x2028
    || n == 0x2029 || n == 0x202F || n == 0x205F || n == 0x3000 || n == 0xFEFF
  }

  /** The regex class `\d`: ASCII digits only. */
  predicate IsDigit(c: char) {
    '0' <= c <= '9'
  }

  predicate AllDigits(s: string) {
    forall i :: 0 <= i < |s| ==> IsDigit(s[i])
  }

  predicate NoSpace(s: string) {
    forall i :: 0 <= i < |s| ==> !IsSpace(s[i])
  }

  // ---------------------------------------------------------------------------
  // Truthiness of optional strings

  /** A string value JavaScript treats as true: present and non-empty. */
  predicate Truthy(o: Option<string>) {
    o.Some? && o.value != ""
  }

  /** `o || fallback` for an optional string. */
  function OrElse(o: Option<string>, fallback: string): (r: string)
    ensures Truthy(o) ==> r == o.value
    ensures !Truthy(o) ==> r == fallback
  {
    if Truthy(o) then o.value else fallback
  }

  /**
   * `x || null`, or `if (x) data.k = x`: the value when it is a non-empty
   * string, otherwise nothing.
   */
  function KeepTruthy(o: Option<string>): (r: Option<string>)
    ensures r.Some? <==> Truthy(o)
    ensures r.Some? ==> r == o
  {
    if Truthy(o) then o else None
  }

  /** `a || b || ...` over optional strings: the first non-empty candidate, if any. */
  function FirstTruthy(cands: seq<Option<string>>): (r: Option<string>)
    ensures r.Some? ==> r.value != ""
    ensures r.Some? <==> exists i :: 0 <= i < |cands| && Truthy(cands[i])
    ensures r.Some? ==> r in cands
    ensures r.Some? ==>
      exists k :: 0 <= k < |cands| && cands[k] == r && forall j :: 0 <= j < k ==> !Truthy(cands[j])
    ensures forall k :: 0 <= k < |cands| && Truthy(cands[k]) && (forall j :: 0 <= j < k ==> !Truthy(cands[j])) ==>
      r == cands[k]
  {
    if |cands| == 0 then None
    else if Truthy(cands[0]) then cands[0]
    else
      var r := FirstTruthy(cands[1..]);
      assert r.Some? ==>
        exists k :: 0 <= k < |cands[1..]| && cands[1..][k] == r && forall j :: 0 <= j < k ==> !Truthy(cands[1..][j]);
      assert forall k :: 1 <= k < |cands| ==> cands[k] == cands[1..][k - 1];
      r
  }

  /** The non-empty candidates, in order: the values `a || b || ...` chooses among. */
  function PresentValues(cands: seq<Option<string>>): (r: seq<string>)
    ensures |r| <= |cands|
    ensures forall i :: 0 <= i < |r| ==> r[i] != ""
  {
    if |cands| == 0 then []
    else (if Truthy(cands[0]) then [cands[0].value] else []) + PresentValues(cands[1..])
  }

  /** `a || b || ...` takes the head of the non-empty candidates, and nothing when there are none. */
  lemma {:induction false} FirstTruthyIsFirstPresent(cands: seq<Option<string>>)
    ensures FirstTruthy(cands) == if PresentValues(cands) == [] then None else Some(PresentValues(cands)[0])
  {
    if |cands| > 0 && !Truthy(cands[0]) {
      FirstTruthyIsFirstPresent(cands[1..]);
    }
  }

  /** `a || rest` unfolded one step. */
  lemma FirstTruthyCons(a: Option<string>, rest: seq<Option<string>>)
    ensures FirstTruthy([a] + rest) == if Truthy(a) then a else FirstTruthy(rest)
  {
    assert ([a] + rest)[1..] == rest;
  }

  /** `(a || rest) || fallback` is `a || (rest || fallback)`. */
  lemma FirstTruthyConsOr(a: Option<string>, rest: seq<Option<string>>, fallback: string)
    ensures FirstTruthy([a] + rest).GetOr(fallback) == OrElse(a, FirstTruthy(rest).GetOr(fallback))
  {
    FirstTruthyCons(a, rest);
  }

  /** `a || b` unfolded. */
  lemma FirstOfTwo(a: Option<string>, b: Option<string>)
    ensures FirstTruthy([a, b]) == if Truthy(a) then a else if Truthy(b) then b else None
  {
    assert [a, b][1..] == [b];
    assert [b][1..] == [];
  }

  /** `a || b || c` unfolded. */
  lemma FirstOfThree(a: Option<string>, b: Option<string>, c: Option<string>)
    ensures FirstTruthy([a, b, c]) ==
      if Truthy(a) then a else if Truthy(b) then b else if Truthy(c) then c else None
  {
    assert [a, b, c][1..] == [b, c];
    assert [b, c][1..] == [c];
    assert [c][1..] == [];
    assert FirstTruthy([c]) == if Truthy(c) then c else None;
    assert FirstTruthy([b, c]) == if Truthy(b) then b else FirstTruthy([c]);
  }

  // ---------------------------------------------------------------------------
  // trim

  function TrimStart(s: string): (r: string)
    ensures |r| <= |s| && r == s[|s| - |r|..]
    ensures r == [] || !IsSpace(r[0])
    ensures forall i :: 0 <= i < |s| - |r| ==> IsSpace(s[i])
  {
    if |s| > 0 && IsSpace(s[0]) then TrimStart(s[1..]) else s
  }

  function TrimEnd(s: string): (r: string)
    ensures |r| <= |s| && r == s[..|r|]
    ensures r == [] || !IsSpace(r[|r| - 1])
    ensures forall i :: |r| <= i < |s| ==> IsSpace(s[i])
  {
    if |s| > 0 && IsSpace(s[|s| - 1]) then TrimEnd(s[..|s| - 1]) else s
  }

  /** `s.trim()`: the slice of `s` left after removing surrounding whitespace. */
  function Trim(s: string): (r: string)
    ensures |r| <= |s|
    ensures r == [] || (!IsSpace(r[0]) && !IsSpace(r[|r| - 1]))
  {
    TrimEnd(TrimStart(s))
  }

  lemma TrimEndKeepsStart(s: string)
    requires s == [] || !IsSpace(s[0])
    ensures TrimEnd(s) == [] || !IsSpace(TrimEnd(s)[0])
  {
  }

  /** A string with no surrounding whitespace is its own trim. */
  lemma {:induction false} TrimOfTrimmed(s: string)
    requires s == [] || (!IsSpace(s[0]) && !IsSpace(s[|s| - 1]))
    ensures Trim(s) == s
  {
  }

  lemma TrimIdempotent(s: string)
    ensures Trim(Trim(s)) == Trim(s)
  {
    TrimOfTrimmed(Trim(s));
  }

  /** Trimming keeps a slice of the string, so every character it keeps is one of the string's. */
  lemma TrimChars(s: string)
    ensures forall i :: 0 <= i < |Trim(s)| ==> Trim(s)[i] in s
  {
    var a := TrimStart(s);
    var r := TrimEnd(a);
    var k := |s| - |a|;
    assert r == s[k..k + |r|] by {
      assert a == s[k..];
      assert r == a[..|r|];
    }
    forall i | 0 <= i < |r|
      ensures r[i] in s
    {
      assert r[i] == s[k + i];
    }
  }

  /** Trimming only removes whitespace: a string that is empty after trimming was all whitespace. */
  lemma {:induction false} TrimEmptyIffAllSpace(s: string)
    ensures Trim(s) == [] <==> forall i :: 0 <= i < |s| ==> IsSpace(s[i])
  {
    var t := TrimStart(s);
    if t == [] {
    } else {
      assert !IsSpace(t[0]);
      assert s[|s| - |t|] == t[0];
    }
  }

  // ---------------------------------------------------------------------------
  // Case mapping (ASCII letters only)

  function LowerChar(c: char): char {
    if 'A' <= c <= 'Z' then (c as int + 32) as char else c
  }

  function UpperChar(c: char): char {
    if 'a' <= c <= 'z' then (c as int - 32) as char else c
  }

  function Lower(s: string): (r: string)
    ensures |r| == |s|
    ensures forall i :: 0 <= i < |s| ==> r[i] == LowerChar(s[i])
  {
    seq(|s|, i requires 0 <= i < |s| => LowerChar(s[i]))
  }

  function Upper(s: string): (r: string)
    ensures |r| == |s|
    ensures forall i :: 0 <= i < |s| ==> r[i] == UpperChar(s[i])
  {
    seq(|s|, i requires 0 <= i < |s| => UpperChar(s[i]))
  }

  /** Lower-casing gives `n` when it does so character by character. */
  lemma LowerEach(s: string, n: string)
    requires |s| == |n|
    requires forall i :: 0 <= i < |s| ==> LowerChar(s[i]) == n[i]
    ensures Lower(s) == n
  {
  }

  lemma LowerIdempotent(s: string)
    ensures Lower(Lower(s)) == Lower(s)
  {
  }

  // ---------------------------------------------------------------------------
  // Searching

  predicate StartsWith(s: string, p: string) {
    |p| <= |s| && s[..|p|] == p
  }

  predicate EndsWith(s: string, p: string) {
    |p| <= |s| && s[|s| - |p|..] == p
  }

  /** `s.includes(t)`. */
  predicate Contains(s: string, t: string)
    decreases |s|
  {
    StartsWith(s, t) || (|s| > 0 && Contains(s[1..], t))
  }

  /** `t` occurs in `s` starting at position `i`. */
  predicate OccursAt(s: string, t: string, i: int) {
    0 <= i <= |s| - |t| && s[i..i + |t|] == t
  }

  /** `Contains` holds exactly when `t` occurs at some position of `s`. */
  lemma {:induction false} ContainsIff(s: string, t: string)
    ensures Contains(s, t) <==> exists i :: OccursAt(s, t, i)
    decreases |s|
  {
    if StartsWith(s, t) {
      assert OccursAt(s, t, 0);
    } else if |s| > 0 {
      ContainsIff(s[1..], t);
      if Contains(s[1..], t) {
        var i :| OccursAt(s[1..], t, i);
        assert s[i + 1..i + 1 + |t|] == s[1..][i..i + |t|];
        assert OccursAt(s, t, i + 1);
      }
      if exists i :: OccursAt(s, t, i) {
        var i :| OccursAt(s, t, i);
        assert i != 0;
        assert s[1..][i - 1..i - 1 + |t|] == s[i..i + |t|];
        assert OccursAt(s[1..], t, i - 1);
      }
    }
  }

  /** An occurrence at a known position shows `includes`. */
  lemma ContainsAt(s: string, t: string, i: int)
    requires OccursAt(s, t, i)
    ensures Contains(s, t)
  {
    ContainsIff(s, t);
  }

  /** `t` cannot occur in `s` when one of its characters never appears in `s`. */
  lemma MissingCharNotContained(s: string, t: string, c: char)
    requires c in t && c !in s
    ensures !Contains(s, t)
  {
    ContainsIff(s, t);
    var k :| 0 <= k < |t| && t[k] == c;
    forall i
      ensures !OccursAt(s, t, i)
    {
      if 0 <= i <= |s| - |t| {
        assert s[i..i + |t|][k] == s[i + k];
      }
    }
  }

  /** `s.indexOf(c)`, as an optional position. */
  function IndexOf(s: string, c: char): (r: Option<nat>)
    ensures r.None? ==> forall i :: 0 <= i < |s| ==> s[i] != c
    ensures r.Some? ==> r.value < |s| && s[r.value] == c
    ensures r.Some? ==> forall i :: 0 <= i < r.value ==> s[i] != c
  {
    if |s| == 0 then None
    else if s[0] == c then Some(0)
    else match IndexOf(s[1..], c)
      case None => None
      case Some(i) => Some(i + 1)
  }

  /** `s.split(c)[0]`: the part of `s` before the first `c`. */
  function BeforeFirst(s: string, c: char): (r: string)
    ensures StartsWith(s, r)
    ensures forall i :: 0 <= i < |r| ==> r[i] != c
    ensures |r| < |s| ==> s[|r|] == c
  {
    match IndexOf(s, c)
    case None => s
    case Some(i) => s[..i]
  }

  // ---------------------------------------------------------------------------
  // replace(/\D/g, '')

  /** `s.replace(/\D/g, '')`: the digits of `s`, in order. */
  function DigitsOf(s: string): (r: string)
    ensures AllDigits(r)
    ensures |r| <= |s|
    ensures AllDigits(s) ==> r == s
    decreases |s|
  {
    if s == [] then []
    else (if IsDigit(s[0]) then [s[0]] else []) + DigitsOf(s[1..])
  }

  /** Digit extraction works piecewise: the digits of `a + b` are those of `a`, then those of `b`. */
  lemma {:induction false} DigitsOfAppend(a: string, b: string)
    ensures DigitsOf(a + b) == DigitsOf(a) + DigitsOf(b)
    decreases |a|
  {
    if a != [] {
      assert (a + b)[1..] == a[1..] + b;
      DigitsOfAppend(a[1..], b);
    } else {
      assert a + b == b;
    }
  }

  /** One character gives itself when it is a digit and nothing otherwise. */
  lemma DigitsOfChar(c: char)
    ensures DigitsOf([c]) == if IsDigit(c) then [c] else []
  {
    assert [c][1..] == [];
  }

  /** Every digit of `s` survives, at its rank among the digits before it. */
  lemma {:induction false} DigitsOfKeepsDigits(s: string, i: nat)
    requires i < |s| && IsDigit(s[i])
    ensures |DigitsOf(s[..i])| < |DigitsOf(s)| && DigitsOf(s)[|DigitsOf(s[..i])|] == s[i]
  {
    assert s == s[..i] + ([s[i]] + s[i + 1..]);
    DigitsOfAppend(s[..i], [s[i]] + s[i + 1..]);
    DigitsOfAppend([s[i]], s[i + 1..]);
    DigitsOfChar(s[i]);
  }

  lemma DigitsOfIdempotent(s: string)
    ensures DigitsOf(DigitsOf(s)) == DigitsOf(s)
  {
  }

  /** The digits of `s` are empty exactly when `s` has no digit. */
  lemma {:induction false} DigitsOfCount(s: string)
    ensures DigitsOf(s) == [] <==> forall i :: 0 <= i < |s| ==> !IsDigit(s[i])
    decreases |s|
  {
    if s != [] {
      DigitsOfCount(s[1..]);
      if forall i :: 0 <= i < |s[1..]| ==> !IsDigit(s[1..][i]) {
        if !IsDigit(s[0]) {
          forall i | 0 <= i < |s|
            ensures !IsDigit(s[i])
          {
            if i > 0 { assert s[i] == s[1..][i - 1]; }
          }
        }
      } else {
        var j :| 0 <= j < |s[1..]| && IsDigit(s[1..][j]);
        assert IsDigit(s[j + 1]);
      }
    }
  }
}

=== FILE: variation.dfy ===
/**
 * `POST /api/create-variation`: make sure a product has a variation,
 * returning its default variation if it already has one and creating one
 * otherwise.
 */
module Variation {
  import opened Wrappers
  import opened Text

  datatype Product = Product(basePrice: real)

  datatype ProductVariation = ProductVariation(
    id: nat,
    productId: int,
    size: string,
    color: string,
    material: string,
    price: real,
    stock: int,
    sku: string,
    isActive: bool)

  datatype Catalog = Catalog(products: map<int, Product>, variations: seq<ProductVariation>)

  /**
   * The request. `productId`, `price` and `stock` are `parseInt`/`parseFloat`
   * already applied (`None` standing for NaN); `generatedSku` is the
   * `<productId>-default-<time>` fallback.
   */
  datatype VariationRequest = VariationRequest(
    productId: Option<int>,
    size: Option<string>,
    color: Option<string>,
    material: Option<string>,
    price: Option<real>,
    stock: Option<int>,
    sku: Option<string>,
    generatedSku: string)

  /** The store calls; a fault in any of them ends the request with 500. */
  datatype VariationOp = FindProduct | FindVariation | CreateVariation

  datatype VariationReply =
    | ProductNotFound
    | Existing(variation: ProductVariation)
    | Created(variation: ProductVariation)
    | ServerError
  {
    function Status(): int {
      match this
      case ProductNotFound => 404
      case ServerError => 500
      case _ => 200
    }
  }

  const Default: string := "Padr\U{E3}o"
  const DefaultStock: int := 10

  /** A variation whose size, color and material are all the default. */
  predicate IsDefault(v: ProductVariation, productId: int) {
    v.productId == productId && v.size == Default && v.color == Default && v.material == Default
  }

  /** Variations are stored by position. */
  predicate Valid(c: Catalog) {
    forall i :: 0 <= i < |c.variations| ==> c.variations[i].id == i
  }

  /** The first default variation of a product, in storage order. */
  function FindDefault(vs: seq<ProductVariation>, productId: int): (r: Option<nat>)
    ensures r.Some? ==> r.value < |vs| && IsDefault(vs[r.value], productId)
    ensures r.Some? ==> forall i :: 0 <= i < r.value ==> !IsDefault(vs[i], productId)
    ensures r.None? ==> forall i :: 0 <= i < |vs| ==> !IsDefault(vs[i], productId)
  {
    if |vs| == 0 then None
    else if IsDefault(vs[0], productId) then Some(0)
    else match FindDefault(vs[1..], productId)
      case None => None
      case Some(k) => Some(k + 1)
  }

  /** `parseFloat(x) || fallback`: NaN and zero both give way. */
  function NumberOr(x: Option<real>, fallback: real): (r: real)
    ensures x.Some? && x.value != 0.0 ==> r == x.value
    ensures x.None? || x.value == 0.0 ==> r == fallback
  {
    if x.Some? && x.value != 0.0 then x.value else fallback
  }

  /** `parseInt(x) || fallback` for integers. */
  function IntOr(x: Option<int>, fallback: int): (r: int)
    ensures x.Some? && x.value != 0 ==> r == x.value
    ensures x.None? || x.value == 0 ==> r == fallback
  {
    if x.Some? && x.value != 0 then x.value else fallback
  }

  /** The variation the route creates for a product with no default variation. */
  function NewVariation(id: nat, productId: int, p: Product, req: VariationRequest): ProductVariation {
    ProductVariation(
      id, productId,
      OrElse(req.size, Default), OrElse(req.color, Default), OrElse(req.material, Default),
      NumberOr(req.price, p.basePrice),
      IntOr(req.stock, DefaultStock),
      OrElse(req.sku, req.generatedSku),
      true)
  }

  /**
   * The route. A `productId` that does not parse reaches the store as NaN,
   * which the store refuses; that is modelled as a failed product lookup.
   */
  function Post(c: Catalog, req: VariationRequest, faults: set<VariationOp>): (r: (Catalog, VariationReply))
    ensures r.1 == ServerError && r.0 == c <==>
      req.productId.None? || FindProduct in faults
      || (req.productId.value in c.products && FindVariation in faults)
      || (req.productId.value in c.products && FindDefault(c.variations, req.productId.value).None?
          && CreateVariation in faults)
    ensures r.1 == ProductNotFound <==>
      req.productId.Some? && FindProduct !in faults && req.productId.value !in c.products
    ensures r.1.Existing? <==>
      && req.productId.Some? && FindProduct !in faults && FindVariation !in faults
      && req.productId.value in c.products
      && FindDefault(c.variations, req.productId.value).Some?
    ensures r.1.Existing? ==>
      && r.0 == c
      && r.1.variation == c.variations[FindDefault(c.variations, req.productId.value).value]
    ensures !r.1.Created? ==> r.0 == c
    ensures r.1.Created? ==>
      && var id := req.productId.value;
      && id in c.products
      && (forall i :: 0 <= i < |c.variations| ==> !IsDefault(c.variations[i], id))
      && r.0.products == c.products
      && r.0.variations == c.variations + [r.1.variation]
      && var v := r.1.variation;
      && v.id == |c.variations| && v.productId == id && v.isActive
      && v.size == OrElse(req.size, Default)
      && v.color == OrElse(req.color, Default)
      && v.material == OrElse(req.material, Default)
      && v.price == NumberOr(req.price, c.products[id].basePrice)
      && v.stock == IntOr(req.stock, DefaultStock)
      && v.sku == OrElse(req.sku, req.generatedSku)
  {
    if req.productId.None? || FindProduct in faults then (c, ServerError)
    else
      var id := req.productId.value;
      if id !in c.products then (c, ProductNotFound)
      else if FindVariation in faults then (c, ServerError)
      else match FindDefault(c.variations, id)
        case Some(k) => (c, Existing(c.variations[k]))
        case None =>
          if CreateVariation in faults then (c, ServerError)
          else
            var v := NewVariation(|c.variations|, id, c.products[id], req);
            (Catalog(c.products, c.variations + [v]), Created(v))
  }

  /** Variations stay stored by position. */
  lemma PostKeepsValid(c: Catalog, req: VariationRequest, faults: set<VariationOp>)
    requires Valid(c)
    ensures Valid(Post(c, req, faults).0)
  {
  }

  /** A request that leaves size, color and material to their defaults (or names the default). */
  predicate AsksForDefault(req: VariationRequest) {
    OrElse(req.size, Default) == Default && OrElse(req.color, Default) == Default
    && OrElse(req.material, Default) == Default
  }

  /**
   * Repeating a default request returns the variation the first one created
   * and changes nothing: the route is idempotent for the default variation.
   */
  lemma DefaultRequestIdempotent(c: Catalog, req: VariationRequest, again: VariationRequest)
    requires Post(c, req, {}).1.Created? && AsksForDefault(req)
    requires again.productId == req.productId
    ensures var (c1, first) := Post(c, req, {});
            var (c2, second) := Post(c1, again, {});
      second == Existing(first.variation) && c2 == c1
  {
    var (c1, first) := Post(c, req, {});
    var id := req.productId.value;
    assert IsDefault(c1.variations[|c.variations|], id);
    assert FindDefault(c1.variations, id) == Some(|c.variations|) by {
      FindDefaultAppend(c.variations, first.variation, id);
    }
  }

  /** A default variation appended after a sequence without one is the first one found. */
  lemma {:induction false} FindDefaultAppend(vs: seq<ProductVariation>, v: ProductVariation, productId: int)
    requires forall i :: 0 <= i < |vs| ==> !IsDefault(vs[i], productId)
    requires IsDefault(v, productId)
    ensures FindDefault(vs + [v], productId) == Some(|vs|)
  {
    if |vs| > 0 {
      assert (vs + [v])[1..] == vs[1..] + [v];
      FindDefaultAppend(vs[1..], v, productId);
    } else {
      assert (vs + [v])[0] == v;
    }
  }

  /** The route never gives a product a second default variation. */
  lemma AtMostOneDefaultKept(c: Catalog, req: VariationRequest, faults: set<VariationOp>, productId: int)
    requires forall i, j :: 0 <= i < j < |c.variations| && IsDefault(c.variations[i], productId)
               ==> !IsDefault(c.variations[j], productId)
    ensures var vs := Post(c, req, faults).0.variations;
      forall i, j :: 0 <= i < j < |vs| && IsDefault(vs[i], productId) ==> !IsDefault(vs[j], productId)
  {
    var (c1, reply) := Post(c, req, faults);
    if reply.Created? {
      var vs := c1.variations;
      forall i, j | 0 <= i < j < |vs| && IsDefault(vs[i], productId)
        ensures !IsDefault(vs[j], productId)
      {
        if j == |c.variations| {
          assert vs[i] == c.variations[i];
        }
      }
    }
  }
}

=== FILE: webhook.dfy ===
/**
 * The payment webhook (`POST /api/webhook`) as one pure transition over
 * the store and the recency map: classify the notification, fetch the
 * gateway's details with bounded retry, create or update the local
 * payment and log an event, send the confirmation mail for approved
 * payments, mark the event processed, and answer. Every answer is sent
 * with HTTP status 200.
 */
module Webhook {
  import opened Wrappers
  import opened Text
  import opened EmailRules
  import opened PaymentStore
  import opened WebhookInput

  /** The store and the process-local map of mail timestamps. */
  datatype State = State(store: Store, sent: map<string, int>)

  /** Store calls that may fail for reasons outside the model (lost connection, timeout). */
  datatype DbOp = Lookup | Create | Update | LogEvent | MarkProcessed

  const FallbackEventType: string := "payment.updated"
  const FallbackMethod: string := "unknown"
  const FallbackDescription: string := "Pagamento via Mercado Pago"
  const Approved: string := "approved"

  // ---------------------------------------------------------------------------
  // The record created for an unknown payment

  /**
   * The payer name for a new record: the payer's joined names when either
   * is present, else `metadata.customer_name`, else the additional payer's
   * first name, else the sentinel.
   */
  function PayerNameOf(d: Details): (r: string)
    ensures Truthy(d.payer.firstName) || Truthy(d.payer.lastName) ==>
      r == Trim(JoinPresent(d.payer.firstName, d.payer.lastName))
    ensures !Truthy(d.payer.firstName) && !Truthy(d.payer.lastName) ==>
      r == FirstTruthy([d.metadata.customerName, d.additionalInfo.payer.firstName]).GetOr(NameSentinel)
  {
    FirstOfTwo(d.metadata.customerName, d.additionalInfo.payer.firstName);
    if Truthy(d.payer.firstName) || Truthy(d.payer.lastName) then
      Trim(JoinPresent(d.payer.firstName, d.payer.lastName))
    else if Truthy(d.metadata.customerName) then d.metadata.customerName.value
    else if Truthy(d.additionalInfo.payer.firstName) then d.additionalInfo.payer.firstName.value
    else NameSentinel
  }

  /**
   * The name handed to `createPayment` and the mailed name (`pickName`)
   * agree whenever the mailed one comes from the payer's names or, with no
   * payer names, from `metadata.customer_name`. Payer names that are only
   * whitespace hand over an empty name, where the mail falls back to the
   * metadata.
   */
  lemma NameChainsCompared(d: Details)
    ensures Trim(JoinPresent(d.payer.firstName, d.payer.lastName)) != "" ==>
      PickName(d) == Some(PayerNameOf(d))
    ensures !Truthy(d.payer.firstName) && !Truthy(d.payer.lastName) && Truthy(d.metadata.customerName) ==>
      PickName(d) == Some(PayerNameOf(d))
    ensures (Truthy(d.payer.firstName) || Truthy(d.payer.lastName))
            && Trim(JoinPresent(d.payer.firstName, d.payer.lastName)) == "" ==>
      PayerNameOf(d) == "" && PickName(d) == KeepTruthy(d.metadata.customerName)
  {
    FirstOfTwo(d.metadata.customerName, d.additionalInfo.payer.firstName);
    assert FirstTruthy([d.metadata.customerName]) == KeepTruthy(d.metadata.customerName) by {
      assert [d.metadata.customerName][1..] == [];
    }
  }

  /**
   * The name the store keeps for a new record against the mailed name. The
   * store trims the handed-over name and puts the sentinel in place of a
   * blank one, so the two agree on non-blank payer names, but a customer
   * name with surrounding blanks is mailed as given and stored trimmed, and
   * blank payer names store the sentinel.
   */
  lemma StoredNameComparedToMailed(d: Details, paymentId: string, generatedRef: string, now: int)
    ensures var stored := CleanData(NewPaymentOf(d, paymentId, generatedRef), now).payerName;
      && (Trim(JoinPresent(d.payer.firstName, d.payer.lastName)) != "" ==> PickName(d) == Some(stored))
      && (!Truthy(d.payer.firstName) && !Truthy(d.payer.lastName) && Truthy(d.metadata.customerName) ==>
            PickName(d) == d.metadata.customerName
            && stored == TrimmedOr(d.metadata.customerName.value, NameSentinel))
      && ((Truthy(d.payer.firstName) || Truthy(d.payer.lastName))
          && Trim(JoinPresent(d.payer.firstName, d.payer.lastName)) == "" ==>
            stored == NameSentinel && PickName(d) == KeepTruthy(d.metadata.customerName))
  {
    StoredName(d, paymentId, generatedRef, now);
    TrimmedNameComparedToMailed(d);
  }

  /** The store keeps the handed-over name trimmed, or the sentinel when it trims to nothing. */
  lemma StoredName(d: Details, paymentId: string, generatedRef: string, now: int)
    ensures CleanData(NewPaymentOf(d, paymentId, generatedRef), now).payerName == TrimmedOr(PayerNameOf(d), NameSentinel)
  {
    assert NewPaymentOf(d, paymentId, generatedRef).payerName == PayerNameOf(d);
  }

  /** The three cases of `StoredNameComparedToMailed`, over the trimmed handed-over name. */
  lemma TrimmedNameComparedToMailed(d: Details)
    ensures var stored := TrimmedOr(PayerNameOf(d), NameSentinel);
      && (Trim(JoinPresent(d.payer.firstName, d.payer.lastName)) != "" ==> PickName(d) == Some(stored))
      && (!Truthy(d.payer.firstName) && !Truthy(d.payer.lastName) && Truthy(d.metadata.customerName) ==>
            PickName(d) == d.metadata.customerName
            && stored == TrimmedOr(d.metadata.customerName.value, NameSentinel))
      && ((Truthy(d.payer.firstName) || Truthy(d.payer.lastName))
          && Trim(JoinPresent(d.payer.firstName, d.payer.lastName)) == "" ==>
            stored == NameSentinel && PickName(d) == KeepTruthy(d.metadata.customerName))
  {
    var joined := JoinPresent(d.payer.firstName, d.payer.lastName);
    NameChainsCompared(d);
    if Truthy(d.payer.firstName) || Truthy(d.payer.lastName) {
      assert PayerNameOf(d) == Trim(joined);
      TrimIdempotent(joined);
    } else {
      assert joined == "";
      assert Trim(joined) == "";
    }
  }

  /** The payer e-mail for a new record: metadata, then payer, then additional payer, else the sentinel. */
  function PayerEmailOf(d: Details): (r: string)
    ensures r != ""
    ensures r == FirstTruthy([d.metadata.buyerEmail, d.payer.email, d.additionalInfo.payer.email]).GetOr(EmailSentinel)
  {
    FirstOfThree(d.metadata.buyerEmail, d.payer.email, d.additionalInfo.payer.email);
    if Truthy(d.metadata.buyerEmail) then d.metadata.buyerEmail.value
    else if Truthy(d.payer.email) then d.payer.email.value
    else if Truthy(d.additionalInfo.payer.email) then d.additionalInfo.payer.email.value
    else EmailSentinel
  }

  /** The payer document for a new record, before digit stripping: payer, metadata, additional payer, else the sentinel. */
  function PayerCpfOf(d: Details): (r: string)
    ensures r != ""
    ensures r == FirstTruthy([d.payer.identificationNumber, d.metadata.payerCpf,
                              d.additionalInfo.payer.identificationNumber]).GetOr(CpfSentinel)
  {
    FirstOfThree(d.payer.identificationNumber, d.metadata.payerCpf, d.additionalInfo.payer.identificationNumber);
    if Truthy(d.payer.identificationNumber) then d.payer.identificationNumber.value
    else if Truthy(d.metadata.payerCpf) then d.metadata.payerCpf.value
    else if Truthy(d.additionalInfo.payer.identificationNumber) then d.additionalInfo.payer.identificationNumber.value
    else CpfSentinel
  }

  /** The arguments of `createPayment` for a payment the store does not know yet. */
  function NewPaymentOf(d: Details, paymentId: string, generatedRef: string): (r: NewPayment)
    ensures r.mercadopagoId == paymentId
    ensures r.externalReference == (if Truthy(d.externalReference) then d.externalReference.value else generatedRef)
    ensures r.initialStatus == d.status
    ensures r.payerName == PayerNameOf(d) && r.payerEmail == PayerEmailOf(d)
    ensures r.payerCpf == DigitsOf(PayerCpfOf(d)) && AllDigits(r.payerCpf)
    ensures r.amount == d.transactionAmount.GetOr(0.0)
    ensures r.paymentMethod == (if Truthy(d.paymentMethodId) then d.paymentMethodId.value else FallbackMethod)
    ensures r.description == Some(if Truthy(d.description) then d.description.value else FallbackDescription)
    ensures r.items.Some? ==> |r.items.value| > 0 && r.items.value == PickItems(d)
  {
    var items := PickItems(d);
    NewPayment(
      paymentId,
      OrElse(d.externalReference, generatedRef),
      d.transactionAmount.GetOr(0.0),
      OrElse(d.paymentMethodId, FallbackMethod),
      PayerNameOf(d),
      PayerEmailOf(d),
      DigitsOf(PayerCpfOf(d)),
      Some(OrElse(d.description, FallbackDescription)),
      if |items| > 0 then Some(items) else None,
      d.status)
  }

  /** A new record gets an item list exactly when the notification lists items. */
  lemma NewPaymentItems(d: Details, paymentId: string, generatedRef: string)
    ensures NewPaymentOf(d, paymentId, generatedRef).items.None? <==> |PickItems(d)| == 0
  {
  }

  /**
   * What a new record holds: the gateway's own status upper-cased (PENDING
   * only when the gateway gave none), the gateway amount, the trimmed payer
   * name and e-mail from the create-path chains (each replaced by its
   * sentinel when it trims to nothing) and the trimmed description.
   */
  lemma CreatedRecord(d: Details, paymentId: string, generatedRef: string, now: int)
    ensures var p := CleanData(NewPaymentOf(d, paymentId, generatedRef), now);
      && p.mercadopagoId == paymentId
      && (Truthy(d.status) ==> p.status == Upper(d.status.value))
      && (!Truthy(d.status) ==> p.status == DefaultStatus)
      && p.amount == d.transactionAmount.GetOr(0.0)
      && p.payerName == TrimmedOr(PayerNameOf(d), NameSentinel)
      && p.payerEmail == TrimmedOr(PayerEmailOf(d), EmailSentinel)
      && p.description == Some(Trim(OrElse(d.description, FallbackDescription)))
  {
    var np := NewPaymentOf(d, paymentId, generatedRef);
    assert np.payerEmail == PayerEmailOf(d);
    assert np.amount == d.transactionAmount.GetOr(0.0);
    assert np.description == Some(OrElse(d.description, FallbackDescription));
  }

  /**
   * The document of a new record: the digits of the chosen source, or the
   * sentinel exactly when that source has no digits.
   */
  lemma CreatedRecordCpf(d: Details, paymentId: string, generatedRef: string, now: int)
    ensures var p := CleanData(NewPaymentOf(d, paymentId, generatedRef), now);
      && (p.payerCpf == CpfSentinel <==> DigitsOf(PayerCpfOf(d)) == "")
      && (p.payerCpf != CpfSentinel ==> p.payerCpf == DigitsOf(PayerCpfOf(d)))
  {
    var np := NewPaymentOf(d, paymentId, generatedRef);
    assert np.payerCpf == DigitsOf(PayerCpfOf(d));
    DigitsOfIdempotent(PayerCpfOf(d));
    CleanCpf(np, now);
  }

  /** The stored document of any new record, in terms of the digits it was handed. */
  lemma CleanCpf(np: NewPayment, now: int)
    ensures var p := CleanData(np, now);
      && (p.payerCpf == CpfSentinel <==> DigitsOf(np.payerCpf) == "")
      && (p.payerCpf != CpfSentinel ==> p.payerCpf == DigitsOf(np.payerCpf))
  {
    var cpf := DigitsOf(np.payerCpf);
    assert !IsDigit(CpfSentinel[0]);
    if cpf != "" {
      assert CleanData(np, now).payerCpf == cpf;
      assert cpf[0] == CpfSentinel[0] ==> false;
    }
  }

  // ---------------------------------------------------------------------------
  // Create or update, then log the event

  /**
   * The gateway fields an update passes on. The detail projection carries
   * no rejection reason, so that field is always absent.
   */
  function UpdateDataOf(d: Details): (r: MpData)
    ensures r.rejectionReason.None?
    ensures r.statusDetail == d.statusDetail && r.dateLastUpdated == d.dateLastUpdated
  {
    MpData(d.statusDetail, None, d.dateLastUpdated)
  }

  /** The store after reconciling, the payment the request resolved to, and the logged event. */
  datatype Reconciled = Reconciled(store: Store, payment: Option<nat>, event: Option<nat>)

  /** Log the event for payment `pid`; a failure leaves the store and no event. */
  function LogStep(s: Store, pid: nat, eventType: string, serialized: string, faults: set<DbOp>, now: int): (r: Reconciled)
    requires pid < |s.payments|
    ensures r.payment == Some(pid) && r.store.payments == s.payments
    ensures r.event.Some? <==> LogEvent !in faults
    ensures r.event.None? ==> r.store == s
    ensures r.event.Some? ==>
      && r.event.value == |s.events|
      && r.store.events == s.events + [WebhookEvent(pid, OrElse(Some(eventType), FallbackEventType), serialized, false, None, None, now)]
  {
    if LogEvent in faults then Reconciled(s, Some(pid), None)
    else
      match LogWebhookEvent(s, pid, OrElse(Some(eventType), FallbackEventType), serialized, now)
      case Err(_) => Reconciled(s, Some(pid), None)
      case Ok((s1, e)) =>
        assert s1.events == s.events + [s1.events[e]];
        Reconciled(s1, Some(pid), Some(e))
  }

  /**
   * Look the payment up by gateway id; create it when unknown, otherwise
   * update its status; then log the event. A failed store call ends the
   * phase with what was resolved so far. An update needs the gateway's
   * status: without one it fails before reaching the store.
   */
  function Reconcile(s: Store, paymentId: string, d: Details, eventType: string, serialized: string,
                     generatedRef: string, faults: set<DbOp>, now: int): (r: Reconciled)
    ensures r.payment.None? ==> r.store == s && r.event.None?
    ensures r.event.Some? ==> r.payment.Some?
    ensures r.event.None? ==> r.store.events == s.events
    ensures r.event.Some? ==>
      && r.event.value == |s.events|
      && r.store.events == s.events + [WebhookEvent(r.payment.value, OrElse(Some(eventType), FallbackEventType), serialized, false, None, None, now)]
    ensures r.payment.Some? ==>
      r.payment.value < |r.store.payments| && r.store.payments[r.payment.value].mercadopagoId == paymentId
    ensures |r.store.payments| == |s.payments| || |r.store.payments| == |s.payments| + 1
    ensures r.store.payments[..|s.payments|] == s.payments || |r.store.payments| == |s.payments|
  {
    if Lookup in faults then Reconciled(s, None, None)
    else
      match GetPaymentByMercadoPagoId(s, paymentId)
      case None =>
        if Create in faults then Reconciled(s, None, None)
        else
          (match CreatePayment(s, NewPaymentOf(d, paymentId, generatedRef), now)
           case Err(_) => Reconciled(s, None, None)
           case Ok((s1, pid)) =>
             assert s1.payments[..|s.payments|] == s.payments;
             LogStep(s1, pid, eventType, serialized, faults, now))
      case Some(v) =>
        if Update in faults || d.status.None? then Reconciled(s, Some(v.id), None)
        else
          match UpdatePaymentStatus(s, paymentId, d.status.value, UpdateDataOf(d), now)
          case Err(_) => Reconciled(s, Some(v.id), None)
          case Ok(s1) =>
            assert s1.payments[v.id] == WithStatus(s.payments[v.id], d.status.value, UpdateDataOf(d), now);
            LogStep(s1, v.id, eventType, serialized, faults, now)
  }

  // ---------------------------------------------------------------------------
  // The confirmation mail

  /** The arguments of `sendPaymentConfirmationEmail`. */
  datatype MailRequest = MailRequest(
    to: string,
    name: Option<string>,
    orderId: string,
    amount: real,
    items: seq<Item>,
    receiptUrl: Option<string>)

  /** The order id in the mail: the external reference, else `metadata.order_id`, else the gateway id. */
  function OrderIdOf(d: Details): (r: string)
    ensures r == d.id || Some(r) == d.externalReference || Some(r) == d.metadata.orderId
    ensures Truthy(d.externalReference) ==> r == d.externalReference.value
  {
    OrElse(FirstTruthy([d.externalReference, d.metadata.orderId]), d.id)
  }

  function MailFor(d: Details, to: string): MailRequest {
    MailRequest(to, PickName(d), OrderIdOf(d), d.transactionAmount.GetOr(0.0), PickItems(d), d.ticketUrl)
  }

  datatype Notified = Notified(sent: map<string, int>, mail: Option<MailRequest>)

  /**
   * Mail is requested exactly for an approved payment not mailed in the
   * last five minutes whose buyer e-mail is usable; the time is recorded
   * only when the mailer succeeded, and a failure is swallowed.
   */
  function Notify(sent: map<string, int>, d: Details, mailOk: bool, now: int): (r: Notified)
    ensures r.mail.Some? <==>
      d.status == Some(Approved) && !WasRecentlySent(sent, d.id, now) && PickBuyerEmail(d).Some?
    ensures r.mail.Some? ==> IsValidEmail(Some(r.mail.value.to)) && Some(r.mail.value.to) == PickBuyerEmail(d)
    ensures r.mail.Some? && mailOk ==> r.sent.Keys == sent.Keys + {d.id} && r.sent[d.id] == now
    ensures r.mail.Some? && mailOk ==> forall k :: k in sent && k != d.id ==> r.sent[k] == sent[k]
    ensures !(r.mail.Some? && mailOk) ==> r.sent == sent
  {
    if d.status == Some(Approved) && !WasRecentlySent(sent, d.id, now) then
      match PickBuyerEmail(d)
      case None => Notified(sent, None)
      case Some(to) => Notified(if mailOk then MarkSent(sent, d.id, now) else sent, Some(MailFor(d, to)))
    else Notified(sent, None)
  }

  // ---------------------------------------------------------------------------
  // Marking the event, and the whole request

  /** Mark the logged event processed, when both a payment and an event were resolved. */
  function MarkStep(rec: Reconciled, faults: set<DbOp>, now: int): (r: Store)
    requires rec.event.Some? ==> rec.event.value < |rec.store.events|
    ensures r.payments == rec.store.payments && |r.events| == |rec.store.events|
    ensures rec.payment.Some? && rec.event.Some? && MarkProcessed !in faults ==>
      && r.events[rec.event.value].processed && r.events[rec.event.value].processedAt == Some(now)
      && r.events[rec.event.value].error.None?
    ensures forall j :: 0 <= j < |r.events| && Some(j) != rec.event ==> r.events[j] == rec.store.events[j]
    ensures rec.event.Some? ==>
      && r.events[rec.event.value].paymentId == rec.store.events[rec.event.value].paymentId
      && r.events[rec.event.value].eventType == rec.store.events[rec.event.value].eventType
      && r.events[rec.event.value].eventData == rec.store.events[rec.event.value].eventData
    ensures !(rec.payment.Some? && rec.event.Some? && MarkProcessed !in faults) ==> r == rec.store
  {
    if rec.payment.Some? && rec.event.Some? && MarkProcessed !in faults then
      match MarkWebhookProcessed(rec.store, rec.event.value, None, now)
      case Ok(s) => s
      case Err(_) => rec.store
    else rec.store
  }

  /** The JSON answer; `Ok()` is its `ok` field. */
  datatype Response =
    | Ignored
    | MissingPaymentId
    | NoDetails
    | Processed(paymentId: string, status: Option<string>, externalReference: Option<string>, savedToDb: bool)
  {
    predicate Ok() {
      Ignored? || Processed?
    }
  }

  /**
   * The request's result: the new state, the answer, how many detail
   * calls were made and after which the loop slept, the mail requested,
   * and whether `markWebhookProcessed` was called.
   */
  datatype Outcome = Outcome(
    state: State,
    response: Response,
    attempts: nat,
    sleptAfter: seq<nat>,
    mail: Option<MailRequest>,
    markCalled: bool)

  /**
   * One webhook request. `gateway(i)` is the outcome of the `i`-th detail
   * call, `generatedRef` the `order_<timestamp>` reference used when the
   * gateway gives none, `faults` the store calls that fail, `mailOk`
   * whether the mailer succeeds, and `now` the clock.
   */
  function Handle(st: State, req: Request, gateway: nat -> FetchOutcome, generatedRef: string,
                  faults: set<DbOp>, mailOk: bool, now: int): (r: Outcome)
    ensures r.attempts <= MaxAttempts
    ensures r.response.Ignored? <==> Classify(req).NotPayment?
    ensures r.response.MissingPaymentId? <==> Classify(req).NoPaymentId?
    ensures r.response.NoDetails? <==> Classify(req).PaymentNotice? && FetchDetails(gateway).details.None?
    ensures !r.response.Processed? ==> r.state == st && r.mail.None? && !r.markCalled
    ensures r.response.Ignored? || r.response.MissingPaymentId? ==> r.attempts == 0
    ensures r.response.NoDetails? ==> r.attempts == MaxAttempts
    ensures r.response.Processed? ==> Some(r.response.paymentId) == PaymentIdOf(req) && 1 <= r.attempts
    ensures r.markCalled ==> r.response.Processed? && r.response.savedToDb
    ensures r.state.sent != st.sent ==> mailOk && r.mail.Some?
    ensures |r.state.store.events| == |st.store.events| || |r.state.store.events| == |st.store.events| + 1
    ensures |r.state.store.payments| == |st.store.payments| || |r.state.store.payments| == |st.store.payments| + 1
  {
    match Classify(req)
    case NotPayment => Outcome(st, Ignored, 0, [], None, false)
    case NoPaymentId => Outcome(st, MissingPaymentId, 0, [], None, false)
    case PaymentNotice(id) =>
      var f := FetchDetails(gateway);
      match f.details
      case None => Outcome(st, NoDetails, f.attempts, f.sleptAfter, None, false)
      case Some(d) =>
        var rec := Reconcile(st.store, id, d, EventType(req), req.serializedBody, generatedRef, faults, now);
        var n := Notify(st.sent, d, mailOk, now);
        var markCalled := rec.payment.Some? && rec.event.Some?;
        Outcome(
          State(MarkStep(rec, faults, now), n.sent),
          Processed(id, d.status, d.externalReference, rec.payment.Some?),
          f.attempts, f.sleptAfter, n.mail, markCalled)
  }

  // ---------------------------------------------------------------------------
  // Properties of the whole request

  lemma LogStepKeepsValid(s: Store, pid: nat, eventType: string, serialized: string, faults: set<DbOp>, now: int)
    requires Valid(s) && pid < |s.payments|
    ensures Valid(LogStep(s, pid, eventType, serialized, faults, now).store)
  {
  }

  /** Reconciling keeps both unique indexes and the event foreign key. */
  lemma ReconcileKeepsValid(s: Store, paymentId: string, d: Details, eventType: string, serialized: string,
                            generatedRef: string, faults: set<DbOp>, now: int)
    requires Valid(s)
    ensures Valid(Reconcile(s, paymentId, d, eventType, serialized, generatedRef, faults, now).store)
  {
    if Lookup !in faults {
      match GetPaymentByMercadoPagoId(s, paymentId)
      case None =>
        var np := NewPaymentOf(d, paymentId, generatedRef);
        if Create !in faults && CreatePayment(s, np, now).Ok? {
          CreateKeepsValid(s, np, now);
          var (s1, pid) := CreatePayment(s, np, now).value;
          LogStepKeepsValid(s1, pid, eventType, serialized, faults, now);
        }
      case Some(v) =>
        var mp := UpdateDataOf(d);
        if Update !in faults && d.status.Some? && UpdatePaymentStatus(s, paymentId, d.status.value, mp, now).Ok? {
          UpdateKeepsValid(s, paymentId, d.status.value, mp, now);
          var s1 := UpdatePaymentStatus(s, paymentId, d.status.value, mp, now).value;
          LogStepKeepsValid(s1, v.id, eventType, serialized, faults, now);
        }
    }
  }

  /** A webhook request keeps the store's unique indexes and event foreign key. */
  lemma HandleKeepsValid(st: State, req: Request, gateway: nat -> FetchOutcome, generatedRef: string,
                         faults: set<DbOp>, mailOk: bool, now: int)
    requires Valid(st.store)
    ensures Valid(Handle(st, req, gateway, generatedRef, faults, mailOk, now).state.store)
  {
    if Classify(req).PaymentNotice? && FetchDetails(gateway).details.Some? {
      var d := FetchDetails(gateway).details.value;
      HandleUnfold(st, req, gateway, generatedRef, faults, mailOk, now, d);
      ReconcileKeepsValid(st.store, Classify(req).id, d, EventType(req), req.serializedBody, generatedRef, faults, now);
      MarkStepKeepsValid(Reconcile(st.store, Classify(req).id, d, EventType(req), req.serializedBody, generatedRef, faults, now),
                         faults, now);
    }
  }

  /** Marking an event processed touches neither the records nor any event's payment. */
  lemma MarkStepKeepsValid(rec: Reconciled, faults: set<DbOp>, now: int)
    requires rec.event.Some? ==> rec.event.value < |rec.store.events|
    requires Valid(rec.store)
    ensures Valid(MarkStep(rec, faults, now))
  {
    var r := MarkStep(rec, faults, now);
    forall e | 0 <= e < |r.events|
      ensures r.events[e].paymentId < |r.payments|
    {
      assert r.events[e].paymentId == rec.store.events[e].paymentId;
    }
  }

  /** A request with a payment id whose details were fetched, phase by phase. */
  lemma HandleUnfold(st: State, req: Request, gateway: nat -> FetchOutcome, generatedRef: string,
                     faults: set<DbOp>, mailOk: bool, now: int, d: Details)
    requires Classify(req).PaymentNotice? && FetchDetails(gateway).details == Some(d)
    ensures var rec := Reconcile(st.store, Classify(req).id, d, EventType(req), req.serializedBody, generatedRef, faults, now);
      var n := Notify(st.sent, d, mailOk, now);
      var r := Handle(st, req, gateway, generatedRef, faults, mailOk, now);
      && r.state == State(MarkStep(rec, faults, now), n.sent)
      && r.response == Processed(Classify(req).id, d.status, d.externalReference, rec.payment.Some?)
      && r.mail == n.mail
      && r.markCalled == (rec.payment.Some? && rec.event.Some?)
  {
  }

  /**
   * Once details are known, mail is requested exactly for an approved
   * payment not mailed in the last five minutes with a usable buyer
   * e-mail, and only a successful send is recorded.
   */
  lemma MailGate(st: State, req: Request, gateway: nat -> FetchOutcome, generatedRef: string,
                 faults: set<DbOp>, mailOk: bool, now: int, d: Details)
    requires Classify(req).PaymentNotice? && FetchDetails(gateway).details == Some(d)
    ensures var r := Handle(st, req, gateway, generatedRef, faults, mailOk, now);
      && r.response.Processed?
      && (r.mail.Some? <==> d.status == Some(Approved) && !WasRecentlySent(st.sent, d.id, now) && PickBuyerEmail(d).Some?)
      && (r.mail.Some? ==> Some(r.mail.value.to) == PickBuyerEmail(d) && r.mail.value.orderId == OrderIdOf(d))
      && (r.mail.Some? && mailOk ==> r.state.sent == MarkSent(st.sent, d.id, now))
      && (!(r.mail.Some? && mailOk) ==> r.state.sent == st.sent)
  {
  }

  /** A store outage never silences the mail: what is mailed and recorded does not depend on the failing store calls. */
  lemma MailIndependentOfFaults(st: State, req: Request, gateway: nat -> FetchOutcome, generatedRef: string,
                                faults1: set<DbOp>, faults2: set<DbOp>, mailOk: bool, now: int)
    ensures var r1 := Handle(st, req, gateway, generatedRef, faults1, mailOk, now);
      var r2 := Handle(st, req, gateway, generatedRef, faults2, mailOk, now);
      && r1.mail == r2.mail
      && r1.state.sent == r2.state.sent
      && r1.response.Ok() == r2.response.Ok()
      && r1.attempts == r2.attempts
  {
  }

  /**
   * Reconciling a payment the store does not know, with the store
   * reachable and its reference free, creates exactly one record and logs
   * exactly one event for it.
   */
  lemma ReconcileCreates(s: Store, id: string, d: Details, eventType: string, serialized: string,
                         generatedRef: string, now: int)
    requires FindByGatewayId(s, id).None?
    requires FindByReference(s, NewPaymentOf(d, id, generatedRef).externalReference).None?
    ensures var rec := Reconcile(s, id, d, eventType, serialized, generatedRef, {}, now);
      && rec.payment == Some(|s.payments|) && rec.event == Some(|s.events|)
      && rec.store.payments == s.payments + [CleanData(NewPaymentOf(d, id, generatedRef), now)]
  {
    ReconcileUnknown(s, id, d, eventType, serialized, generatedRef, now);
  }

  /** With no fault, an unknown payment whose keys are free goes straight from creation to logging. */
  lemma ReconcileUnknown(s: Store, id: string, d: Details, eventType: string, serialized: string,
                         generatedRef: string, now: int)
    requires FindByGatewayId(s, id).None?
    requires FindByReference(s, NewPaymentOf(d, id, generatedRef).externalReference).None?
    ensures Reconcile(s, id, d, eventType, serialized, generatedRef, {}, now)
         == LogStep(s.(payments := s.payments + [CleanData(NewPaymentOf(d, id, generatedRef), now)]),
                    |s.payments|, eventType, serialized, {}, now)
  {
    var np := NewPaymentOf(d, id, generatedRef);
    assert np.mercadopagoId == id;
    CreateFresh(s, np, now);
    assert GetPaymentByMercadoPagoId(s, id).None?;
  }

  /**
   * An approved notification for a payment the store does not know creates
   * exactly one record, with status APPROVED rather than PENDING, logs
   * exactly one event for it, marks that event processed and requests one
   * mail to the buyer.
   */
  lemma ApprovedUnknownPayment(st: State, req: Request, gateway: nat -> FetchOutcome, generatedRef: string,
                               now: int, d: Details)
    requires Classify(req).PaymentNotice? && FetchDetails(gateway).details == Some(d)
    requires d.status == Some(Approved)
    requires FindByGatewayId(st.store, Classify(req).id).None?
    requires FindByReference(st.store, NewPaymentOf(d, Classify(req).id, generatedRef).externalReference).None?
    requires !WasRecentlySent(st.sent, d.id, now) && PickBuyerEmail(d).Some?
    ensures var r := Handle(st, req, gateway, generatedRef, {}, true, now);
      var n := |st.store.payments|;
      var m := |st.store.events|;
      && |r.state.store.payments| == n + 1
      && r.state.store.payments[..n] == st.store.payments
      && r.state.store.payments[n].mercadopagoId == Classify(req).id
      && r.state.store.payments[n].status == "APPROVED"
      && r.state.store.payments[n].amount == d.transactionAmount.GetOr(0.0)
      && |r.state.store.events| == m + 1
      && r.state.store.events[..m] == st.store.events
      && r.state.store.events[m].paymentId == n
      && r.state.store.events[m].processed
      && r.mail.Some? && Some(r.mail.value.to) == PickBuyerEmail(d)
      && r.response == Processed(Classify(req).id, d.status, d.externalReference, true)
  {
    var id := Classify(req).id;
    var r := Handle(st, req, gateway, generatedRef, {}, true, now);
    var rec := Reconcile(st.store, id, d, EventType(req), req.serializedBody, generatedRef, {}, now);
    HandleUnfold(st, req, gateway, generatedRef, {}, true, now, d);
    MailGate(st, req, gateway, generatedRef, {}, true, now, d);
    ReconcileCreates(st.store, id, d, EventType(req), req.serializedBody, generatedRef, now);
    CreateLogMark(st.store, id, d, EventType(req), req.serializedBody, generatedRef, now);
    ApprovedRecord(d, id, generatedRef, now);
    var p := CleanData(NewPaymentOf(d, id, generatedRef), now);
    assert r.state.store == MarkStep(rec, {}, now);
    LastAppended(st.store.payments, p, r.state.store.payments);
  }

  /** A sequence that extends `ps` by `p` keeps `ps` as its prefix and holds `p` at the next index. */
  lemma LastAppended<T>(ps: seq<T>, p: T, qs: seq<T>)
    requires qs == ps + [p]
    ensures |qs| == |ps| + 1 && qs[..|ps|] == ps && qs[|ps|] == p
  {
  }

  /**
   * Reconciling an unknown payment and then marking the step appends the
   * cleaned record and one processed event for it, keeping everything before.
   */
  lemma CreateLogMark(s: Store, id: string, d: Details, eventType: string, serialized: string,
                      generatedRef: string, now: int)
    requires FindByGatewayId(s, id).None?
    requires FindByReference(s, NewPaymentOf(d, id, generatedRef).externalReference).None?
    ensures var f := MarkStep(Reconcile(s, id, d, eventType, serialized, generatedRef, {}, now), {}, now);
      && f.payments == s.payments + [CleanData(NewPaymentOf(d, id, generatedRef), now)]
      && |f.events| == |s.events| + 1
      && f.events[..|s.events|] == s.events
      && f.events[|s.events|].paymentId == |s.payments|
      && f.events[|s.events|].processed
  {
    ReconcileCreates(s, id, d, eventType, serialized, generatedRef, now);
    var rec := Reconcile(s, id, d, eventType, serialized, generatedRef, {}, now);
    MarkStepAfterLog(rec, s.events, now);
  }

  /** The record created for an approved payment holds APPROVED, the gateway id and the gateway amount. */
  lemma ApprovedRecord(d: Details, id: string, generatedRef: string, now: int)
    requires d.status == Some(Approved)
    ensures var p := CleanData(NewPaymentOf(d, id, generatedRef), now);
      p.mercadopagoId == id && p.status == "APPROVED" && p.amount == d.transactionAmount.GetOr(0.0)
  {
    ApprovedUpper();
  }

  lemma ApprovedUpper()
    ensures Upper(Approved) == "APPROVED"
  {
    assert Upper("approved") == "APPROVED";
  }

  /** Marking the event just logged keeps the earlier log and marks exactly that event. */
  lemma MarkStepAfterLog(rec: Reconciled, before: seq<WebhookEvent>, now: int)
    requires rec.payment.Some? && rec.event == Some(|before|)
    requires |rec.store.events| == |before| + 1 && rec.store.events[..|before|] == before
    ensures var f := MarkStep(rec, {}, now);
      && |f.events| == |before| + 1
      && f.events[..|before|] == before
      && f.events[|before|].processed
      && f.events[|before|].paymentId == rec.store.events[|before|].paymentId
      && f.payments == rec.store.payments
  {
    var f := MarkStep(rec, {}, now);
    forall j | 0 <= j < |before|
      ensures f.events[j] == before[j]
    {
      assert f.events[j] == rec.store.events[j];
    }
  }

  /**
   * A redelivery within five minutes of a successful mail, about the same
   * gateway payment, requests no second mail and leaves the recency map
   * as it was.
   */
  lemma RedeliveryNoSecondMail(st: State, req: Request, gateway: nat -> FetchOutcome, generatedRef: string,
                               faults: set<DbOp>, now1: int,
                               req2: Request, gateway2: nat -> FetchOutcome, generatedRef2: string,
                               faults2: set<DbOp>, mailOk2: bool, now2: int)
    requires now1 != 0 && now2 < now1 + RecentWindow
    requires Classify(req).PaymentNotice? && FetchDetails(gateway).details.Some?
    requires FetchDetails(gateway2).details.Some? ==>
      FetchDetails(gateway2).details.value.id == FetchDetails(gateway).details.value.id
    requires Handle(st, req, gateway, generatedRef, faults, true, now1).mail.Some?
    ensures var r1 := Handle(st, req, gateway, generatedRef, faults, true, now1);
      var r2 := Handle(r1.state, req2, gateway2, generatedRef2, faults2, mailOk2, now2);
      r2.mail.None? && r2.state.sent == r1.state.sent
  {
    var d := FetchDetails(gateway).details.value;
    HandleUnfold(st, req, gateway, generatedRef, faults, true, now1, d);
    var r1 := Handle(st, req, gateway, generatedRef, faults, true, now1);
    assert r1.state.sent == MarkSent(st.sent, d.id, now1);
    MarkSentSuppresses(st.sent, d.id, now1, now2);
    if FetchDetails(gateway2).details.Some? && Classify(req2).PaymentNotice? {
      var d2 := FetchDetails(gateway2).details.value;
      HandleUnfold(r1.state, req2, gateway2, generatedRef2, faults2, mailOk2, now2, d2);
      assert WasRecentlySent(r1.state.sent, d2.id, now2);
    }
  }

  /**
   * Reconciling a payment the store knows, with the store reachable and a
   * status from the gateway, updates exactly that record in place and logs
   * one event for it.
   */
  lemma ReconcileUpdates(s: Store, id: string, d: Details, eventType: string, serialized: string,
                         generatedRef: string, now: int, i: nat)
    requires FindByGatewayId(s, id) == Some(i) && d.status.Some?
    ensures var rec := Reconcile(s, id, d, eventType, serialized, generatedRef, {}, now);
      && rec.payment == Some(i) && rec.event == Some(|s.events|)
      && rec.store.payments == s.payments[i := WithStatus(s.payments[i], d.status.value,
                                                         UpdateDataOf(d), now)]
      && rec.store.payments[i].mpRejectionReason.None?
      && rec.store.payments[i].mpStatusDetail == KeepTruthy(d.statusDetail)
  {
    assert GetPaymentByMercadoPagoId(s, id).Some?;
  }

  /** With the store reachable, the record a request resolves to carries the gateway's status, upper-cased. */
  lemma ReconcileStatus(s: Store, id: string, d: Details, eventType: string, serialized: string,
                        generatedRef: string, now: int)
    requires Truthy(d.status)
    ensures var rec := Reconcile(s, id, d, eventType, serialized, generatedRef, {}, now);
      rec.payment.Some? ==> rec.store.payments[rec.payment.value].status == Upper(d.status.value)
  {
    var rec := Reconcile(s, id, d, eventType, serialized, generatedRef, {}, now);
    match FindByGatewayId(s, id)
    case None =>
      if rec.payment.Some? {
        var np := NewPaymentOf(d, id, generatedRef);
        assert GetPaymentByMercadoPagoId(s, id).None?;
        CreatedRecord(d, id, generatedRef, now);
        assert rec.store.payments == CreatePayment(s, np, now).value.0.payments;
      }
    case Some(i) =>
      ReconcileUpdates(s, id, d, eventType, serialized, generatedRef, now, i);
  }

  /**
   * Delivering the same notification again, with the store reachable,
   * updates the record in place: no record is added, its status stays the
   * gateway's status upper-cased, and one more event is logged.
   */
  lemma RedeliveryUpdatesInPlace(st: State, req: Request, gateway: nat -> FetchOutcome, generatedRef: string,
                                 now1: int, now2: int, d: Details)
    requires Valid(st.store)
    requires Classify(req).PaymentNotice? && FetchDetails(gateway).details == Some(d) && Truthy(d.status)
    requires Handle(st, req, gateway, generatedRef, {}, true, now1).response.savedToDb
    ensures var s1 := Handle(st, req, gateway, generatedRef, {}, true, now1).state.store;
      var s2 := Handle(Handle(st, req, gateway, generatedRef, {}, true, now1).state, req, gateway, generatedRef, {}, true, now2).state.store;
      && |s2.payments| == |s1.payments|
      && |s2.events| == |s1.events| + 1
      && exists i :: 0 <= i < |s1.payments| && s1.payments[i].mercadopagoId == Classify(req).id
           && s1.payments[i].status == Upper(d.status.value)
           && s2.payments[i].status == Upper(d.status.value)
           && s2.payments[i].mpRejectionReason.None?
           && (forall j :: 0 <= j < |s1.payments| && j != i ==> s2.payments[j] == s1.payments[j])
  {
    var id := Classify(req).id;
    var r1 := Handle(st, req, gateway, generatedRef, {}, true, now1);
    HandleUnfold(st, req, gateway, generatedRef, {}, true, now1, d);
    var rec1 := Reconcile(st.store, id, d, EventType(req), req.serializedBody, generatedRef, {}, now1);
    var s1 := r1.state.store;
    var i := rec1.payment.value;
    ReconcileStatus(st.store, id, d, EventType(req), req.serializedBody, generatedRef, now1);
    assert s1.payments == rec1.store.payments;
    HandleKeepsValid(st, req, gateway, generatedRef, {}, true, now1);
    FindByGatewayIdUnique(s1, i);
    HandleUpdatesKnown(r1.state, req, gateway, generatedRef, now2, d, i);
    UpperIdempotent(d.status.value);
  }

  /** A delivery for a payment the store already holds rewrites that record in place and logs one event. */
  lemma HandleUpdatesKnown(st: State, req: Request, gateway: nat -> FetchOutcome, generatedRef: string,
                           now: int, d: Details, i: nat)
    requires Classify(req).PaymentNotice? && FetchDetails(gateway).details == Some(d) && d.status.Some?
    requires FindByGatewayId(st.store, Classify(req).id) == Some(i)
    ensures var s2 := Handle(st, req, gateway, generatedRef, {}, true, now).state.store;
      && s2.payments == st.store.payments[i := WithStatus(st.store.payments[i], d.status.value, UpdateDataOf(d), now)]
      && |s2.events| == |st.store.events| + 1
      && s2.payments[i].mpRejectionReason.None?
  {
    HandleUnfold(st, req, gateway, generatedRef, {}, true, now, d);
    ReconcileUpdates(st.store, Classify(req).id, d, EventType(req), req.serializedBody, generatedRef, now, i);
    var rec := Reconcile(st.store, Classify(req).id, d, EventType(req), req.serializedBody, generatedRef, {}, now);
    MarkStepAfterLog(rec, st.store.events, now);
  }
}

=== FILE: webhook_input.dfy ===
/**
 * What the payment webhook reads from a notification and from the
 * gateway's detail record: the event type and payment id of the request,
 * the bounded detail fetch, and the pure pickers for the buyer's e-mail,
 * name and items.
 */
module WebhookInput {
  import opened Wrappers
  import opened Text
  import opened EmailRules
  import PaymentStore

  // ---------------------------------------------------------------------------
  // The gateway's detail record; every field may be missing

  datatype Payer = Payer(
    firstName: Option<string>,
    lastName: Option<string>,
    email: Option<string>,
    identificationNumber: Option<string>)

  datatype Metadata = Metadata(
    buyerEmail: Option<string>,
    customerName: Option<string>,
    payerCpf: Option<string>,
    orderId: Option<string>)

  /** An entry of `additional_info.items`, with both spellings of the unit price. */
  datatype RawItem = RawItem(
    title: Option<string>,
    quantity: Option<real>,
    unitPriceSnake: Option<real>,
    unitPriceCamel: Option<real>)

  /** `additional_info`; `items` is `None` when it is not an array. */
  datatype AdditionalInfo = AdditionalInfo(payer: Payer, items: Option<seq<RawItem>>)

  /**
   * The projection `getPaymentDetails` returns. It keeps `status_detail`
   * and `date_last_updated` but not the rejection reason, so the handler's
   * read of `rejection_reason` always finds nothing.
   */
  datatype Details = Details(
    id: string,
    status: Option<string>,
    statusDetail: Option<string>,
    dateLastUpdated: Option<string>,
    externalReference: Option<string>,
    transactionAmount: Option<real>,
    paymentMethodId: Option<string>,
    description: Option<string>,
    payer: Payer,
    metadata: Metadata,
    additionalInfo: AdditionalInfo,
    ticketUrl: Option<string>)

  // ---------------------------------------------------------------------------
  // pickBuyerEmail, pickName, pickItems

  /** The buyer e-mail sources, in the order `pickBuyerEmail` tries them. */
  function BuyerEmailSources(d: Details): seq<Option<string>> {
    [d.metadata.buyerEmail, d.additionalInfo.payer.email, d.payer.email]
  }

  /**
   * `pickBuyerEmail`: the first non-empty source, kept only when it is a
   * valid, non-placeholder address.
   */
  function PickBuyerEmail(d: Details): (r: Option<string>)
    ensures r.Some? ==> IsValidEmail(r) && r in BuyerEmailSources(d)
  {
    var a := FirstTruthy(BuyerEmailSources(d));
    if IsValidEmail(a) then a else None
  }

  /**
   * The first non-empty source decides alone: it is the answer when valid,
   * and a later source is never used when it is rejected.
   */
  lemma PickBuyerEmailNoFallThrough(d: Details)
    ensures Truthy(d.metadata.buyerEmail) ==>
      PickBuyerEmail(d) == (if IsValidEmail(d.metadata.buyerEmail) then d.metadata.buyerEmail else None)
    ensures !Truthy(d.metadata.buyerEmail) && Truthy(d.additionalInfo.payer.email) ==>
      PickBuyerEmail(d) == (if IsValidEmail(d.additionalInfo.payer.email) then d.additionalInfo.payer.email else None)
    ensures !Truthy(d.metadata.buyerEmail) && !Truthy(d.additionalInfo.payer.email) ==>
      PickBuyerEmail(d) == (if IsValidEmail(d.payer.email) then d.payer.email else None)
  {
    FirstOfThree(d.metadata.buyerEmail, d.additionalInfo.payer.email, d.payer.email);
  }

  /** `[a, b].filter(Boolean).join(' ')`. */
  function JoinPresent(a: Option<string>, b: Option<string>): (r: string)
    ensures !Truthy(a) && !Truthy(b) <==> r == ""
    ensures Truthy(a) && Truthy(b) ==> r == a.value + " " + b.value
    ensures Truthy(a) != Truthy(b) ==> r == (if Truthy(a) then a.value else b.value)
  {
    if Truthy(a) && Truthy(b) then a.value + " " + b.value
    else if Truthy(a) then a.value
    else if Truthy(b) then b.value
    else ""
  }

  /** `pickName`: the payer's joined, trimmed first and last name, else `metadata.customer_name`. */
  function PickName(d: Details): (r: Option<string>)
    ensures r.Some? ==> r.value != ""
    ensures Trim(JoinPresent(d.payer.firstName, d.payer.lastName)) != "" ==>
      r == Some(Trim(JoinPresent(d.payer.firstName, d.payer.lastName)))
    ensures Trim(JoinPresent(d.payer.firstName, d.payer.lastName)) == "" ==>
      r == FirstTruthy([d.metadata.customerName])
  {
    var fromPayer := Trim(JoinPresent(d.payer.firstName, d.payer.lastName));
    if fromPayer != "" then Some(fromPayer)
    else if Truthy(d.metadata.customerName) then d.metadata.customerName
    else None
  }

  /** `a || b || ...` over numbers: a present, non-zero candidate. */
  predicate NonZero(x: Option<real>) {
    x.Some? && x.value != 0.0
  }

  /** The first of the given numbers that is present and non-zero (`a || b || ...`), else `fallback`. */
  function FirstNonZero(xs: seq<Option<real>>, fallback: real): (r: real)
    ensures r == fallback || exists k :: 0 <= k < |xs| && xs[k] == Some(r) && r != 0.0
    ensures (forall k :: 0 <= k < |xs| ==> !NonZero(xs[k])) ==> r == fallback
    ensures forall k :: 0 <= k < |xs| && NonZero(xs[k]) && (forall j :: 0 <= j < k ==> !NonZero(xs[j])) ==>
      r == xs[k].value
  {
    if |xs| == 0 then fallback
    else if NonZero(xs[0]) then xs[0].value
    else
      var r := FirstNonZero(xs[1..], fallback);
      assert forall k :: 1 <= k < |xs| ==> xs[k] == xs[1..][k - 1];
      r
  }

  /** The present, non-zero candidates, in order. */
  function NonZeroValues(xs: seq<Option<real>>): (r: seq<real>)
    ensures |r| <= |xs|
    ensures forall i :: 0 <= i < |r| ==> r[i] != 0.0
  {
    if |xs| == 0 then []
    else (if NonZero(xs[0]) then [xs[0].value] else []) + NonZeroValues(xs[1..])
  }

  /** `a || b || fallback` takes the head of the non-zero candidates, else the fallback. */
  lemma {:induction false} FirstNonZeroIsFirstOfNonZero(xs: seq<Option<real>>, fallback: real)
    ensures FirstNonZero(xs, fallback) == if NonZeroValues(xs) == [] then fallback else NonZeroValues(xs)[0]
  {
    if |xs| > 0 && !NonZero(xs[0]) {
      FirstNonZeroIsFirstOfNonZero(xs[1..], fallback);
    }
  }

  /** One entry of `pickItems`: `Number(quantity || 1)` and `Number(unit_price || unitPrice || 0)`. */
  function ItemOf(it: RawItem): (r: PaymentStore.Item)
    ensures r.title == it.title
    ensures r.quantity == (if NonZero(it.quantity) then it.quantity.value else 1.0)
    ensures r.unitPrice == (if NonZero(it.unitPriceSnake) then it.unitPriceSnake.value
                            else if NonZero(it.unitPriceCamel) then it.unitPriceCamel.value
                            else 0.0)
  {
    var q := [it.quantity];
    var p := [it.unitPriceSnake, it.unitPriceCamel];
    assert q[0] == it.quantity && p[0] == it.unitPriceSnake && p[1] == it.unitPriceCamel;
    PaymentStore.Item(it.title, FirstNonZero(q, 1.0), FirstNonZero(p, 0.0))
  }

  /**
   * `pickItems`: one entry per element of `additional_info.items` (none
   * when it is not an array), keeping the title. The quantity is the
   * item's own when present and non-zero, else 1; the unit price is
   * `unit_price` when present and non-zero, else `unitPrice` when present
   * and non-zero, else 0.
   */
  function PickItems(d: Details): (r: seq<PaymentStore.Item>)
    ensures d.additionalInfo.items.None? ==> r == []
    ensures d.additionalInfo.items.Some? ==> |r| == |d.additionalInfo.items.value|
    ensures forall k :: 0 <= k < |r| ==>
      var it := d.additionalInfo.items.value[k];
      && r[k].title == it.title
      && r[k].quantity != 0.0
      && r[k].quantity == (if NonZero(it.quantity) then it.quantity.value else 1.0)
      && r[k].unitPrice == (if NonZero(it.unitPriceSnake) then it.unitPriceSnake.value
                            else if NonZero(it.unitPriceCamel) then it.unitPriceCamel.value
                            else 0.0)
  {
    match d.additionalInfo.items
    case None => []
    case Some(items) => seq(|items|, k requires 0 <= k < |items| => ItemOf(items[k]))
  }

  // ---------------------------------------------------------------------------
  // The recency map behind duplicate-mail suppression

  /** Five minutes, in milliseconds. */
  const RecentWindow: int := 300000

  /** `wasRecentlySent`: a non-zero timestamp recorded for `id` less than five minutes before `now`. */
  predicate WasRecentlySent(sent: map<string, int>, id: string, now: int) {
    id in sent && sent[id] != 0 && now - sent[id] < RecentWindow
  }

  /** `markSent`: records `now` for `id`. */
  function MarkSent(sent: map<string, int>, id: string, now: int): (r: map<string, int>)
    ensures r.Keys == sent.Keys + {id}
    ensures r[id] == now
    ensures forall k :: k in sent && k != id ==> r[k] == sent[k]
  {
    sent[id := now]
  }

  /** A mark at a non-zero time suppresses the same id for the next five minutes, and only for that id. */
  lemma MarkSentSuppresses(sent: map<string, int>, id: string, now: int, later: int)
    requires now != 0 && later < now + RecentWindow
    ensures WasRecentlySent(MarkSent(sent, id, now), id, later)
    ensures forall other :: other != id ==>
      (WasRecentlySent(MarkSent(sent, id, now), other, later) <==> WasRecentlySent(sent, other, later))
  {
  }

  // ---------------------------------------------------------------------------
  // Classifying the request

  /** The parts of the notification the handler reads; `None` is a missing field or unparsable body. */
  datatype Request = Request(
    bodyType: Option<string>,
    bodyAction: Option<string>,
    bodyDataId: Option<string>,
    query: map<string, string>,
    serializedBody: string)

  /** `searchParams.get(k)`. */
  function Param(q: map<string, string>, k: string): (r: Option<string>)
    ensures r.Some? <==> k in q
    ensures r.Some? ==> r.value == q[k]
  {
    if k in q then Some(q[k]) else None
  }

  function TypeSources(req: Request): seq<Option<string>> {
    [req.bodyType, req.bodyAction, Param(req.query, "type"), Param(req.query, "topic"), Param(req.query, "action")]
  }

  function IdSources(req: Request): seq<Option<string>> {
    [req.bodyDataId, Param(req.query, "data.id"), Param(req.query, "id")]
  }

  /** The event type: the first non-empty of body type, body action and the query's type, topic and action, else empty. */
  function EventType(req: Request): (r: string)
    ensures r == "" <==> forall k :: 0 <= k < 5 ==> !Truthy(TypeSources(req)[k])
    ensures r != "" ==>
      exists k :: 0 <= k < 5 && TypeSources(req)[k] == Some(r) && forall j :: 0 <= j < k ==> !Truthy(TypeSources(req)[j])
  {
    FirstTruthy(TypeSources(req)).GetOr("")
  }

  /** `body.type || body.action || type || topic || action || ''`, one `||` at a time. */
  lemma EventTypeCascade(req: Request)
    ensures EventType(req) ==
      OrElse(req.bodyType, OrElse(req.bodyAction, OrElse(Param(req.query, "type"),
        OrElse(Param(req.query, "topic"), OrElse(Param(req.query, "action"), "")))))
  {
    var t1, t2, t3, t4, t5 := req.bodyType, req.bodyAction, Param(req.query, "type"),
                              Param(req.query, "topic"), Param(req.query, "action");
    assert TypeSources(req) == [t1] + ([t2] + ([t3] + ([t4] + ([t5] + []))));
    FirstTruthyConsOr(t5, [], "");
    FirstTruthyConsOr(t4, [t5] + [], "");
    FirstTruthyConsOr(t3, [t4] + ([t5] + []), "");
    FirstTruthyConsOr(t2, [t3] + ([t4] + ([t5] + [])), "");
    FirstTruthyConsOr(t1, [t2] + ([t3] + ([t4] + ([t5] + []))), "");
  }

  /** The payment id: the first non-empty of body `data.id` and the query's `data.id` and `id`. */
  function PaymentIdOf(req: Request): (r: Option<string>)
    ensures r.None? <==> forall k :: 0 <= k < 3 ==> !Truthy(IdSources(req)[k])
    ensures r.Some? ==> r.value != ""
    ensures r.Some? ==>
      exists k :: 0 <= k < 3 && IdSources(req)[k] == r && forall j :: 0 <= j < k ==> !Truthy(IdSources(req)[j])
  {
    FirstTruthy(IdSources(req))
  }

  /** `body.data.id || data.id || id || null`, one `||` at a time. */
  lemma PaymentIdCascade(req: Request)
    ensures PaymentIdOf(req) ==
      if Truthy(req.bodyDataId) then req.bodyDataId
      else KeepTruthy(if Truthy(Param(req.query, "data.id")) then Param(req.query, "data.id") else Param(req.query, "id"))
  {
    FirstOfThree(req.bodyDataId, Param(req.query, "data.id"), Param(req.query, "id"));
  }

  datatype Classification = NotPayment | NoPaymentId | PaymentNotice(id: string)

  /**
   * A request is about a payment when its type mentions "payment" or it
   * carries an id; one about a payment without an id cannot be processed.
   */
  function Classify(req: Request): (r: Classification)
    ensures r.NotPayment? <==> !Contains(EventType(req), "payment") && PaymentIdOf(req).None?
    ensures r.NoPaymentId? <==> Contains(EventType(req), "payment") && PaymentIdOf(req).None?
    ensures r.PaymentNotice? <==> PaymentIdOf(req).Some?
    ensures r.PaymentNotice? ==> r.id != "" && Some(r.id) in IdSources(req)
  {
    match PaymentIdOf(req)
    case Some(id) => PaymentNotice(id)
    case None => if Contains(EventType(req), "payment") then NoPaymentId else NotPayment
  }

  /** A body `data.id` makes the request a notice for that id, whatever the query and the type say. */
  lemma BodyIdDecides(req: Request)
    requires Truthy(req.bodyDataId)
    ensures Classify(req) == PaymentNotice(req.bodyDataId.value)
  {
    PaymentIdCascade(req);
  }

  /** Without any id the type alone decides: a payment type is reported as missing its id, anything else is ignored. */
  lemma NoIdTypeDecides(req: Request)
    requires !Truthy(req.bodyDataId) && !Truthy(Param(req.query, "data.id")) && !Truthy(Param(req.query, "id"))
    ensures Classify(req) == if Contains(EventType(req), "payment") then NoPaymentId else NotPayment
  {
    PaymentIdCascade(req);
  }

  // ---------------------------------------------------------------------------
  // Fetching the details with bounded retry

  /** One call of the gateway's detail lookup: an answer (possibly empty) or a thrown error. */
  datatype FetchOutcome = Answered(details: Option<Details>) | Threw

  predicate Succeeded(o: FetchOutcome) {
    o.Answered? && o.details.Some?
  }

  const MaxAttempts: nat := 3

  /** The sleep after failed attempt `i`, in milliseconds. */
  const BackoffStep: nat := 300

  /** The details obtained (if any), how many calls were made, and the attempts after which the loop slept. */
  datatype Fetched = Fetched(details: Option<Details>, attempts: nat, sleptAfter: seq<nat>) {
    /** The sleeps, in milliseconds, in order. */
    function Delays(): seq<nat> {
      seq(|sleptAfter|, k requires 0 <= k < |sleptAfter| => BackoffStep * sleptAfter[k])
    }
  }

  /**
   * The fetch loop from attempt `i` on, with `gateway(j)` the outcome of
   * the `j`-th call: stop at the first call that yields details; sleep
   * only after a call that threw, and only before another attempt.
   */
  function FetchFrom(i: nat, gateway: nat -> FetchOutcome): (r: Fetched)
    requires 1 <= i <= MaxAttempts
    ensures i <= r.attempts <= MaxAttempts
    ensures r.details.Some? ==> gateway(r.attempts) == Answered(r.details)
    ensures forall j :: i <= j < r.attempts ==> !Succeeded(gateway(j))
    ensures r.details.None? ==> r.attempts == MaxAttempts && !Succeeded(gateway(MaxAttempts))
    ensures forall j :: j in r.sleptAfter <==> i <= j < r.attempts && gateway(j).Threw?
    ensures forall k :: 0 <= k < |r.sleptAfter| ==> i <= r.sleptAfter[k] < r.attempts
    ensures forall a, b :: 0 <= a < b < |r.sleptAfter| ==> r.sleptAfter[a] < r.sleptAfter[b]
    decreases MaxAttempts - i
  {
    match gateway(i)
    case Answered(Some(d)) => Fetched(Some(d), i, [])
    case Answered(None) =>
      if i == MaxAttempts then Fetched(None, i, []) else FetchFrom(i + 1, gateway)
    case Threw =>
      if i == MaxAttempts then Fetched(None, i, [])
      else
        var rest := FetchFrom(i + 1, gateway);
        rest.(sleptAfter := [i] + rest.sleptAfter)
  }

  /** The whole fetch loop: attempts 1 to 3. */
  function FetchDetails(gateway: nat -> FetchOutcome): (r: Fetched)
    ensures 1 <= r.attempts <= MaxAttempts
    ensures r.details.Some? <==> exists j :: 1 <= j <= MaxAttempts && Succeeded(gateway(j))
    ensures r.details.Some? ==> gateway(r.attempts) == Answered(r.details)
    ensures forall j :: 1 <= j < r.attempts ==> !Succeeded(gateway(j))
  {
    FetchFrom(1, gateway)
  }

  /** The loop sleeps at most twice, 300 ms after a first failure and 600 ms after a second. */
  lemma {:induction false} FetchDelaysBounded(gateway: nat -> FetchOutcome)
    ensures var f := FetchDetails(gateway);
      && |f.sleptAfter| <= MaxAttempts - 1
      && forall k :: 0 <= k < |f.Delays()| ==> f.Delays()[k] == BackoffStep * f.sleptAfter[k] <= BackoffStep * (MaxAttempts - 1)
  {
    var f := FetchDetails(gateway);
    var s := f.sleptAfter;
    assert forall k :: 0 <= k < |s| ==> 1 <= s[k] < MaxAttempts;
  }
}

=== FILE: wrappers.dfy ===
/** Optional values, standing in for JavaScript's `undefined`/`null`. */
module Wrappers {

  datatype Option<+T> = None | Some(value: T) {

    /** The value, or `default` when there is none (JavaScript's `??`). */
    function GetOr(default: T): T {
      match this
      case Some(v) => v
      case None => default
    }
  }

  /** A JavaScript number after `Number(...)`: finite, NaN, or an infinity. */
  datatype JsNumber = Finite(value: real) | NaN | Infinite(negative: bool) {

    /** JavaScript truthiness of a number: neither zero nor NaN. */
    predicate Truthy() {
      Infinite? || (Finite? && value != 0.0)
    }
  }
}
